=== FILE: README.md ===
# Spotify Wrapper: a Dafny model of its decision logic

Spotify Wrapper is a web application. A Django backend keeps a user's
Spotify session token and stores generated "wraps": snapshots of their top
tracks and artists. A React front end shows those wraps as slide decks,
keeps a local history and plays a release-year quiz. It also has login,
registration, a dashboard and an OAuth callback page.

This project models the sequential logic inside that glue as pure Dafny
functions and small state machines, and proves what it guarantees:

- **Slide decks.** The 9-slide Wrapped deck, the 10-slide Duo Wrapped deck,
  the server-rendered static deck and the Material UI deck. They share a
  bounded 1-based index rule (`Deck`), top-five slicing and the countdown
  index guards (`Rows`).
- **History lists.**
  - The locally stored history: dedupe by time range, first stored wins,
    then a stable newest-first sort (`WrappedHistory`, `Sorting`).
  - The server-side history page with its delete modal (`WrapHistory`) and
    its older confirm-dialog version (`LegacyWrapHistory`). Both filter
    through `WrapFilter.Remove`.
- **The release-year quiz** (`SongGuessingGame`).
  - Shuffles are caller-chosen transpositions, so any permutation can
    occur.
  - The two-second timer is an explicit `Tick` holding the values its
    closure captured.
  - The current year and release years are integers.
- **Auth and request outcomes.**
  - The auth context (`AuthContext`), the route guard and route table
    (`AppRoutes`), and the register and login forms (`AuthForms`).
  - The dashboard (`Dashboard`) and both OAuth callback pages
    (`SpotifyCallback`, `LegacySpotifyCallback`).
  - Every backend call is an `Outcome`: `Ok(data)` or `Err(HttpError)`.
- **Backend views** (`SpotifyViews`).
  - The authorize parameters, the code exchange, playlists and wrapped data
    behind the session token.
  - The wrap table as a sequence of rows: history, detail, latest, delete
    and create, with their status-code ordering.
  - Calls into Spotify are `Raised` values: a result, or the exception text
    the view returns.
  - The `IsAuthenticated` permission in front of every view except the
    authorize and callback views. With session authentication only, an
    anonymous request gets 403 before the view body runs.
- **Small utilities.** The dotted-key translation lookup (`Language`), the
  theme toggle (`Theme`) and share-text composition (`Share`).

JavaScript truthiness is written out wherever the code relies on it. The
empty string is falsy and objects are truthy.

Two behaviours of the code are easy to misread, and the model follows the
code in both:

- `logout` in `frontend/src/context/AuthContext.js` keeps the user and the
  Spotify flag when the backend call fails. Its doc comment (lines 87-93)
  says it clears both and throws, but the catch block only logs the error.
- `/wrapped/:wrapId` (`frontend/src/App.js`, lines 91-94) renders the
  locally stored history component (`WrappedHistory`), not the Duo Wrapped
  deck.

## Model

| member | source | states |
|---|---|---|
| Deck.Start | frontend/src/components/Wrapped/Wrapped.js:125 | a deck starts on slide 1 and is in range whenever it has a slide |
| Deck.Next | frontend/src/components/Wrapped/Wrapped.js:146-150 | Next changes the index exactly when it is below the slide count, and then by +1; it keeps the index in range |
| Deck.Previous | frontend/src/components/Wrapped/Wrapped.js:152-156 | Previous changes the index exactly when it is above 1, and then by -1; it keeps the index in range |
| Deck.NextPreviousInverse | frontend/src/components/Wrapped/Wrapped.js:146-156 | a step forward that moved is undone by a step back, and the other way round |
| Deck.RunInRange | frontend/src/components/DuoWrapped/DuoWrapped.js:56-66 | any sequence of clicks keeps the index in [1, count] |
| Deck.ForwardsReach | frontend/src/components/Wrapped/Wrapped.js:146-150 | k clicks on Next from slide c reach slide min(c + k, count) |
| Rows.TopRows | frontend/src/components/Wrapped/Wrapped.js:181 | at most five rows, row i shows item i with rank i + 1 |
| Rows.TopRowsPrefix | frontend/src/components/Wrapped/Wrapped.js:181 | the rows show a prefix of the list in its order, the whole list when it has at most five items |
| Rows.GenreLineCases | frontend/src/components/Wrapped/Wrapped.js:69 | "Genre unavailable" shows exactly when genres are missing, empty or a single empty string; otherwise the first one or two genres joined by the file's separator literal " â€¢ " (U+00E2 U+20AC U+00A2) |
| Rows.CountdownAt | frontend/src/components/Wrapped/Wrapped.js:254-256 | a countdown entry renders exactly when that index exists, showing that track |
| Wrapped.Slides | frontend/src/components/Wrapped/Wrapped.js:162-357 | the deck has nine slides |
| Wrapped.SlideButtons | frontend/src/components/Wrapped/Wrapped.js:162-357 | the first slide offers only Next, the last only Previous, all others both |
| Wrapped.CountdownSlides | frontend/src/components/Wrapped/Wrapped.js:254-300 | slides 6, 7, 8 count down recent tracks #3, #2, #1 (indices 2, 1, 0), each shown only when present |
| Wrapped.Init | frontend/src/components/Wrapped/Wrapped.js:125-128 | slide 1, loading, no data, no error |
| Wrapped.Loaded | frontend/src/components/Wrapped/Wrapped.js:130-144 | the fetch stores the body or sets the load error; loading ends either way and the index is kept |
| Wrapped.ViewOf | frontend/src/components/Wrapped/Wrapped.js:158-363 | loading, then error, then missing data; the slide exactly when loaded with data and no error, and it is `slides[currentSlide - 1]` for the current index |
| Wrapped.RunValid | frontend/src/components/Wrapped/Wrapped.js:146-156 | whatever is fetched or clicked, the index stays in [1, 9] |
| Wrapped.FirstScreen | frontend/src/components/Wrapped/Wrapped.js:130-160 | a failed fetch shows the error, a null body "no data", a body its first slide |
| Wrapped.OfferedButtonsMove | frontend/src/components/Wrapped/Wrapped.js:8-31 | Next is offered exactly when it moves forward, Previous exactly when it moves back |
| DuoWrapped.Slides | frontend/src/components/DuoWrapped/DuoWrapped.js:72-343 | the deck has ten slides |
| DuoWrapped.SlideFacts | frontend/src/components/DuoWrapped/DuoWrapped.js:72-343 | first slide only Next, last only Previous; each comparison side lists a prefix of its own wrap |
| DuoWrapped.CountdownSides | frontend/src/components/DuoWrapped/DuoWrapped.js:218-296 | slides 7 to 9 compare recent tracks at indices 2, 1, 0, each side only when present |
| DuoWrapped.Init | frontend/src/components/DuoWrapped/DuoWrapped.js:19-23 | slide 1, loading, no wraps, no error |
| DuoWrapped.LoadAsWritten | frontend/src/components/DuoWrapped/DuoWrapped.js:30-50 | both fetches succeed: the shared wrap and the `wrap_data` member of the user's body are stored; any failure sets the load error |
| DuoWrapped.Load | frontend/src/components/DuoWrapped/DuoWrapped.js:30-50 | the same fetch, reading the user's lists from the body's top level |
| DuoWrapped.Mounted | frontend/src/components/DuoWrapped/DuoWrapped.js:30-53 | without a wrap id and a user nothing is fetched and the state stays initial; otherwise two successes store the shared wrap and the body's `wrap_data` member, and any failure stores the load error |
| DuoWrapped.MountedCorrected | frontend/src/components/DuoWrapped/DuoWrapped.js:30-53 | the same mount reading the user's lists from the body's top level |
| DuoWrapped.MountedShowsNoData | frontend/src/components/DuoWrapped/DuoWrapped.js:42 | mounted with a wrap id and a user, two successful requests whose body has no `wrap_data` show "No data available"; the corrected mount shows the intro slide |
| DuoWrapped.ViewOf | frontend/src/components/DuoWrapped/DuoWrapped.js:68-70 | loading, then error, then "No data available" exactly when a wrap is missing, and the current slide exactly when neither is missing |
| DuoWrapped.NoFetchKeepsLoading | frontend/src/components/DuoWrapped/DuoWrapped.js:51-53 | without a wrap id or a user the page shows "Loading..." for good |
| DuoWrapped.AsWrittenShowsNoData | frontend/src/components/DuoWrapped/DuoWrapped.js:42 | a body without a `wrap_data` member leaves the user's wrap unset, so a successful load shows "No data available" |
| DuoWrapped.CorrectedShowsIntro | frontend/src/components/DuoWrapped/DuoWrapped.js:36-47 | reading the lists themselves, two successful fetches show the intro slide |
| DuoWrapped.NavigationValid | frontend/src/components/DuoWrapped/DuoWrapped.js:56-66 | navigation keeps the index in [1, 10] and is a no-op at the ends |
| StaticWrap.ShowSlide | spotifyWrapper/static/js/wrap.js:4-16 | slide n alone becomes active and the buttons are disabled exactly at the ends; a missing slide element clears the slides and fails |
| StaticWrap.LoadedShowsFirst | spotifyWrapper/static/js/wrap.js:33-35 | loading shows slide 1 alone, or fails on a page without slides |
| StaticWrap.NavigationConsistent | spotifyWrapper/static/js/wrap.js:18-30 | each handler changes the page exactly when its button is enabled, by one slide, and keeps it consistent |
| StaticWrap.RunConsistent | spotifyWrapper/static/js/wrap.js:4-30 | after any clicks exactly one slide is active |
| SpotifyWrap.Loaded | frontend/src/components/SpotifyWrap.js:35-47 | the fetch stores the record or keeps the old one; loading ends either way |
| SpotifyWrap.Click | frontend/src/components/SpotifyWrap.js:86-97 | a disabled button does nothing; an enabled one runs its unguarded update |
| SpotifyWrap.UpdateLeavesRange | frontend/src/components/SpotifyWrap.js:86-97 | the Previous update on slide 1 alone would reach slide 0 |
| SpotifyWrap.ClickInRange | frontend/src/components/SpotifyWrap.js:86-97 | with the disabled flags, a click keeps the index in range |
| SpotifyWrap.RunInRange | frontend/src/components/SpotifyWrap.js:86-97 | any sequence of clicks keeps the index in range |
| SpotifyWrap.ExactlyOneActive | frontend/src/components/SpotifyWrap.js:80 | in range, exactly the slide whose id equals the index is active |
| SpotifyWrap.ViewOf | frontend/src/components/SpotifyWrap.js:49-73 | spinner while loading, "No data found" without a record; the deck exactly when a record has loaded (two render-time throws aside), showing its first min(5, n) artists in order |
| Sorting.SortDescSorted | frontend/src/components/Wrapped/WrappedHistory.js:25 | the sort is a permutation ordered by descending key |
| Sorting.SortDescStable | frontend/src/components/Wrapped/WrappedHistory.js:25 | among equal keys the stored order is kept |
| WrappedHistory.FirstsRanges | frontend/src/components/Wrapped/WrappedHistory.js:16-23 | the kept snapshots cover exactly the stored time ranges |
| WrappedHistory.FirstsUnique | frontend/src/components/Wrapped/WrappedHistory.js:16-23 | no two kept snapshots share a time range |
| WrappedHistory.FirstsKeepFirst | frontend/src/components/Wrapped/WrappedHistory.js:17-21 | the first stored snapshot of every range is kept |
| WrappedHistory.DedupeIsFirsts | frontend/src/components/Wrapped/WrappedHistory.js:16-23 | the `reduce` equals the reference "first of each range, in stored order" |
| WrappedHistory.HistoryFacts | frontend/src/components/Wrapped/WrappedHistory.js:16-25 | the history is newest first, drawn from the stored list, one per range, covers every range, keeps each first one, and is empty exactly when nothing is stored |
| WrappedHistory.FirstStoredWins | frontend/src/components/Wrapped/WrappedHistory.js:17-21 | an earlier-stored snapshot wins over a newer one of the same range |
| WrappedHistory.TimeRangeText | frontend/src/components/Wrapped/WrappedHistory.js:37-48 | the three ranges map to "Last 4 Weeks", "Last 6 Months", "All Time" |
| WrappedHistory.TimeRangeLabels | frontend/src/components/Wrapped/WrappedHistory.js:37-48 | a label is non-empty exactly for the three ranges, and they get different labels |
| WrappedHistory.Toggle | frontend/src/components/Wrapped/WrappedHistory.js:59-61 | clicking the selected timestamp deselects, anything else selects the clicked wrap |
| WrappedHistory.ClickExpands | frontend/src/components/Wrapped/WrappedHistory.js:59-80 | after a click the entries sharing the clicked timestamp expand unless it was expanded; two clicks collapse it |
| WrappedHistory.AtMostOneExpanded | frontend/src/components/Wrapped/WrappedHistory.js:80 | with distinct timestamps at most one entry is expanded |
| WrappedHistory.StatOr | frontend/src/components/Wrapped/WrappedHistory.js:130-142 | a quick stat shows its value when truthy, else "N/A" |
| WrappedHistory.DetailsOf | frontend/src/components/Wrapped/WrappedHistory.js:91-142 | each section is the top-five rows of its own list; a stat shows the first artist's name, the first track's name or the first artist's first genre when that is non-empty, and "N/A" otherwise |
| WrappedHistory.ViewOf | frontend/src/components/Wrapped/WrappedHistory.js:50-80 | the no-history message exactly when the history is empty, else one entry per history item with its label, expanded as selected |
| WrapFilter.Remove | frontend/src/components/WrapHistory/WrapHistory.js:68 | a wrap is kept exactly when it was listed and its id differs |
| WrapFilter.RemoveAppend | frontend/src/components/WrapHistory/WrapHistory.js:68 | filtering distributes over concatenation, so kept wraps stay in order |
| WrapFilter.RemoveCount | frontend/src/components/WrapHistory/WrapHistory.js:68 | exactly the wraps with that id go |
| WrapFilter.RemoveAbsent | frontend/src/components/WrapHistory/WrapHistory.js:68 | an id not in the list leaves it unchanged |
| WrapFilter.RemoveIdempotent | frontend/src/components/WrapHistory/WrapHistory.js:68 | deleting twice is deleting once |
| WrapHistory.Fetched | frontend/src/components/WrapHistory/WrapHistory.js:39-49 | the fetched wraps or the load error; loading ends either way |
| WrapHistory.DeleteClick | frontend/src/components/WrapHistory/WrapHistory.js:56-58 | the modal opens for the clicked wrap |
| WrapHistory.Cancel | frontend/src/components/WrapHistory/WrapHistory.js:81-83 | the modal closes and forgets its wrap; wraps and alerts stay |
| WrapHistory.DeleteAlert | frontend/src/components/WrapHistory/WrapHistory.js:72-73 | the backend error when truthy, else "Failed to delete wrap", including for a missing or empty `error`; never an empty string |
| WrapHistory.Confirm | frontend/src/components/WrapHistory/WrapHistory.js:65-75 | success filters the list and resets the modal; failure keeps both and alerts |
| WrapHistory.ClickThenConfirm | frontend/src/components/WrapHistory/WrapHistory.js:56-70 | click then confirm removes exactly the wraps with that id, keeping the rest in order |
| WrapHistory.ClickThenCancel | frontend/src/components/WrapHistory/WrapHistory.js:56-83 | click then cancel only closes the modal |
| WrapHistory.ViewOf | frontend/src/components/WrapHistory/WrapHistory.js:85-119 | loading, then error; the card grid exactly when loaded, error-free and non-empty, each card titled and linked to `/wrapped/<id>` for its wrap; else the prompt to `/wrapped` with the modal state |
| WrapHistory.CardLinkRoutes | frontend/src/components/WrapHistory/WrapHistory.js:106 | each card's link is routed to the wrap page for that id |
| WrapHistory.PromptRoutes | frontend/src/components/WrapHistory/WrapHistory.js:112-118 | the generate prompt leads to the wrapped page |
| LegacyWrapHistory.Fetched | frontend/src/components/WrapHistory.js:35-44 | a failed fetch keeps the list; loading ends either way |
| LegacyWrapHistory.Delete | frontend/src/components/WrapHistory.js:49-58 | only a confirmed, successful delete filters the list |
| LegacyWrapHistory.ViewOf | frontend/src/components/WrapHistory.js:66-112 | the prompt to `/generate` exactly when the list is empty, else every title in order |
| LegacyWrapHistory.FailedFetchShowsPrompt | frontend/src/components/WrapHistory.js:98-111 | a failed first fetch shows the generate prompt |
| LegacyWrapHistory.DeclineKeepsAll | frontend/src/components/WrapHistory.js:49-58 | declining deletes nothing; a confirmed success leaves no wrap with that id |
| SongGuessingGame.KeepInRange | frontend/src/components/Games/SongGuessingGame.js:38-40 | exactly the years in (1950, currentYear] are kept |
| SongGuessingGame.KeepIncreasing | frontend/src/components/Games/SongGuessingGame.js:38-40 | the filter keeps the order |
| SongGuessingGame.KeepAll | frontend/src/components/Games/SongGuessingGame.js:38-40 | when every year is in range nothing is dropped |
| SongGuessingGame.OffsetYears | frontend/src/components/Games/SongGuessingGame.js:37-39 | the candidates are the true year plus each of the six offsets, increasing |
| SongGuessingGame.PossibleYears | frontend/src/components/Games/SongGuessingGame.js:37-40 | a year is possible exactly when it is an offset year in range; at most six, increasing |
| SongGuessingGame.Shuffle | frontend/src/components/Games/SongGuessingGame.js:42-47 | a shuffle is a permutation |
| SongGuessingGame.WrongYears | frontend/src/components/Games/SongGuessingGame.js:42-44 | min(3, possible) wrong years, drawn from the possible years |
| SongGuessingGame.WrongYearsFacts | frontend/src/components/Games/SongGuessingGame.js:37-44 | every wrong year is a distinct in-range offset year, never the true one |
| SongGuessingGame.YearOptions | frontend/src/components/Games/SongGuessingGame.js:35-50 | the options are a permutation of the wrong years plus the true year, which appears once; all distinct; one to four of them |
| SongGuessingGame.FourOptions | frontend/src/components/Games/SongGuessingGame.js:35-50 | with the true year three years inside the range, all six offsets survive and four options show |
| SongGuessingGame.Guess | frontend/src/components/Games/SongGuessingGame.js:62-78 | a repeat guess is a no-op; otherwise the answer is recorded, the score rises by one exactly on a match, and the advance is scheduled |
| SongGuessingGame.Tick | frontend/src/components/Games/SongGuessingGame.js:79-88 | before the last round the next round starts with the guess cleared; in the last round the captured score plus this point is reported |
| SongGuessingGame.StepValid | frontend/src/components/Games/SongGuessingGame.js:62-88 | every click or timer step keeps the game state valid |
| SongGuessingGame.RunValid | frontend/src/components/Games/SongGuessingGame.js:62-88 | from the start the round stays in [0, 2], the score in [0, 3], and at most one score is reported, at most 3 |
| SongGuessingGame.RepeatGuessesIgnored | frontend/src/components/Games/SongGuessingGame.js:63 | further guesses in a round change nothing |
| SongGuessingGame.OneRound | frontend/src/components/Games/SongGuessingGame.js:62-88 | a round's first click decides its point; later clicks are ignored |
| SongGuessingGame.PlayFrom | frontend/src/components/Games/SongGuessingGame.js:62-88 | playing to the end reports once the score so far plus the number of rounds hit |
| SongGuessingGame.ReportedScoreIsHits | frontend/src/components/Games/SongGuessingGame.js:79-88 | a whole game reports one score: the number of correct first guesses |
| SongGuessingGame.ViewOf | frontend/src/components/Games/SongGuessingGame.js:91-111 | "Not enough tracks" exactly without tracks or with fewer than three; else round 1 to 3 with the round's track, the year options drawn for it and the feedback text |
| SongGuessingGame.GuessMarksChoice | frontend/src/components/Games/SongGuessingGame.js:131-139 | a rendered button is marked only if it is the chosen year, as correct exactly on a match; before a guess none is marked |
| SongGuessingGame.RedrawCanDropChoice | frontend/src/components/Games/SongGuessingGame.js:100-101 | the options are drawn again on each render, so the year just guessed can be missing from the next draw and then no button is marked |
| Language.Walk | frontend/src/context/LanguageContext.js:31-34 | a walk that succeeds through at least one key ends on a truthy value |
| Language.WalkAppend | frontend/src/context/LanguageContext.js:31-34 | walking a path in two legs is walking it in one |
| Language.T | frontend/src/context/LanguageContext.js:27-37 | the key comes back when the walk fails, else a truthy value |
| Language.LookupPath | frontend/src/context/LanguageContext.js:27-37 | for a dotted path, `t` gives the value at that path when every segment resolves, and the key otherwise |
| Language.MissingSectionFallsBack | frontend/src/context/LanguageContext.js:33 | a missing first segment gives the key back |
| Language.EnglishHistoryTitle | frontend/src/translations/en.js:48-49 | "wrappedHistory.title" resolves in English |
| Language.OtherLanguagesFallBack | frontend/src/context/LanguageContext.js:31-33 | Spanish and French give the key itself for "wrappedHistory.title" |
| Language.SectionLookup | frontend/src/context/LanguageContext.js:36 | a section key returns the section table itself |
| Theme.Toggle | frontend/src/context/ThemeContext.js:20-22 | the result is "light" or "dark", and "dark" exactly from "light" |
| Theme.ToggleTwice | frontend/src/context/ThemeContext.js:15-22 | two toggles restore "light" and "dark"; the default "dark" toggles to "light" |
| Share.ShareTextLines | src/utils/shareUtils.ts:1-6 | the text splits into header, blank, "Top Artists:", names, blank, "Top Tracks:", names |
| Share.ShareTextNoTrailingNewline | src/utils/shareUtils.ts:5 | the text ends with the track names: no trailing newline unless no track is named |
| Share.NamesLineFacts | src/utils/shareUtils.ts:2-3 | at most the first three names in order; all of them when there are at most three; none from an empty list |
| Share.ShareableImage | src/utils/shareUtils.ts:8-12 | always null |
| Share.TweetText | frontend/src/components/ShareButton/ShareButton.js:10 | the share text over the recent artists' and tracks' names plus a newline; nothing when a list is missing |
| Share.TweetEndsWithNewline | frontend/src/components/ShareButton/ShareButton.js:10 | the tweet starts with the header and ends with a newline, unlike the share text |
| Share.ShareUrl | frontend/src/components/ShareButton/ShareButton.js:6 | the configured site URL when non-empty, else the page origin |
| AuthContext.Init | frontend/src/context/AuthContext.js:20-22 | no user, loading, Spotify unlinked |
| AuthContext.CheckAuth | frontend/src/context/AuthContext.js:37-48 | success stores the user; failure signs out and unlinks; loading ends |
| AuthContext.SignIn | frontend/src/context/AuthContext.js:60-69 | success stores and returns the user; failure rethrows with nothing changed |
| AuthContext.Logout | frontend/src/context/AuthContext.js:95-104 | user and flag cleared only after the backend confirms; a failure changes nothing |
| AuthContext.DeleteAccount | frontend/src/context/AuthContext.js:106-114 | success clears the user but keeps the Spotify flag; failure rethrows with nothing changed |
| AuthContext.SetSpotifyLinked | frontend/src/context/AuthContext.js:125 | sets only the Spotify flag |
| AuthContext.SignInThenLogout | frontend/src/context/AuthContext.js:81-104 | signing in then out leaves nobody signed in and Spotify unlinked |
| AuthContext.DeleteKeepsSpotifyFlag | frontend/src/context/AuthContext.js:95-114 | after deletion the Spotify flag can still be set, unlike after logout |
| AppRoutes.Protect | frontend/src/App.js:27-39 | placeholder while loading, login redirect without a user, children with one |
| AppRoutes.Resolve | frontend/src/App.js:68-107 | unknown paths match nothing, unguarded pages always show, a shown page is the one matched |
| AppRoutes.GuardedPaths | frontend/src/App.js:70-106 | exactly /dashboard, /wrapped, /wrapped/:wrapId and /wrap-history are guarded; the rest are not |
| AppRoutes.GuardDecides | frontend/src/App.js:27-39 | a guarded page shows exactly to a signed-in user once loaded; loading never redirects |
| AppRoutes.HomeShowsAuthLinks | frontend/src/App.js:61-66 | the Login/Register links show exactly without a user |
| AppRoutes.RedirectTargetOpen | frontend/src/App.js:70 | the login page is never guarded, so the redirect cannot loop |
| AuthForms.Payload | frontend/src/components/Auth/Register.js:51 | the payload is the form without `confirmPassword`, other fields unchanged |
| AuthForms.FieldErrorLines | frontend/src/components/Auth/Register.js:63-65 | a field map formats to one "field: m1, m2" line per entry, in order |
| AuthForms.EmptyFieldMapShowsNothing | frontend/src/components/Auth/Register.js:63-65 | an empty field map formats to the empty string |
| AuthForms.RegisterError | frontend/src/components/Auth/Register.js:59-74 | field map, else non-empty `error`, else non-empty `message`, else the generic text |
| AuthForms.RegisterErrorFallback | frontend/src/components/Auth/Register.js:72-74 | a failure without a body shows the generic message |
| AuthForms.SubmitRegister | frontend/src/components/Auth/Register.js:40-75 | a mismatch stops before any call; otherwise the payload is sent and success goes to the dashboard |
| AuthForms.LoginError | frontend/src/components/Auth/Login.js:38 | the backend message when non-empty, else "Login failed"; never empty |
| AuthForms.SubmitLogin | frontend/src/components/Auth/Login.js:31-40 | the form goes unchanged to `login`; success goes to the dashboard, failure shows the login error |
| Http.MessageOf | frontend/src/components/Auth/Login.js:38 | `err.response?.data?.message` when it is a non-empty string |
| Dashboard.Probe | frontend/src/components/Dashboard/Dashboard.js:19-32 | success links Spotify and keeps loading; a 401 unlinks without error; other failures set the probe error |
| Dashboard.Fetch | frontend/src/components/Dashboard/Dashboard.js:43-52 | the playlists, or [] for an empty body, or the fetch error; loading ends |
| Dashboard.Mounted | frontend/src/components/Dashboard/Dashboard.js:19-32 | the fetch runs only after a successful probe; loading always ends |
| Dashboard.CardOf | frontend/src/components/Dashboard/Dashboard.js:96-97 | a card falls back to "Untitled Playlist" and 0 tracks |
| Dashboard.ViewOf | frontend/src/components/Dashboard/Dashboard.js:54-101 | loading, then error; the connect prompt exactly when loaded, error-free and not linked; the grid of one card per playlist exactly when linked |
| Dashboard.MountedView | frontend/src/components/Dashboard/Dashboard.js:19-71 | a 401 probe shows the connect prompt, other failures their error, two successes the grid of every playlist |
| Dashboard.StartLogin | frontend/src/components/Dashboard/Dashboard.js:34-41 | the authorize URL to follow, or the connect error |
| SpotifyCallback.Handle | frontend/src/components/Spotify/SpotifyCallback.js:35-56 | no code: error and no post; only the exact success message links and navigates; a throw sets the auth error; loading ends |
| SpotifyCallback.ViewOf | frontend/src/components/Spotify/SpotifyCallback.js:61-82 | connecting while loading, then the error, else nothing |
| SpotifyCallback.CallbackOutcomes | frontend/src/components/Spotify/SpotifyCallback.js:41-54 | no code shows the error unposted; another message shows nothing and stays; a throw shows the auth error |
| LegacySpotifyCallback.Handle | frontend/src/components/SpotifyCallback.js:29-64 | no code goes to /error unposted; truthy data goes to the dashboard; a throw goes to /error |
| LegacySpotifyCallback.ViewOf | frontend/src/components/SpotifyCallback.js:69-74 | always "Connecting to Spotify..." |
| LegacySpotifyCallback.DashboardOnlyOnSuccess | frontend/src/components/SpotifyCallback.js:35-63 | the dashboard exactly for a posted code with truthy data; /error exactly for no code or a throw |
| SpotifyViews.AuthParams | spotifyApp/views.py:44-62 | client_id, response_type "code", redirect_uri and scope, in that order |
| SpotifyViews.ScopeList | spotifyApp/views.py:50-60 | the scope splits on spaces into the nine scopes in order |
| SpotifyViews.Callback | spotifyApp/views.py:183-196 | a falsy code is 400 with no exchange; success stores the token and says so; an exchange failure is 500 with its text |
| SpotifyViews.CallbackReachesDashboard | spotifyApp/views.py:194 | the success message is the one the callback page waits for, so it links Spotify and opens the dashboard |
| SpotifyViews.AccessToken | spotifyApp/views.py:220 | the token's `access_token`, or a KeyError |
| SpotifyViews.GetPlaylists | spotifyApp/views.py:211-223 | 401 without a token; 200 with the items; 500 on a missing `access_token`, missing items or a failed call |
| SpotifyViews.PlaylistsDriveDashboard | spotifyApp/views.py:211-223 | without a token the dashboard offers "Connect to Spotify"; a 500 shows the probe error |
| SpotifyViews.GetWrappedData | spotifyApp/views.py:238-258 | 401 without a token; 200 with the four lists at top level and no `wrap_data`; otherwise 500 |
| SpotifyViews.WrappedBodyAndDuoPage | spotifyApp/views.py:249-256 | the duo page as written shows "No data available" for this body; the corrected page shows a slide |
| SpotifyViews.OwnedBy | spotifyApp/views.py:274 | exactly the user's rows |
| SpotifyViews.GetWrapHistory | spotifyApp/views.py:273-282 | 200 with one row per wrap of the user |
| SpotifyViews.NewestFacts | spotifyApp/views.py:274 | the user's rows, newest first |
| SpotifyViews.HistoryRows | spotifyApp/views.py:275-280 | row i summarises the i-th newest wrap as id, date and title |
| SpotifyViews.HistoryNewestFirst | spotifyApp/views.py:274 | dates never increase down the list |
| SpotifyViews.HistoryOwned | spotifyApp/views.py:274 | every row is one of the user's wraps |
| SpotifyViews.HistoryComplete | spotifyApp/views.py:274-280 | every wrap of the user has a row |
| SpotifyViews.HistoryFacts | spotifyApp/views.py:273-282 | exactly the user's wraps, once per stored row, newest first |
| SpotifyViews.Find | spotifyApp/views.py:299 | the row with that id and user, or none exists |
| SpotifyViews.WrapDetail | spotifyApp/views.py:298-310 | the stored data, or a 204 after deleting; 404 for a wrap the user does not own |
| SpotifyViews.DeleteWrap | spotifyApp/views.py:345-353 | 204 with the row removed, or 404 with nothing changed |
| SpotifyViews.OtherUsersWrapHidden | spotifyApp/views.py:299-310 | another user's wrap is 404 for detail and delete, and the table is unchanged |
| SpotifyViews.DeleteRemovesOne | spotifyApp/views.py:345-348 | deleting an owned wrap removes that row and only it |
| SpotifyViews.GetLatestWrap | spotifyApp/views.py:325-329 | 404 "No wrap found" exactly when the user has none, else 200 with wrap data |
| SpotifyViews.LatestIsNewest | spotifyApp/views.py:325-327 | the latest is the user's, at least as recent as their others, and first in the history |
| SpotifyViews.RangeOf | spotifyApp/views.py:371 | an absent field gives "medium_term"; a string is taken as is |
| SpotifyViews.DateTextParse | spotifyApp/views.py:394 | the date text has three dash-separated digit fields reading back as year, month, day |
| SpotifyViews.DateTextLength | spotifyApp/views.py:394 | a four-digit year with a real month and day gives ten characters |
| SpotifyViews.CreateWrappedData | spotifyApp/views.py:370-399 | 400 for an invalid range before the token, then 401, then 200 storing and returning the new wrap; failures change nothing |
| SpotifyViews.Guarded | spotifyApp/views.py:199-201 | an anonymous request is answered 403 with the table unchanged; a signed-in one gets the view's answer |
| SpotifyViews.AnonymousRefused | spotifyWrapper/settings.py:158-165 | all seven guarded views refuse an anonymous request with 403, deleting and creating nothing |
| SpotifyViews.AnonymousProbeFails | spotifyApp/views.py:199-201 | an anonymous playlist probe gets 403, which the dashboard reports as the probe error; a signed-in one without a token gets 401 and the connect prompt |
| SpotifyViews.SharedAsRead | frontend/src/components/DuoWrapped/DuoWrapped.js:102-314 | the stored content read under the duo page's four list keys gives no list at all |
| SpotifyViews.DetailBodyEmptiesSharedSide | spotifyApp/views.py:304 | fed a detail body, every shared comparison column and countdown entry of the duo deck is empty |
| SpotifyViews.CreatedWrapListed | spotifyApp/views.py:371-397 | a created wrap has a valid range (medium_term by default) and is listed in its owner's history |
| Text.SplitJoin | frontend/src/context/LanguageContext.js:28 | pieces free of the separator survive a join then a split |
| Text.JoinSplit | frontend/src/context/LanguageContext.js:28 | joining a split with its separator gives the string back |
| Text.PadNatParse | spotifyApp/views.py:394 | zero padding reads back as the number |

## Left out

- Network and storage plumbing is not modelled: the axios instance, `requests`, `urlencode`, base64, `localStorage`, `window.open`, `window.location`, `alert` and confetti. Each backend call is an outcome value passed in.
- `Math.random` shuffles are given as lists of transpositions. Every permutation is one, so all outcomes are covered.
- `new Date(...)` parsing and the clock are integer inputs: release year, current year, timestamps and today's date.
- `setTimeout` is an explicit `Tick` event, and animations are omitted.
- The `spotify_auth` wrapper around the authorize URL, the URL encoding and the token exchange itself are not modelled. `AuthParams` gives the parameter map and `Callback` takes the exchange's result.
- Django's ORM is a sequence of rows with unique ids. `order_by('-date_generated')` is modelled as a stable sort, so rows with equal dates keep table order.
- Database failures inside the views (the 500 "Failed to fetch wrap history" and "Failed to delete wrap" answers) are not modelled.
- SpotifyViews.DateTextLength: Python's `%Y` pads years below 1000 on some platforms and not on others. The lemma covers four-digit years only.
- SpotifyViews.GetWrapHistory: `date_generated` is serialised with `isoformat()`. The model keeps the instant as an integer.
- Router details are not modelled: case-insensitive matching and trailing slashes in React Router.
- Language.Walk: indexing into a string leaf (JavaScript string properties such as `length` or digit indices) yields nothing rather than a character or number. Members that every object literal inherits from `Object.prototype` (`constructor`, `toString`, `__proto__` and the like) are also treated as missing keys, although `translation[k]` finds them, so `t("toString")` gives a function and `t("constructor.name")` gives "Object" in the program.
- DuoWrapped.LoadAsWritten: the shared wrap is taken as given, with the four lists the page reads. The stored content that `get_wrap_detail` returns has none of those keys. `SpotifyViews.DetailBodyEmptiesSharedSide` shows that every shared column is then empty.
- SongGuessingGame.GuessMarksChoice: the options are drawn again with `Math.random` on every render, including the one a guess causes. The lemma is about the class a button gets, not about which years the next draw shows; `SongGuessingGame.RedrawCanDropChoice` shows that the guessed year can vanish from the grid.
- SpotifyWrap.ViewOf: two render-time throws are not modelled. A truthy response body with no `data` member makes `wrapData.data.top_artists` throw, and an artist with an empty `images` list makes `artist.images[0].url` throw. In both cases the model shows the deck.
- Only a sample of the translation tables is used: the `welcome` and `wrappedHistory` sections.
- WrappedHistory.DetailsOf: missing `items` on a stored snapshot, which throws while rendering, is modelled as an empty list.
- Share.ShareTextLines: the share utility throws when `topArtists` or `topTracks` is missing. The model takes the name lists as given.
- AudioPreview, the navbars, the language and time-range selectors, the profile and personality pages, `Home.js`, `SpotifyAuth.js` and `components/Login.js` are presentational or single-call wrappers and are not part of this model. So are `src/pages/wrapped.tsx`, `src/components/ShareButton.tsx`, `userAuth` and the Django URL files and the rest of the settings.

## Findings

| source | as written | input that shows it | evidently intended | confidence | as-written member | corrected member |
|---|---|---|---|---|---|---|
| frontend/src/components/DuoWrapped/DuoWrapped.js:42 | the page reads `currentUserWrapResponse.data.wrap_data`, but `get_wrapped_data` (spotifyApp/views.py:249-256) returns the four lists at the top level and has no `wrap_data` member | both requests succeed; the current user's body is `{topArtistsRecent, topTracksRecent, ...}` | use the body itself as the current user's wrap | not executed | DuoWrapped.AsWrittenShowsNoData | DuoWrapped.CorrectedShowsIntro |

=== FILE: app_routes.dfy ===
/**
 * The application's routes and the `ProtectedRoute` guard: which page a
 * path shows, and, for guarded pages, whether the auth state lets it show.
 */
module AppRoutes {
  import opened Wrappers
  import AuthContext

  const LoginPath: string := "/login"
  const WrappedPrefix: string := "/wrapped/"

  /** What `ProtectedRoute` renders. */
  datatype Guarded = Placeholder | Redirect(to: string) | Children

  /** `ProtectedRoute`: "Loading..." while the auth check runs, then the login redirect or the children. */
  function Protect(auth: AuthContext.State): (r: Guarded)
    ensures auth.loading ==> r == Placeholder
    ensures !auth.loading && auth.user.None? ==> r == Redirect(LoginPath)
    ensures !auth.loading && auth.user.Some? ==> r == Children
  {
    if auth.loading then Placeholder
    else if auth.user.None? then Redirect(LoginPath)
    else Children
  }

  /** The pages of the route table (`/spotify/callback` and `/callback` both show the callback page). */
  datatype Page =
    | Home
    | LoginPage
    | RegisterPage
    | ProfilePage
    | DashboardPage
    | CallbackPage
    | WrappedPage
    | WrappedHistoryPage(wrapId: string)
    | WrapHistoryPage

  /** `/wrapped/:wrapId`: one non-empty segment after the prefix. */
  predicate IsWrapDetailPath(path: string)
  {
    |path| > |WrappedPrefix| && path[..|WrappedPrefix|] == WrappedPrefix && '/' !in path[|WrappedPrefix|..]
  }

  /** The route table. */
  function Match(path: string): Option<Page>
  {
    match path
    case "/" => Some(Home)
    case "/login" => Some(LoginPage)
    case "/register" => Some(RegisterPage)
    case "/profile" => Some(ProfilePage)
    case "/dashboard" => Some(DashboardPage)
    case "/spotify/callback" => Some(CallbackPage)
    case "/wrapped" => Some(WrappedPage)
    case "/wrap-history" => Some(WrapHistoryPage)
    case "/callback" => Some(CallbackPage)
    case _ => if IsWrapDetailPath(path) then Some(WrappedHistoryPage(path[|WrappedPrefix|..])) else None
  }

  /** The pages wrapped in `ProtectedRoute`. */
  predicate IsGuarded(p: Page)
  {
    p.DashboardPage? || p.WrappedPage? || p.WrappedHistoryPage? || p.WrapHistoryPage?
  }

  datatype Screen = NoRoute | Loading | RedirectTo(to: string) | Show(page: Page)

  /** The screen for `path` under the auth state `auth`. */
  function Resolve(auth: AuthContext.State, path: string): (s: Screen)
    ensures Match(path).None? ==> s == NoRoute
    ensures Match(path).Some? && !IsGuarded(Match(path).value) ==> s == Show(Match(path).value)
    ensures s.Show? ==> Match(path) == Some(s.page)
  {
    match Match(path)
    case None => NoRoute
    case Some(p) =>
      if !IsGuarded(p) then Show(p)
      else match Protect(auth)
        case Placeholder => Loading
        case Redirect(to) => RedirectTo(to)
        case Children => Show(p)
  }

  /**
   * Exactly the dashboard, the wrapped page, the wrap detail pages and the
   * wrap history are guarded; login, register, profile, home and both
   * callbacks are not.
   */
  lemma GuardedPaths(path: string)
    ensures Match(path).Some? && IsGuarded(Match(path).value) <==>
      path == "/dashboard" || path == "/wrapped" || path == "/wrap-history" || IsWrapDetailPath(path)
    ensures path in {"/", "/login", "/register", "/profile", "/spotify/callback", "/callback"} ==>
      Match(path).Some? && !IsGuarded(Match(path).value)
  {
    if IsWrapDetailPath(path) {
      assert path[..|WrappedPrefix|][1] == 'w' && path[..|WrappedPrefix|][5] == 'p';
      assert path[1] == 'w' && path[5] == 'p' && |path| > 9;
      assert path !in {"/", "/login", "/register", "/profile", "/dashboard", "/spotify/callback", "/wrapped", "/wrap-history", "/callback"};
    }
  }

  /**
   * A guarded page shows only to a signed-in user once the check is over;
   * while it runs nothing redirects, and a signed-out visitor is sent to
   * the login page.
   */
  lemma GuardDecides(auth: AuthContext.State, path: string)
    requires Match(path).Some? && IsGuarded(Match(path).value)
    ensures Resolve(auth, path).Show? <==> !auth.loading && auth.user.Some?
    ensures auth.loading ==> Resolve(auth, path) == Loading
    ensures !auth.loading && auth.user.None? ==> Resolve(auth, path) == RedirectTo(LoginPath)
  {
  }

  /** The home page shows the Login and Register links exactly when nobody is signed in. */
  function HomeShowsAuthLinks(auth: AuthContext.State): (shown: bool)
    ensures shown <==> auth.user.None?
  {
    auth.user.None?
  }

  /** The login page itself is never guarded, so the redirect cannot loop. */
  lemma RedirectTargetOpen(auth: AuthContext.State)
    ensures Resolve(auth, LoginPath) == Show(LoginPage)
  {
  }
}

=== FILE: auth_context.dfy ===
/**
 * The authentication context: who is signed in, whether the auth check is
 * still pending, and whether Spotify is linked. Each operation takes the
 * outcome of its backend call and returns the next state (and, where the
 * context function returns or throws, what the caller sees).
 */
module AuthContext {
  import opened Wrappers
  import opened Http

  datatype User = User(id: int, username: string)

  datatype State = State(user: Option<User>, loading: bool, spotifyLinked: bool)

  /** What an `async` context function gives its caller: a value, or the rethrown error. */
  datatype Call<+T> = Returned(value: T) | Threw(err: HttpError)

  /** The provider's first render: no user, check pending, Spotify not linked. */
  function Init(): (s: State)
    ensures s.user.None? && s.loading && !s.spotifyLinked
  {
    State(None, true, false)
  }

  /**
   * `checkAuth`: a signed-in user is stored; a failure signs out and unlinks
   * Spotify. Loading ends either way; success leaves the Spotify flag alone.
   */
  function CheckAuth(s: State, o: Outcome<User>): (r: State)
    ensures !r.loading
    ensures o.Ok? ==> r.user == Some(o.data) && r.spotifyLinked == s.spotifyLinked
    ensures o.Err? ==> r.user.None? && !r.spotifyLinked
  {
    match o
    case Ok(u) => s.(user := Some(u), loading := false)
    case Err(_) => State(None, false, false)
  }

  /** `register` and `login` (the same shape): store and return the user, or rethrow with nothing changed. */
  function SignIn(s: State, o: Outcome<User>): (r: (State, Call<User>))
    ensures o.Ok? ==> r.0 == s.(user := Some(o.data)) && r.1 == Returned(o.data)
    ensures o.Err? ==> r.0 == s && r.1 == Threw(o.err)
  {
    match o
    case Ok(u) => (s.(user := Some(u)), Returned(u))
    case Err(e) => (s, Threw(e))
  }

  /**
   * `logout`: user and Spotify flag are cleared only after the backend
   * confirms; a failure is swallowed and leaves the state as it was.
   */
  function Logout(s: State, o: Outcome<()>): (r: State)
    ensures o.Ok? ==> r.user.None? && !r.spotifyLinked && r.loading == s.loading
    ensures o.Err? ==> r == s
  {
    match o
    case Ok(_) => s.(user := None, spotifyLinked := false)
    case Err(_) => s
  }

  /** `deleteAccount`: success clears the user but not the Spotify flag; failure rethrows. */
  function DeleteAccount(s: State, o: Outcome<()>): (r: (State, Call<()>))
    ensures o.Ok? ==> r.0.user.None? && r.0.spotifyLinked == s.spotifyLinked && r.0.loading == s.loading
    ensures o.Ok? ==> r.1.Returned?
    ensures o.Err? ==> r.0 == s && r.1 == Threw(o.err)
  {
    match o
    case Ok(_) => (s.(user := None), Returned(()))
    case Err(e) => (s, Threw(e))
  }

  /** The exposed `setIsSpotifyAuthenticated`. */
  function SetSpotifyLinked(s: State, linked: bool): (r: State)
    ensures r.spotifyLinked == linked && r.user == s.user && r.loading == s.loading
  {
    s.(spotifyLinked := linked)
  }

  /** Signing in and then out (both confirmed) leaves nobody signed in and Spotify unlinked. */
  lemma SignInThenLogout(s: State, u: User)
    ensures Logout(SignIn(s, Ok(u)).0, Ok(())).user.None?
    ensures !Logout(SignIn(s, Ok(u)).0, Ok(())).spotifyLinked
    ensures SignIn(s, Ok(u)).0.user == Some(u)
  {
  }

  /**
   * Unlike logout, deleting the account keeps a linked Spotify flag: after a
   * confirmed deletion nobody is signed in, yet the flag can still be set.
   */
  lemma DeleteKeepsSpotifyFlag(s: State)
    requires s.spotifyLinked
    ensures DeleteAccount(s, Ok(())).0.user.None? && DeleteAccount(s, Ok(())).0.spotifyLinked
    ensures Logout(s, Ok(())).user.None? && !Logout(s, Ok(())).spotifyLinked
  {
  }
}

=== FILE: auth_forms.dfy ===
/**
 * The register and login forms' submit handlers: local validation, the
 * payload handed to the auth context, where a success navigates, and which
 * message a failure shows. An empty `error` string means no message.
 */
module AuthForms {
  import opened Wrappers
  import opened Http
  import Text
  import AuthContext

  const Dashboard: string := "/dashboard"
  const MismatchError: string := "Passwords don't match"
  const RegisterFallback: string := "Registration failed. Please try again."
  const LoginFallback: string := "Login failed"

  datatype RegisterForm = RegisterForm(username: string, email: string, password: string, confirmPassword: string)

  /** `registerData`: the form without `confirmPassword`. */
  datatype RegisterPayload = RegisterPayload(username: string, email: string, password: string)

  datatype LoginForm = LoginForm(username: string, password: string)

  /** What a submit leaves behind: the auth state, the error shown, what was sent, where it navigated. */
  datatype Submitted<P> = Submitted(auth: AuthContext.State, error: string, sent: Option<P>, navigated: Option<string>)

  function Payload(f: RegisterForm): (p: RegisterPayload)
    ensures p.username == f.username && p.email == f.email && p.password == f.password
  {
    RegisterPayload(f.username, f.email, f.password)
  }

  /** One line per field: `field: m1, m2`. */
  function FieldLine(entry: (string, seq<string>)): string
  {
    entry.0 + ": " + Text.Join(entry.1, ", ")
  }

  /** `Object.entries(errors).map(...).join('\n')`. */
  function FormatFieldErrors(fields: seq<(string, seq<string>)>): string
  {
    Text.Join(seq(|fields|, i requires 0 <= i < |fields| => FieldLine(fields[i])), "\n")
  }

  /**
   * Without line breaks inside field names and messages, the formatted text
   * has exactly one line per field, in entry order.
   */
  lemma FieldErrorLines(fields: seq<(string, seq<string>)>)
    requires |fields| >= 1
    requires forall i :: 0 <= i < |fields| ==> '\n' !in fields[i].0
    requires forall i, j :: 0 <= i < |fields| && 0 <= j < |fields[i].1| ==> '\n' !in fields[i].1[j]
    ensures |Text.Split(FormatFieldErrors(fields), '\n')| == |fields|
    ensures forall i :: 0 <= i < |fields| ==> Text.Split(FormatFieldErrors(fields), '\n')[i] == FieldLine(fields[i])
  {
    var lines := seq(|fields|, i requires 0 <= i < |fields| => FieldLine(fields[i]));
    forall i | 0 <= i < |fields|
      ensures '\n' !in lines[i]
    {
      Text.JoinAvoids(fields[i].1, ", ", '\n');
    }
    Text.SplitJoin(lines, '\n');
  }

  /** An empty field map formats to the empty string, so no message shows. */
  lemma EmptyFieldMapShowsNothing()
    ensures FormatFieldErrors([]) == ""
  {
  }

  /**
   * The register failure message: a field map formatted line by line, else
   * a non-empty `error` string, else a non-empty `message`, else the
   * generic text.
   */
  function RegisterError(e: HttpError): (msg: string)
    ensures e.body.Some? && e.body.value.error.Some? && e.body.value.error.value.ErrFields? ==>
      msg == FormatFieldErrors(e.body.value.error.value.fields)
    ensures e.body.Some? && e.body.value.error.Some? && e.body.value.error.value.ErrText? && e.body.value.error.value.text != "" ==>
      msg == e.body.value.error.value.text
    ensures (e.body.None? || e.body.value.error.None? || e.body.value.error.value == ErrText("")) ==>
      msg == MessageOf(e).GetOr(RegisterFallback)
  {
    if e.body.Some? && e.body.value.error.Some? && e.body.value.error.value != ErrText("") then
      match e.body.value.error.value
      case ErrFields(fields) => FormatFieldErrors(fields)
      case ErrText(t) => t
    else
      match MessageOf(e)
      case Some(m) => m
      case None => RegisterFallback
  }

  /** A failure that carries no usable text shows the generic message, never an empty one. */
  lemma RegisterErrorFallback(e: HttpError)
    requires e.body.None?
    ensures RegisterError(e) == RegisterFallback
  {
  }

  /**
   * `Register.handleSubmit`: the error is cleared, mismatched passwords stop
   * the submit before any call, otherwise the payload goes to `register`
   * and a success navigates to the dashboard.
   */
  function SubmitRegister(auth: AuthContext.State, f: RegisterForm, o: Outcome<AuthContext.User>): (r: Submitted<RegisterPayload>)
    ensures f.password != f.confirmPassword ==> r == Submitted(auth, MismatchError, None, None)
    ensures f.password == f.confirmPassword ==> r.sent == Some(Payload(f))
    ensures f.password == f.confirmPassword && o.Ok? ==>
      r.error == "" && r.navigated == Some(Dashboard) && r.auth.user == Some(o.data)
    ensures f.password == f.confirmPassword && o.Err? ==>
      r.error == RegisterError(o.err) && r.navigated.None? && r.auth == auth
  {
    if f.password != f.confirmPassword then Submitted(auth, MismatchError, None, None)
    else
      var (auth', call) := AuthContext.SignIn(auth, o);
      match call
      case Returned(_) => Submitted(auth', "", Some(Payload(f)), Some(Dashboard))
      case Threw(e) => Submitted(auth', RegisterError(e), Some(Payload(f)), None)
  }

  /** The login failure message: the backend `message` when non-empty, else "Login failed". */
  function LoginError(e: HttpError): (msg: string)
    ensures msg != ""
    ensures MessageOf(e).Some? ==> msg == MessageOf(e).value
    ensures MessageOf(e).None? ==> msg == LoginFallback
  {
    MessageOf(e).GetOr(LoginFallback)
  }

  /** `Login.handleSubmit`: the form goes to `login` unchanged; success navigates to the dashboard. */
  function SubmitLogin(auth: AuthContext.State, f: LoginForm, o: Outcome<AuthContext.User>): (r: Submitted<LoginForm>)
    ensures r.sent == Some(f)
    ensures o.Ok? ==> r.error == "" && r.navigated == Some(Dashboard) && r.auth.user == Some(o.data)
    ensures o.Err? ==> r.error == LoginError(o.err) && r.error != "" && r.navigated.None? && r.auth == auth
  {
    var (auth', call) := AuthContext.SignIn(auth, o);
    match call
    case Returned(_) => Submitted(auth', "", Some(f), Some(Dashboard))
    case Threw(e) => Submitted(auth', LoginError(e), Some(f), None)
  }
}

=== FILE: callbacks.dfy ===
/**
 * The Spotify OAuth callback page: it reads `code` from the query string,
 * posts it to the backend, and on the exact success message marks Spotify
 * linked and goes to the dashboard.
 */
module SpotifyCallback {
  import opened Wrappers
  import opened Http

  const SuccessMessage: string := "Successfully authenticated with Spotify"
  const NoCodeError: string := "No authorization code received from Spotify"
  const AuthError: string := "Failed to authenticate with Spotify. Please try again."
  const Dashboard: string := "/dashboard"

  /** `response.data`; `None` when it is missing, so that reading `.message` throws. */
  datatype Body = Body(message: Option<string>)

  datatype State = State(error: Option<string>, loading: bool, linked: bool, navigated: Option<string>, posted: bool)

  function Init(linked: bool): State
  {
    State(None, true, linked, None, false)
  }

  /**
   * `handleCallback` for the query parameter `code` and the post's outcome
   * (consulted only when a non-empty code was present).
   */
  function Handle(s: State, code: Option<string>, o: Outcome<Option<Body>>): (r: State)
    ensures !r.loading
    ensures code.None? || code.value == "" ==> r == s.(error := Some(NoCodeError), loading := false)
    ensures r.posted <==> s.posted || (code.Some? && code.value != "")
    ensures r.navigated == Some(Dashboard) <==>
      s.navigated == Some(Dashboard) || (code.Some? && code.value != "" && o == Ok(Some(Body(Some(SuccessMessage)))))
    ensures code.Some? && code.value != "" && (o.Err? || o.data.None?) ==>
      r.error == Some(AuthError) && r.linked == s.linked && r.navigated == s.navigated
    ensures code.Some? && code.value != "" && o.Ok? && o.data.Some? ==> r.error == s.error
    ensures r.linked <==> s.linked || (code.Some? && code.value != "" && o == Ok(Some(Body(Some(SuccessMessage)))))
  {
    if code.None? || code.value == "" then s.(error := Some(NoCodeError), loading := false)
    else
      var s1 := s.(posted := true);
      match o
      case Err(_) => s1.(error := Some(AuthError), loading := false)
      case Ok(None) => s1.(error := Some(AuthError), loading := false)
      case Ok(Some(body)) =>
        if body.message == Some(SuccessMessage) then s1.(linked := true, navigated := Some(Dashboard), loading := false)
        else s1.(loading := false)
  }

  datatype View = Connecting | Failed(message: string) | Nothing

  function ViewOf(s: State): (v: View)
    ensures s.loading ==> v == Connecting
    ensures !s.loading && s.error.Some? && s.error.value != "" ==> v == Failed(s.error.value)
    ensures v == Nothing <==> !s.loading && (s.error.None? || s.error.value == "")
  {
    if s.loading then Connecting
    else if s.error.Some? && s.error.value != "" then Failed(s.error.value)
    else Nothing
  }

  /**
   * From the first render: without a code nothing is posted and the error
   * shows; any success message other than the exact one leaves the page
   * blank, with no error and no navigation.
   */
  lemma CallbackOutcomes(code: Option<string>, o: Outcome<Option<Body>>, other: string)
    requires other != SuccessMessage
    ensures code.None? ==> !Handle(Init(false), code, o).posted && ViewOf(Handle(Init(false), code, o)) == Failed(NoCodeError)
    ensures code.Some? && code.value != "" && o == Ok(Some(Body(Some(other)))) ==>
      ViewOf(Handle(Init(false), code, o)) == Nothing && Handle(Init(false), code, o).navigated.None?
    ensures code.Some? && code.value != "" && o.Err? ==> ViewOf(Handle(Init(false), code, o)) == Failed(AuthError)
  {
  }
}

/**
 * The older callback page: it posts the code with axios and only ever
 * navigates; its screen always reads "Connecting to Spotify...".
 */
module LegacySpotifyCallback {
  import opened Wrappers
  import opened Http

  const ErrorPath: string := "/error"
  const Dashboard: string := "/dashboard"
  const Message: string := "Connecting to Spotify..."

  /** Where `handleCallback` navigates and whether it posted; `dataTruthy` is `!!response.data`. */
  function Handle(code: Option<string>, o: Outcome<bool>): (r: (Option<string>, bool))
    ensures code.None? || code.value == "" ==> r == (Some(ErrorPath), false)
    ensures code.Some? && code.value != "" ==> r.1
    ensures code.Some? && code.value != "" && o.Err? ==> r.0 == Some(ErrorPath)
    ensures code.Some? && code.value != "" && o.Ok? ==> (r.0 == Some(Dashboard) <==> o.data) && (r.0.Some? <==> o.data)
  {
    if code.None? || code.value == "" then (Some(ErrorPath), false)
    else match o
      case Err(_) => (Some(ErrorPath), true)
      case Ok(dataTruthy) => (if dataTruthy then Some(Dashboard) else None, true)
  }

  /** The rendered message does not depend on anything. */
  function ViewOf(code: Option<string>, o: Outcome<bool>): (v: string)
    ensures v == Message
  {
    Message
  }

  /** Only a posted code with a truthy response reaches the dashboard; every failure goes to the error page. */
  lemma DashboardOnlyOnSuccess(code: Option<string>, o: Outcome<bool>)
    ensures Handle(code, o).0 == Some(Dashboard) <==> code.Some? && code.value != "" && o == Ok(true)
    ensures Handle(code, o).0 == Some(ErrorPath) <==> code.None? || code.value == "" || o.Err?
  {
  }
}

=== FILE: dashboard.dfy ===
/**
 * The dashboard: it probes the Spotify link by asking for the playlists,
 * fetches them again when the probe succeeds, and renders loading, an
 * error, a "Connect to Spotify" prompt, or the playlist grid.
 */
module Dashboard {
  import opened Wrappers
  import opened Http

  const ProbeError: string := "Failed to check Spotify authentication"
  const FetchError: string := "Failed to load playlists"
  const ConnectError: string := "Failed to initiate Spotify login"
  const Untitled: string := "Untitled Playlist"

  /** A playlist as the grid reads it: `playlist?.name` and `playlist?.tracks?.total`. */
  datatype Playlist = Playlist(name: Option<string>, total: Option<nat>)

  /** `linked` is the auth context's Spotify flag as this component sets it. */
  datatype State = State(playlists: seq<Playlist>, loading: bool, error: Option<string>, linked: bool)

  function Init(linked: bool): State
  {
    State([], true, None, linked)
  }

  /**
   * `checkSpotifyAuth` up to the second request: success marks Spotify
   * linked and keeps loading for the fetch; a 401 unlinks without an error;
   * any other failure shows the probe error and keeps the flag. Failures end
   * loading.
   */
  function Probe(s: State, o: Outcome<()>): (r: State)
    ensures r.playlists == s.playlists
    ensures o.Ok? ==> r.linked && r.loading == s.loading && r.error == s.error
    ensures o.Err? ==> !r.loading
    ensures o.Err? && o.err.status == Some(401) ==> !r.linked && r.error == s.error
    ensures o.Err? && o.err.status != Some(401) ==> r.error == Some(ProbeError) && r.linked == s.linked
  {
    match o
    case Ok(_) => s.(linked := true)
    case Err(e) =>
      if e.status == Some(401) then s.(linked := false, loading := false)
      else s.(error := Some(ProbeError), loading := false)
  }

  /** `fetchPlaylists`: `response.data || []`, or the fetch error; loading ends either way. */
  function Fetch(s: State, o: Outcome<Option<seq<Playlist>>>): (r: State)
    ensures !r.loading && r.linked == s.linked
    ensures o.Ok? ==> r.playlists == o.data.GetOr([]) && r.error == s.error
    ensures o.Err? ==> r.error == Some(FetchError) && r.playlists == s.playlists
  {
    match o
    case Ok(data) => s.(playlists := data.GetOr([]), loading := false)
    case Err(_) => s.(error := Some(FetchError), loading := false)
  }

  /** The mount effect: the probe, and the fetch only after a successful probe. */
  function Mounted(linked: bool, probe: Outcome<()>, fetch: Outcome<Option<seq<Playlist>>>): (s: State)
    ensures !s.loading
    ensures probe.Err? ==> s.playlists == []
  {
    var p := Probe(Init(linked), probe);
    if probe.Ok? then Fetch(p, fetch) else p
  }

  datatype Card = Card(title: string, tracks: nat)

  /** A card's title falls back to "Untitled Playlist", its track count to 0. */
  function CardOf(p: Playlist): (c: Card)
    ensures c.title == (if p.name.Some? && p.name.value != "" then p.name.value else Untitled)
    ensures c.tracks == p.total.GetOr(0)
  {
    Card(if p.name.Some? && p.name.value != "" then p.name.value else Untitled, p.total.GetOr(0))
  }

  datatype View = Loading | Failed(message: string) | Connect | Grid(cards: seq<Card>)

  /** Loading, then the error, then the connect prompt when not linked, then the grid. */
  function ViewOf(s: State): (v: View)
    ensures s.loading ==> v == Loading
    ensures !s.loading && s.error.Some? && s.error.value != "" ==> v == Failed(s.error.value)
    ensures v == Connect <==> !s.loading && (s.error.None? || s.error.value == "") && !s.linked
    ensures v.Grid? <==> !s.loading && (s.error.None? || s.error.value == "") && s.linked
    ensures v.Grid? ==> s.linked && |v.cards| == |s.playlists|
    ensures v.Grid? ==> forall i :: 0 <= i < |v.cards| ==> v.cards[i] == CardOf(s.playlists[i])
  {
    if s.loading then Loading
    else if s.error.Some? && s.error.value != "" then Failed(s.error.value)
    else if !s.linked then Connect
    else Grid(seq(|s.playlists|, i requires 0 <= i < |s.playlists| => CardOf(s.playlists[i])))
  }

  /**
   * What the dashboard ends up showing: a 401 probe gives the connect prompt
   * (not an error), another failed probe the probe error, a failed fetch the
   * fetch error, and two successes the grid of every fetched playlist.
   */
  lemma MountedView(linked: bool, probe: Outcome<()>, fetch: Outcome<Option<seq<Playlist>>>)
    ensures probe.Err? && probe.err.status == Some(401) ==> ViewOf(Mounted(linked, probe, fetch)) == Connect
    ensures probe.Err? && probe.err.status != Some(401) ==> ViewOf(Mounted(linked, probe, fetch)) == Failed(ProbeError)
    ensures probe.Ok? && fetch.Err? ==> ViewOf(Mounted(linked, probe, fetch)) == Failed(FetchError)
    ensures probe.Ok? && fetch.Ok? ==> ViewOf(Mounted(linked, probe, fetch)).Grid?
    ensures probe.Ok? && fetch.Ok? ==> |ViewOf(Mounted(linked, probe, fetch)).cards| == |fetch.data.GetOr([])|
  {
  }

  /** `handleSpotifyLogin`: the authorize URL to go to, or the connect error. */
  function StartLogin(s: State, o: Outcome<string>): (r: (State, Option<string>))
    ensures o.Ok? ==> r == (s, Some(o.data))
    ensures o.Err? ==> r.0 == s.(error := Some(ConnectError)) && r.1.None?
  {
    match o
    case Ok(url) => (s, Some(url))
    case Err(_) => (s.(error := Some(ConnectError)), None)
  }
}

=== FILE: deck.dfy ===
/**
 * The navigation rule the slide decks share: a 1-based slide index that
 * `nextSlide` raises only below the slide count and `previousSlide` lowers
 * only above 1.
 */
module Deck {

  datatype Nav = Nav(current: int, count: nat)

  predicate InRange(n: Nav)
  {
    1 <= n.current <= n.count
  }

  /** `useState(1)` */
  function Start(count: nat): (n: Nav)
    ensures n.current == 1 && n.count == count
    ensures count >= 1 ==> InRange(n)
  {
    Nav(1, count)
  }

  /** `if (currentSlide < slides.length) setCurrentSlide(currentSlide + 1)` */
  function Next(n: Nav): (r: Nav)
    ensures r.count == n.count
    ensures r != n <==> n.current < n.count
    ensures r != n ==> r.current == n.current + 1
    ensures InRange(n) ==> InRange(r)
  {
    if n.current < n.count then n.(current := n.current + 1) else n
  }

  /** `if (currentSlide > 1) setCurrentSlide(currentSlide - 1)` */
  function Previous(n: Nav): (r: Nav)
    ensures r.count == n.count
    ensures r != n <==> n.current > 1
    ensures r != n ==> r.current == n.current - 1
    ensures InRange(n) ==> InRange(r)
  {
    if n.current > 1 then n.(current := n.current - 1) else n
  }

  /** A step that moved forward is undone by a step back, and the other way round. */
  lemma NextPreviousInverse(n: Nav)
    ensures Next(n) != n && n.current >= 1 ==> Previous(Next(n)) == n
    ensures Previous(n) != n && n.current <= n.count ==> Next(Previous(n)) == n
  {
  }

  datatype Step = Forward | Back

  function Apply(n: Nav, s: Step): Nav
  {
    match s
    case Forward => Next(n)
    case Back => Previous(n)
  }

  function Run(n: Nav, steps: seq<Step>): Nav
    decreases |steps|
  {
    if |steps| == 0 then n else Run(Apply(n, steps[0]), steps[1..])
  }

  /** From the first slide, any clicking keeps the index within `[1, count]`. */
  lemma {:induction false} RunInRange(n: Nav, steps: seq<Step>)
    requires InRange(n)
    ensures InRange(Run(n, steps))
    ensures Run(n, steps).count == n.count
    decreases |steps|
  {
    if |steps| > 0 {
      RunInRange(Apply(n, steps[0]), steps[1..]);
    }
  }

  function Forwards(k: nat): (s: seq<Step>)
    ensures |s| == k
  {
    if k == 0 then [] else [Forward] + Forwards(k - 1)
  }

  /** `k` clicks on Next from slide `c` reach slide `min(c + k, count)`. */
  lemma {:induction false} ForwardsReach(n: Nav, k: nat)
    requires InRange(n)
    ensures Run(n, Forwards(k)).current == (if n.current + k <= n.count then n.current + k else n.count)
    decreases k
  {
    if k > 0 {
      assert Forwards(k)[1..] == Forwards(k - 1);
      ForwardsReach(Next(n), k - 1);
    }
  }
}

=== FILE: duo_wrapped.dfy ===
/**
 * The ten-slide Duo Wrapped deck comparing the signed-in user's wrap with a
 * shared one. It fetches both wraps together, only when a wrap id and a user
 * are present.
 */
module DuoWrapped {
  import opened Wrappers
  import opened Http
  import opened Music
  import opened Rows
  import Deck
  import AuthContext

  const SlideCount: nat := 10
  const LoadError: string := "Failed to load wrapped data"

  datatype Content =
    | Intro
    | ArtistComparison(myArtists: seq<Row<Artist>>, theirArtists: seq<Row<Artist>>)
    | TrackComparison(myTracks: seq<Row<Track>>, theirTracks: seq<Row<Track>>)
    | ButWait
    | CountdownPair(place: nat, myTrack: Option<Track>, theirTrack: Option<Track>)
    | Recap

  datatype Slide = Slide(content: Content, buttons: Buttons)

  const Both := Buttons(true, true)

  /** The `slides` array for the current user's wrap `me` and the shared wrap `other`. */
  function Slides(me: WrapData, other: WrapData): (s: seq<Slide>)
    ensures |s| == SlideCount
  {
    [ Slide(Intro, Buttons(false, true)),
      Slide(ArtistComparison(TopRows(me.topArtistsRecent), TopRows(other.topArtistsRecent)), Both),
      Slide(ArtistComparison(TopRows(me.topArtistsAllTime), TopRows(other.topArtistsAllTime)), Both),
      Slide(TrackComparison(TopRows(me.topTracksRecent), TopRows(other.topTracksRecent)), Both),
      Slide(TrackComparison(TopRows(me.topTracksAllTime), TopRows(other.topTracksAllTime)), Both),
      Slide(ButWait, Both),
      Slide(CountdownPair(3, CountdownAt(me.topTracksRecent, 2), CountdownAt(other.topTracksRecent, 2)), Both),
      Slide(CountdownPair(2, CountdownAt(me.topTracksRecent, 1), CountdownAt(other.topTracksRecent, 1)), Both),
      Slide(CountdownPair(1, CountdownAt(me.topTracksRecent, 0), CountdownAt(other.topTracksRecent, 0)), Both),
      Slide(Recap, Buttons(true, false)) ]
  }

  /**
   * The first slide offers only Next, the last only Previous, all others both;
   * each comparison side lists at most five entries of its own wrap, in order.
   */
  lemma SlideFacts(me: WrapData, other: WrapData)
    ensures forall i :: 0 <= i < SlideCount ==>
      Slides(me, other)[i].buttons == Buttons(i > 0, i < SlideCount - 1)
    ensures RowItems(Slides(me, other)[1].content.myArtists) <= Items(me.topArtistsRecent)
    ensures RowItems(Slides(me, other)[1].content.theirArtists) <= Items(other.topArtistsRecent)
    ensures RowItems(Slides(me, other)[3].content.myTracks) <= Items(me.topTracksRecent)
    ensures RowItems(Slides(me, other)[3].content.theirTracks) <= Items(other.topTracksRecent)
  {
  }

  /** Slides 7 to 9 compare recent track #3, #2, #1 (indices 2, 1, 0), each side only when present. */
  lemma CountdownSides(me: WrapData, other: WrapData)
    ensures forall i :: 6 <= i < 9 ==>
      && Slides(me, other)[i].content.CountdownPair?
      && Slides(me, other)[i].content.place == 9 - i
      && (Slides(me, other)[i].content.myTrack.Some? <==> 8 - i < |Items(me.topTracksRecent)|)
      && (Slides(me, other)[i].content.theirTrack.Some? <==> 8 - i < |Items(other.topTracksRecent)|)
  {
  }

  datatype State = State(
    nav: Deck.Nav,
    shared: Option<WrapData>,
    mine: Option<WrapData>,
    loading: bool,
    error: Option<string>)

  predicate Valid(s: State)
  {
    s.nav.count == SlideCount && Deck.InRange(s.nav)
  }

  function Init(): (s: State)
    ensures Valid(s) && s.loading && s.shared.None? && s.mine.None? && s.error.None?
  {
    State(Deck.Start(SlideCount), None, None, true, None)
  }

  /** The effect fetches only when `wrapId` (a non-empty string) and `user` are both present. */
  predicate ShouldFetch(wrapId: Option<string>, user: Option<AuthContext.User>)
  {
    wrapId.Some? && wrapId.value != "" && user.Some?
  }

  /**
   * `fetchWrappedData` as written: `Promise.all` of the wrap detail and the
   * current user's wrapped data, reading the latter's `.wrap_data` member.
   */
  function LoadAsWritten(s: State, detail: Outcome<Option<WrapData>>, current: Outcome<WrappedBody>): (r: State)
    ensures !r.loading && r.nav == s.nav
    ensures detail.Err? || current.Err? ==> r.error == Some(LoadError) && r.shared == s.shared && r.mine == s.mine
    ensures detail.Ok? && current.Ok? ==> r.shared == detail.data && r.mine == current.data.wrapDataMember && r.error == s.error
  {
    if detail.Ok? && current.Ok? then
      s.(shared := detail.data, mine := current.data.wrapDataMember, loading := false)
    else
      s.(error := Some(LoadError), loading := false)
  }

  /** `fetchWrappedData` reading the current user's lists where the wrapped-data view puts them. */
  function Load(s: State, detail: Outcome<Option<WrapData>>, current: Outcome<WrappedBody>): (r: State)
    ensures !r.loading && r.nav == s.nav
    ensures detail.Err? || current.Err? ==> r.error == Some(LoadError) && r.shared == s.shared && r.mine == s.mine
    ensures detail.Ok? && current.Ok? ==> r.shared == detail.data && r.mine == Some(current.data.lists) && r.error == s.error
  {
    if detail.Ok? && current.Ok? then
      s.(shared := detail.data, mine := Some(current.data.lists), loading := false)
    else
      s.(error := Some(LoadError), loading := false)
  }

  /**
   * The component after mounting, as written: without a wrap id or a user
   * nothing is fetched; otherwise both requests run and the current user's
   * wrap is read from the body's `wrap_data` member.
   */
  function Mounted(wrapId: Option<string>, user: Option<AuthContext.User>,
                   detail: Outcome<Option<WrapData>>, current: Outcome<WrappedBody>): (s: State)
    ensures Valid(s)
    ensures !ShouldFetch(wrapId, user) ==> s == Init()
    ensures ShouldFetch(wrapId, user) ==> !s.loading
    ensures ShouldFetch(wrapId, user) && detail.Ok? && current.Ok? ==>
      s.shared == detail.data && s.mine == current.data.wrapDataMember && s.error.None?
    ensures ShouldFetch(wrapId, user) && (detail.Err? || current.Err?) ==>
      s.error == Some(LoadError) && s.shared.None? && s.mine.None?
  {
    if ShouldFetch(wrapId, user) then LoadAsWritten(Init(), detail, current) else Init()
  }

  /** The same mount with the corrected read of the current user's lists. */
  function MountedCorrected(wrapId: Option<string>, user: Option<AuthContext.User>,
                            detail: Outcome<Option<WrapData>>, current: Outcome<WrappedBody>): (s: State)
    ensures Valid(s)
    ensures !ShouldFetch(wrapId, user) ==> s == Init()
    ensures ShouldFetch(wrapId, user) && detail.Ok? && current.Ok? ==>
      s.shared == detail.data && s.mine == Some(current.data.lists) && s.error.None?
    ensures ShouldFetch(wrapId, user) && (detail.Err? || current.Err?) ==>
      s.error == Some(LoadError) && s.shared.None? && s.mine.None?
  {
    if ShouldFetch(wrapId, user) then Load(Init(), detail, current) else Init()
  }

  function NextSlide(s: State): State { s.(nav := Deck.Next(s.nav)) }

  function PreviousSlide(s: State): State { s.(nav := Deck.Previous(s.nav)) }

  datatype View = Loading | Failed(message: string) | NoData | Showing(number: nat, slide: Slide)

  /** Loading, then error, then "No data available" if either wrap is missing, then the slide. */
  function ViewOf(s: State): (v: View)
    requires Valid(s)
    ensures s.loading ==> v == Loading
    ensures !s.loading && s.error.Some? ==> v == Failed(s.error.value)
    ensures v == NoData <==> !s.loading && s.error.None? && (s.shared.None? || s.mine.None?)
    ensures v.Showing? <==> !s.loading && s.error.None? && s.shared.Some? && s.mine.Some?
    ensures v.Showing? ==>
      v.number == s.nav.current && v.slide == Slides(s.mine.value, s.shared.value)[v.number - 1]
  {
    if s.loading then Loading
    else if s.error.Some? then Failed(s.error.value)
    else if s.shared.None? || s.mine.None? then NoData
    else Showing(s.nav.current, Slides(s.mine.value, s.shared.value)[s.nav.current - 1])
  }

  /** Without a wrap id or a signed-in user the page stays on "Loading..." for good. */
  lemma NoFetchKeepsLoading(wrapId: Option<string>, user: Option<AuthContext.User>,
                            detail: Outcome<Option<WrapData>>, current: Outcome<WrappedBody>)
    requires !ShouldFetch(wrapId, user)
    ensures ViewOf(Mounted(wrapId, user, detail, current)) == Loading
  {
  }

  /**
   * As written, a response that has no `wrap_data` member (the wrapped-data
   * view never adds one) leaves the current user's wrap unset, so a fully
   * successful load still renders "No data available".
   */
  lemma AsWrittenShowsNoData(detail: Outcome<Option<WrapData>>, body: WrappedBody)
    requires detail.Ok? && body.wrapDataMember.None?
    ensures ViewOf(LoadAsWritten(Init(), detail, Ok(body))) == NoData
  {
  }

  /** Reading the lists themselves, two successful fetches open the deck on its intro slide. */
  lemma CorrectedShowsIntro(other: WrapData, body: WrappedBody)
    ensures ViewOf(Load(Init(), Ok(Some(other)), Ok(body))) == Showing(1, Slides(body.lists, other)[0])
    ensures Slides(body.lists, other)[0].content == Intro
  {
  }

  /**
   * Mounted with a wrap id and a user, the page as written shows "No data
   * available" after two successful requests whose current-user body has no
   * `wrap_data` member, where the corrected page opens on its intro slide.
   */
  lemma MountedShowsNoData(wrapId: Option<string>, user: Option<AuthContext.User>, other: WrapData, body: WrappedBody)
    requires ShouldFetch(wrapId, user) && body.wrapDataMember.None?
    ensures ViewOf(Mounted(wrapId, user, Ok(Some(other)), Ok(body))) == NoData
    ensures ViewOf(MountedCorrected(wrapId, user, Ok(Some(other)), Ok(body))) == Showing(1, Slides(body.lists, other)[0])
  {
  }

  /** Navigation keeps the index within the ten slides. */
  lemma NavigationValid(s: State)
    requires Valid(s)
    ensures Valid(NextSlide(s)) && Valid(PreviousSlide(s))
    ensures s.nav.current == SlideCount ==> NextSlide(s) == s
    ensures s.nav.current == 1 ==> PreviousSlide(s) == s
  {
  }
}

=== FILE: language.dfy ===
/**
 * The translation lookup `t(key)`: the key is split on dots and the nested
 * table of the selected language is walked one segment at a time; as soon
 * as a segment is missing or its value is falsy, the key itself comes back.
 */
module Language {
  import opened Wrappers
  import Text

  /** A translation table: a string, or an object of named sub-tables. */
  datatype Node = Leaf(text: string) | Table(entries: map<string, Node>)

  datatype Lang = En | Es | Fr

  /** `useState('en')`. */
  const DefaultLang: Lang := En

  /** The empty string is the only falsy value a table holds. */
  predicate Truthy(n: Node)
  {
    n.Table? || n.text != ""
  }

  /**
   * `translation = translation[k]; if (!translation) return key;` for each
   * segment in turn. Indexing into a string leaf yields nothing here.
   */
  function Walk(n: Node, keys: seq<string>): (r: Option<Node>)
    ensures |keys| == 0 ==> r == Some(n)
    ensures r.Some? && |keys| > 0 ==> Truthy(r.value)
    decreases |keys|
  {
    if |keys| == 0 then Some(n)
    else match n
      case Leaf(_) => None
      case Table(m) =>
        if keys[0] in m && Truthy(m[keys[0]]) then Walk(m[keys[0]], keys[1..]) else None
  }

  /** Walking a path in two legs is walking it in one. */
  lemma {:induction false} WalkAppend(n: Node, a: seq<string>, b: seq<string>)
    ensures Walk(n, a + b) == (match Walk(n, a) case None => None case Some(m) => Walk(m, b))
    decreases |a|
  {
    if |a| == 0 {
      assert a + b == b;
    } else {
      assert (a + b)[0] == a[0] && (a + b)[1..] == a[1..] + b;
      match n
      case Leaf(_) =>
      case Table(m) =>
        if a[0] in m && Truthy(m[a[0]]) {
          WalkAppend(m[a[0]], a[1..], b);
        }
    }
  }

  /** `t(key)` against the table `root`. */
  function T(root: Node, key: string): (r: Node)
    ensures Walk(root, Text.Split(key, '.')).None? ==> r == Leaf(key)
    ensures Walk(root, Text.Split(key, '.')).Some? ==> Truthy(r)
  {
    match Walk(root, Text.Split(key, '.'))
    case None => Leaf(key)
    case Some(found) => found
  }

  /**
   * For a key written as dot-free segments joined by dots, `t` returns the
   * value at that path when every segment resolves, and the key otherwise.
   */
  lemma LookupPath(root: Node, path: seq<string>)
    requires |path| >= 1
    requires forall i :: 0 <= i < |path| ==> '.' !in path[i]
    ensures Walk(root, path).Some? ==> T(root, Text.Join(path, ".")) == Walk(root, path).value
    ensures Walk(root, path).None? ==> T(root, Text.Join(path, ".")) == Leaf(Text.Join(path, "."))
  {
    Text.SplitJoin(path, '.');
  }

  /** A missing first segment falls back to the key, whatever follows it. */
  lemma MissingSectionFallsBack(m: map<string, Node>, section: string, rest: seq<string>)
    requires section !in m && '.' !in section
    requires forall i :: 0 <= i < |rest| ==> '.' !in rest[i]
    ensures T(Table(m), Text.Join([section] + rest, ".")) == Leaf(Text.Join([section] + rest, "."))
  {
    var path := [section] + rest;
    assert path[0] == section;
    assert forall i :: 0 <= i < |path| ==> '.' !in path[i] by {
      forall i | 0 <= i < |path|
        ensures '.' !in path[i]
      {
        if i > 0 { assert path[i] == rest[i - 1]; }
      }
    }
    assert Walk(Table(m), path).None?;
    LookupPath(Table(m), path);
  }

  /** Sample tables: `en` has a `wrappedHistory` section, `es` and `fr` do not. */
  function Tables(lang: Lang): Node
  {
    match lang
    case En => Table(map[
      "welcome" := Table(map["title" := Leaf("Your Spotify Wrapped")]),
      "wrappedHistory" := Table(map["title" := Leaf("Your Wrapped History")])])
    case Es => Table(map["welcome" := Table(map["title" := Leaf("Tu Spotify Wrapped")])])
    case Fr => Table(map["welcome" := Table(map["title" := Leaf("Votre Spotify Wrapped")])])
  }

  function Translate(lang: Lang, key: string): Node
  {
    T(Tables(lang), key)
  }

  lemma HistoryTitleKey()
    ensures Text.Join(["wrappedHistory", "title"], ".") == "wrappedHistory.title"
  {
  }

  /** "wrappedHistory.title" resolves in English. */
  lemma EnglishHistoryTitle()
    ensures Translate(En, "wrappedHistory.title") == Leaf("Your Wrapped History")
  {
    var path := ["wrappedHistory", "title"];
    HistoryTitleKey();
    LookupPath(Tables(En), path);
    var section := Tables(En).entries["wrappedHistory"];
    assert path[1..] == ["title"];
    assert Walk(Tables(En), path) == Walk(section, ["title"]);
    assert Walk(section, ["title"]) == Walk(Leaf("Your Wrapped History"), []);
  }

  /** Spanish and French have no `wrappedHistory` section, so the key itself comes back. */
  lemma OtherLanguagesFallBack(lang: Lang)
    requires lang != En
    ensures Translate(lang, "wrappedHistory.title") == Leaf("wrappedHistory.title")
  {
    HistoryTitleKey();
    MissingSectionFallsBack(Tables(lang).entries, "wrappedHistory", ["title"]);
    assert ["wrappedHistory"] + ["title"] == ["wrappedHistory", "title"];
  }

  /** Asking for a section gives the section itself, not a string. */
  lemma SectionLookup()
    ensures Translate(DefaultLang, "welcome").Table?
  {
    LookupPath(Tables(En), ["welcome"]);
    assert Text.Join(["welcome"], ".") == "welcome";
  }
}

=== FILE: quiz.dfy ===
/**
 * The release-year quiz: three rounds, each asking for the release year of
 * one track among the true year and up to three nearby wrong years. The
 * random shuffles are modelled as caller-chosen sequences of transpositions
 * (any permutation is one), the current year and the release years are
 * plain integers, and the two-second `setTimeout` is an explicit `Tick`.
 */
module SongGuessingGame {
  import opened Wrappers
  import opened Music
  import Text

  const MaxRounds: nat := 3
  const Offsets: seq<int> := [-3, -2, -1, 1, 2, 3]
  const WrongLimit: nat := 3
  const CorrectText: string := "Correct! +1 point"
  const NotQuiteText: string := "Not quite! It was released in "

  /** The filter `year > 1950 && year <= currentYear`. */
  predicate InYearRange(y: int, currentYear: int)
  {
    1950 < y <= currentYear
  }

  predicate Increasing(s: seq<int>)
  {
    forall i, j :: 0 <= i < j < |s| ==> s[i] < s[j]
  }

  /** No year appears twice. */
  predicate NoRepeats(s: seq<int>)
  {
    forall i, j :: 0 <= i < j < |s| ==> s[i] != s[j]
  }

  /** `filter(year => year > 1950 && year <= currentYear)`. */
  function KeepInRange(ys: seq<int>, currentYear: int): (r: seq<int>)
    ensures forall y :: y in r <==> y in ys && InYearRange(y, currentYear)
    ensures |r| <= |ys|
  {
    if |ys| == 0 then []
    else if InYearRange(ys[0], currentYear) then [ys[0]] + KeepInRange(ys[1..], currentYear)
    else KeepInRange(ys[1..], currentYear)
  }

  /** Filtering keeps the order: an increasing list stays increasing. */
  lemma {:induction false} KeepIncreasing(ys: seq<int>, currentYear: int)
    requires Increasing(ys)
    ensures Increasing(KeepInRange(ys, currentYear))
    decreases |ys|
  {
    if |ys| > 0 {
      KeepIncreasing(ys[1..], currentYear);
      var rest := KeepInRange(ys[1..], currentYear);
      if InYearRange(ys[0], currentYear) {
        var r := [ys[0]] + rest;
        forall i, j | 0 <= i < j < |r|
          ensures r[i] < r[j]
        {
          if i == 0 {
            assert r[j] == rest[j - 1] && rest[j - 1] in ys[1..];
          } else {
            assert r[i] == rest[i - 1] && r[j] == rest[j - 1];
          }
        }
      }
    }
  }

  /** When every year is in range the filter keeps them all. */
  lemma {:induction false} KeepAll(ys: seq<int>, currentYear: int)
    requires forall y :: y in ys ==> InYearRange(y, currentYear)
    ensures KeepInRange(ys, currentYear) == ys
    decreases |ys|
  {
    if |ys| > 0 {
      KeepAll(ys[1..], currentYear);
      assert [ys[0]] + ys[1..] == ys;
    }
  }

  /** `yearOffsets.map(offset => actualYear + offset)`. */
  function OffsetYears(actual: int): (ys: seq<int>)
    ensures Increasing(ys) && |ys| == |Offsets|
    ensures forall y :: y in ys <==> y - actual in Offsets
  {
    [actual - 3, actual - 2, actual - 1, actual + 1, actual + 2, actual + 3]
  }

  /** `possibleYears`: the offsets added to the true year, kept when in range, in offset order. */
  function PossibleYears(actual: int, currentYear: int): (r: seq<int>)
    ensures forall y :: y in r <==> y - actual in Offsets && InYearRange(y, currentYear)
    ensures Increasing(r)
    ensures |r| <= |Offsets|
  {
    var ys := OffsetYears(actual);
    KeepIncreasing(ys, currentYear);
    KeepInRange(ys, currentYear)
  }

  /** Exchange two positions; an out-of-range pair leaves the sequence alone. */
  function Swap<T>(s: seq<T>, i: nat, j: nat): (r: seq<T>)
    ensures |r| == |s| && multiset(r) == multiset(s)
  {
    if i < |s| && j < |s| then s[i := s[j]][j := s[i]] else s
  }

  /** `sort(() => Math.random() - 0.5)`: some permutation, given as the transpositions that produce it. */
  function Shuffle<T>(s: seq<T>, swaps: seq<(nat, nat)>): (r: seq<T>)
    ensures |r| == |s| && multiset(r) == multiset(s)
    decreases |swaps|
  {
    if |swaps| == 0 then s else Shuffle(Swap(s, swaps[0].0, swaps[0].1), swaps[1..])
  }

  /** An increasing sequence holds each of its values once. */
  lemma {:induction false} IncreasingCounts(s: seq<int>)
    requires Increasing(s)
    ensures forall y :: multiset(s)[y] <= 1
    decreases |s|
  {
    if |s| > 0 {
      IncreasingCounts(s[1..]);
      assert s == [s[0]] + s[1..];
      assert s[0] !in s[1..];
    }
  }

  /** A sequence whose values occur at most once has no two equal positions. */
  lemma NoRepeatsFromCounts(s: seq<int>)
    requires forall y :: multiset(s)[y] <= 1
    ensures NoRepeats(s)
  {
    forall i, j | 0 <= i < j < |s|
      ensures s[i] != s[j]
    {
      assert s == s[..j] + s[j..];
      assert s[..j][i] == s[i];
      assert s[j..][0] == s[j];
      assert multiset(s[..j])[s[i]] >= 1;
      assert multiset(s[j..])[s[j]] >= 1;
      assert multiset(s)[s[i]] == multiset(s[..j])[s[i]] + multiset(s[j..])[s[i]];
    }
  }

  /** `wrongYears`: the first three of the shuffled possible years. */
  function WrongYears(actual: int, currentYear: int, swaps: seq<(nat, nat)>): (r: seq<int>)
    ensures |r| == (if |PossibleYears(actual, currentYear)| < WrongLimit then |PossibleYears(actual, currentYear)| else WrongLimit)
    ensures multiset(r) <= multiset(PossibleYears(actual, currentYear))
  {
    var shuffled := Shuffle(PossibleYears(actual, currentYear), swaps);
    var r := Text.Take(shuffled, WrongLimit);
    assert shuffled == r + shuffled[|r|..];
    r
  }

  /** Every wrong year is a distinct in-range year within three of the true year, never the true year itself. */
  lemma WrongYearsFacts(actual: int, currentYear: int, swaps: seq<(nat, nat)>)
    ensures forall y :: y in WrongYears(actual, currentYear, swaps) ==>
      y != actual && y - actual in Offsets && InYearRange(y, currentYear)
    ensures forall y :: multiset(WrongYears(actual, currentYear, swaps))[y] <= 1
  {
    var possible := PossibleYears(actual, currentYear);
    var wrong := WrongYears(actual, currentYear, swaps);
    IncreasingCounts(possible);
    forall y | y in wrong
      ensures y in possible
    {
      assert y in multiset(wrong);
    }
    forall y
      ensures multiset(wrong)[y] <= 1
    {
      assert multiset(wrong)[y] <= multiset(possible)[y];
    }
  }

  /**
   * `getYearOptions`: the wrong years and the true year, shuffled again.
   * The true year is there exactly once, every other option is a distinct
   * in-range year within three of it, and there are one to four options.
   */
  function YearOptions(actual: int, currentYear: int, wrongSwaps: seq<(nat, nat)>, finalSwaps: seq<(nat, nat)>): (r: seq<int>)
    ensures multiset(r) == multiset(WrongYears(actual, currentYear, wrongSwaps)) + multiset{actual}
    ensures multiset(r)[actual] == 1
    ensures forall y :: y in r && y != actual ==> y - actual in Offsets && InYearRange(y, currentYear)
    ensures |r| == |WrongYears(actual, currentYear, wrongSwaps)| + 1 && 1 <= |r| <= WrongLimit + 1
    ensures NoRepeats(r)
  {
    var wrong := WrongYears(actual, currentYear, wrongSwaps);
    var r := Shuffle(wrong + [actual], finalSwaps);
    WrongYearsFacts(actual, currentYear, wrongSwaps);
    OptionsFacts(wrong, actual, r);
    r
  }

  lemma OptionsFacts(wrong: seq<int>, actual: int, r: seq<int>)
    requires multiset(r) == multiset(wrong + [actual])
    requires forall y :: multiset(wrong)[y] <= 1
    requires actual !in wrong
    ensures multiset(r) == multiset(wrong) + multiset{actual}
    ensures multiset(r)[actual] == 1
    ensures forall y :: y in r ==> y in wrong || y == actual
    ensures NoRepeats(r)
  {
    assert multiset(wrong + [actual]) == multiset(wrong) + multiset{actual};
    forall y
      ensures multiset(r)[y] <= 1
    {
      assert multiset(r)[y] == multiset(wrong)[y] + multiset{actual}[y];
    }
    NoRepeatsFromCounts(r);
    forall y | y in r
      ensures y in wrong || y == actual
    {
      assert y in multiset(r);
    }
  }

  /** With the true year at least three years inside the range, all six offsets survive and four options show. */
  lemma FourOptions(actual: int, currentYear: int, wrongSwaps: seq<(nat, nat)>, finalSwaps: seq<(nat, nat)>)
    requires 1954 <= actual <= currentYear - 3
    ensures PossibleYears(actual, currentYear) == OffsetYears(actual)
    ensures |YearOptions(actual, currentYear, wrongSwaps, finalSwaps)| == 4
  {
    KeepAll(OffsetYears(actual), currentYear);
  }

  // ---- the per-round state machine ----------------------------------------

  datatype Feedback = Silent | Correct | NotQuite(year: int)

  /** The pending `setTimeout` callback, with the round, score and verdict its closure captured. */
  datatype Timer = Timer(round: nat, score: nat, correct: bool)

  /** The component's state plus the scores passed to `onComplete` so far. */
  datatype Game = Game(
    round: nat,
    score: nat,
    selected: Option<int>,
    hasGuessed: bool,
    feedback: Feedback,
    timer: Option<Timer>,
    reported: seq<nat>)

  function Init(): Game
  {
    Game(0, 0, None, false, Silent, None, [])
  }

  function FeedbackText(f: Feedback): string
  {
    match f
    case Silent => ""
    case Correct => CorrectText
    case NotQuite(y) => NotQuiteText + Text.IntToString(y)
  }

  /**
   * `handleGuess(answer)` for a track released in `actual`: ignored once a
   * guess was made this round; otherwise records the answer, scores one
   * point for an exact match, and schedules the advance.
   */
  function Guess(g: Game, actual: int, answer: int): (r: Game)
    ensures g.hasGuessed ==> r == g
    ensures !g.hasGuessed ==> r.hasGuessed && r.selected == Some(answer) && r.round == g.round && r.reported == g.reported
    ensures !g.hasGuessed ==> (r.score == g.score + 1 <==> answer == actual)
    ensures !g.hasGuessed && answer != actual ==> r.score == g.score && r.feedback == NotQuite(actual)
    ensures !g.hasGuessed ==> r.timer == Some(Timer(g.round, g.score, answer == actual))
  {
    if g.hasGuessed then g
    else
      var correct := answer == actual;
      g.(selected := Some(answer), hasGuessed := true,
         score := if correct then g.score + 1 else g.score,
         feedback := if correct then Correct else NotQuite(actual),
         timer := Some(Timer(g.round, g.score, correct)))
  }

  /**
   * The timer fires: before the last round it moves to the next round and
   * clears the guess; in the last round it reports the captured score plus
   * this guess's point.
   */
  function Tick(g: Game): (r: Game)
    ensures g.timer.None? ==> r == g
    ensures r.timer.None? && r.score == g.score
    ensures g.timer.Some? && g.timer.value.round < MaxRounds - 1 ==>
      && r.round == g.timer.value.round + 1 && !r.hasGuessed && r.selected.None?
      && r.feedback == Silent && r.reported == g.reported
    ensures g.timer.Some? && g.timer.value.round >= MaxRounds - 1 ==>
      && r.round == g.round && r.hasGuessed == g.hasGuessed
      && r.reported == g.reported + [g.timer.value.score + (if g.timer.value.correct then 1 else 0)]
  {
    match g.timer
    case None => g
    case Some(t) =>
      if t.round < MaxRounds - 1 then
        g.(round := t.round + 1, hasGuessed := false, selected := None, feedback := Silent, timer := None)
      else
        g.(timer := None, reported := g.reported + [t.score + if t.correct then 1 else 0])
  }

  datatype Event = Pick(answer: int) | Elapse

  /** One event against the tracks' release years; a pick beyond the track list is not offered. */
  function Step(g: Game, years: seq<int>, e: Event): Game
  {
    match e
    case Pick(a) => if g.round < |years| then Guess(g, years[g.round], a) else g
    case Elapse => Tick(g)
  }

  function Run(g: Game, years: seq<int>, es: seq<Event>): Game
    decreases |es|
  {
    if |es| == 0 then g else Run(Step(g, years, es[0]), years, es[1..])
  }

  /**
   * What every reachable state satisfies: the round stays below three, the
   * score counts at most one point per round played, the pending timer
   * matches the current round, and once a score is reported it is the final
   * score and nothing moves again.
   */
  predicate Valid(g: Game)
  {
    && g.round < MaxRounds
    && g.score <= g.round + (if g.hasGuessed then 1 else 0)
    && (!g.hasGuessed ==> g.timer.None? && g.selected.None? && g.feedback == Silent && g.reported == [])
    && (g.timer.Some? ==>
          && g.hasGuessed && g.reported == []
          && g.timer.value.round == g.round
          && g.score == g.timer.value.score + (if g.timer.value.correct then 1 else 0))
    && (g.hasGuessed && g.timer.None? ==> g.round == MaxRounds - 1 && g.reported == [g.score])
  }

  lemma StepValid(g: Game, years: seq<int>, e: Event)
    requires Valid(g)
    ensures Valid(Step(g, years, e))
  {
  }

  /**
   * From the start, any events keep the round in [0, 2], the score in
   * [0, 3], and at most one score reported, equal to the final score.
   */
  lemma {:induction false} RunValid(g: Game, years: seq<int>, es: seq<Event>)
    requires Valid(g)
    ensures Valid(Run(g, years, es))
    ensures Run(g, years, es).round <= MaxRounds - 1 && Run(g, years, es).score <= MaxRounds
    ensures |Run(g, years, es).reported| <= 1
    ensures forall k :: 0 <= k < |Run(g, years, es).reported| ==> Run(g, years, es).reported[k] <= MaxRounds
    decreases |es|
  {
    if |es| > 0 {
      StepValid(g, years, es[0]);
      RunValid(Step(g, years, es[0]), years, es[1..]);
    }
  }

  lemma {:induction false} RunAppend(g: Game, years: seq<int>, a: seq<Event>, b: seq<Event>)
    ensures Run(g, years, a + b) == Run(Run(g, years, a), years, b)
    decreases |a|
  {
    if |a| > 0 {
      assert (a + b)[0] == a[0] && (a + b)[1..] == a[1..] + b;
      RunAppend(Step(g, years, a[0]), years, a[1..], b);
    } else {
      assert a + b == b;
    }
  }

  function Picks(answers: seq<int>): (r: seq<Event>)
    ensures |r| == |answers| && forall i :: 0 <= i < |r| ==> r[i] == Pick(answers[i])
  {
    seq(|answers|, i requires 0 <= i < |answers| => Pick(answers[i]))
  }

  /** A second (and any later) guess in the same round is ignored. */
  lemma {:induction false} RepeatGuessesIgnored(g: Game, years: seq<int>, answers: seq<int>)
    requires g.hasGuessed
    ensures Run(g, years, Picks(answers)) == g
    decreases |answers|
  {
    if |answers| > 0 {
      assert Picks(answers)[1..] == Picks(answers[1..]);
      RepeatGuessesIgnored(g, years, answers[1..]);
    }
  }

  /** A round as the player sees it: one or more clicks on options, then the two seconds elapse. */
  function RoundEvents(answers: seq<int>): seq<Event>
  {
    Picks(answers) + [Elapse]
  }

  function PlayEvents(rounds: seq<seq<int>>): seq<Event>
    decreases |rounds|
  {
    if |rounds| == 0 then [] else RoundEvents(rounds[0]) + PlayEvents(rounds[1..])
  }

  /** How many rounds' first clicks hit the release year. */
  function Hits(rounds: seq<seq<int>>, years: seq<int>): (n: nat)
    requires |rounds| <= |years|
    requires forall r :: 0 <= r < |rounds| ==> |rounds[r]| >= 1
    ensures n <= |rounds|
    decreases |rounds|
  {
    if |rounds| == 0 then 0
    else (if rounds[0][0] == years[0] then 1 else 0) + Hits(rounds[1..], years[1..])
  }

  /** A round that starts fresh: its first click decides the point, later clicks are ignored. */
  lemma OneRound(g: Game, years: seq<int>, answers: seq<int>)
    requires Valid(g) && !g.hasGuessed && g.round < |years|
    requires |answers| >= 1
    ensures Run(g, years, RoundEvents(answers)) == Tick(Guess(g, years[g.round], answers[0]))
  {
    var h := Guess(g, years[g.round], answers[0]);
    assert Picks(answers) == [Pick(answers[0])] + Picks(answers[1..]);
    RunAppend(g, years, [Pick(answers[0])] + Picks(answers[1..]), [Elapse]);
    RunAppend(g, years, [Pick(answers[0])], Picks(answers[1..]));
    RepeatGuessesIgnored(h, years, answers[1..]);
  }

  /**
   * Playing rounds `g.round`, `g.round + 1`, ... to the end, each with at
   * least one click, reports exactly once the score so far plus the number
   * of rounds whose first click hit the release year.
   */
  lemma {:induction false} PlayFrom(g: Game, years: seq<int>, rounds: seq<seq<int>>)
    requires Valid(g) && !g.hasGuessed
    requires g.round + |rounds| == MaxRounds && |years| >= MaxRounds
    requires forall r :: 0 <= r < |rounds| ==> |rounds[r]| >= 1
    ensures Run(g, years, PlayEvents(rounds)).reported == [g.score + Hits(rounds, years[g.round..])]
    decreases |rounds|
  {
    var h := Tick(Guess(g, years[g.round], rounds[0][0]));
    OneRound(g, years, rounds[0]);
    RunAppend(g, years, RoundEvents(rounds[0]), PlayEvents(rounds[1..]));
    if |rounds| == 1 {
      assert PlayEvents(rounds[1..]) == [];
    } else {
      assert years[g.round..][1..] == years[h.round..];
      PlayFrom(h, years, rounds[1..]);
    }
  }

  /** A whole game: three rounds reported as one score, the number of correct first guesses. */
  lemma ReportedScoreIsHits(years: seq<int>, rounds: seq<seq<int>>)
    requires |years| >= MaxRounds && |rounds| == MaxRounds
    requires forall r :: 0 <= r < |rounds| ==> |rounds[r]| >= 1
    ensures Run(Init(), years, PlayEvents(rounds)).reported == [Hits(rounds, years)]
  {
    PlayFrom(Init(), years, rounds);
    assert years[0..] == years;
  }

  // ---- what the component renders -----------------------------------------

  datatype View =
    | NotEnough
    | Playing(number: nat, score: nat, track: Track, options: seq<int>, feedback: string)

  /**
   * Without a track list or with fewer than three tracks nothing but
   * "Not enough tracks to play" shows; otherwise round `round + 1` of three
   * with the current track and its year options.
   */
  function ViewOf(g: Game, tracks: Option<seq<Track>>, currentYear: int,
                  wrongSwaps: seq<(nat, nat)>, finalSwaps: seq<(nat, nat)>): (v: View)
    requires Valid(g)
    ensures v == NotEnough <==> tracks.None? || |tracks.value| < MaxRounds
    ensures v.Playing? ==> 1 <= v.number <= MaxRounds && v.number == g.round + 1 && v.score == g.score
    ensures v.Playing? ==> v.track == tracks.value[g.round] && v.track.releaseYear in v.options
    ensures v.Playing? ==> v.options == YearOptions(v.track.releaseYear, currentYear, wrongSwaps, finalSwaps)
    ensures v.Playing? ==> v.feedback == FeedbackText(g.feedback)
  {
    if tracks.None? || |tracks.value| < MaxRounds then NotEnough
    else
      var t := tracks.value[g.round];
      var options := YearOptions(t.releaseYear, currentYear, wrongSwaps, finalSwaps);
      assert t.releaseYear in multiset(options);
      Playing(g.round + 1, g.score, t, options, FeedbackText(g.feedback))
  }

  /** The class of an option button: marked only once guessed, and only on the chosen year. */
  function OptionClass(g: Game, year: int, actual: int): string
  {
    if g.hasGuessed && g.selected == Some(year) then (if year == actual then "correct" else "incorrect") else ""
  }

  /** After a guess, the chosen option alone is marked, as correct exactly when it is the release year. */
  lemma GuessMarksChoice(g: Game, actual: int, answer: int, year: int)
    requires !g.hasGuessed
    ensures OptionClass(Guess(g, actual, answer), answer, actual) == (if answer == actual then "correct" else "incorrect")
    ensures year != answer ==> OptionClass(Guess(g, actual, answer), year, actual) == ""
    ensures OptionClass(g, year, actual) == ""
  {
  }

  /**
   * The options are drawn again on every render, including the one the
   * guess itself causes. Whenever all six nearby years are in range (a
   * track from 2000 in 2024, say), one draw can offer `actual - 3` and the
   * next can leave it out, so a guess of that year ends up with no button
   * marked.
   */
  lemma RedrawCanDropChoice(actual: int, currentYear: int)
    requires 1950 < actual - 3 && actual + 3 <= currentYear
    ensures actual - 3 in YearOptions(actual, currentYear, [], [])
    ensures actual - 3 !in YearOptions(actual, currentYear, [(0, 3)], [])
  {
    SampleWrongYears(actual, currentYear);
    OptionsMembers(actual, currentYear, [], []);
    OptionsMembers(actual, currentYear, [(0, 3)], []);
  }

  /** An option is the true year or one of the wrong years. */
  lemma OptionsMembers(actual: int, currentYear: int, wrongSwaps: seq<(nat, nat)>, finalSwaps: seq<(nat, nat)>)
    ensures forall y :: y in YearOptions(actual, currentYear, wrongSwaps, finalSwaps) <==>
      y == actual || y in WrongYears(actual, currentYear, wrongSwaps)
  {
    var r := YearOptions(actual, currentYear, wrongSwaps, finalSwaps);
    var wrong := WrongYears(actual, currentYear, wrongSwaps);
    forall y
      ensures y in r <==> y == actual || y in wrong
    {
      assert y in r <==> y in multiset(r);
      assert y in wrong <==> y in multiset(wrong);
    }
  }

  /** Unshuffled, the wrong years are the three earlier years; one swap replaces the earliest by the year after. */
  lemma SampleWrongYears(actual: int, currentYear: int)
    requires 1950 < actual - 3 && actual + 3 <= currentYear
    ensures WrongYears(actual, currentYear, []) == [actual - 3, actual - 2, actual - 1]
    ensures WrongYears(actual, currentYear, [(0, 3)]) == [actual + 1, actual - 2, actual - 1]
  {
    AllPossible(actual, currentYear);
    WrongYearsTake(actual, currentYear, []);
    OneSwap(OffsetYears(actual));
    WrongYearsTake(actual, currentYear, [(0, 3)]);
  }

  /** With every nearby year in range, the possible years are all six of them. */
  lemma AllPossible(actual: int, currentYear: int)
    requires 1950 < actual - 3 && actual + 3 <= currentYear
    ensures PossibleYears(actual, currentYear) == OffsetYears(actual)
  {
    KeepAll(OffsetYears(actual), currentYear);
  }

  /** The single transposition (0, 3) as a shuffle. */
  lemma OneSwap(s: seq<int>)
    requires |s| > 3
    ensures Shuffle(s, [(0, 3)]) == s[0 := s[3]][3 := s[0]]
  {
    ShuffleStep(s, [(0, 3)]);
    assert [(0, 3)][1..] == [];
  }

  /** With at least three possible years, the wrong years are the first three after shuffling. */
  lemma WrongYearsTake(actual: int, currentYear: int, swaps: seq<(nat, nat)>)
    requires |PossibleYears(actual, currentYear)| >= WrongLimit
    ensures var s := Shuffle(PossibleYears(actual, currentYear), swaps);
      WrongYears(actual, currentYear, swaps) == [s[0], s[1], s[2]]
  {
  }

  /** One transposition, then the rest. */
  lemma ShuffleStep<T>(s: seq<T>, swaps: seq<(nat, nat)>)
    requires |swaps| > 0
    ensures Shuffle(s, swaps) == Shuffle(Swap(s, swaps[0].0, swaps[0].1), swaps[1..])
  {
  }



}

=== FILE: rows.dfy ===
/** The listening data a wrap carries, as the front end reads it. */
module Music {
  import opened Wrappers

  /** `genres` is `None` when the member is missing from the artist object. */
  datatype Artist = Artist(id: string, name: string, genres: Option<seq<string>>)

  /** `releaseYear` stands for `new Date(album.release_date).getFullYear()`. */
  datatype Track = Track(id: string, name: string, artistName: string, releaseYear: int)

  /**
   * The four lists of a wrap; each is `None` when `x?.items` is undefined,
   * which the optional chaining of the components renders as nothing.
   */
  datatype WrapData = WrapData(
    topArtistsRecent: Option<seq<Artist>>,
    topArtistsAllTime: Option<seq<Artist>>,
    topTracksRecent: Option<seq<Track>>,
    topTracksAllTime: Option<seq<Track>>)

  /**
   * A response body that carries the four lists at top level and, possibly,
   * a separate `wrap_data` member (`wrapDataMember`).
   */
  datatype WrappedBody = WrappedBody(lists: WrapData, wrapDataMember: Option<WrapData>)

  /** The three Spotify time ranges a wrap can be generated for. */
  const TimeRanges: set<string> := {"short_term", "medium_term", "long_term"}

  /** An absent list shows like an empty one. */
  function Items<T>(xs: Option<seq<T>>): seq<T>
  {
    xs.GetOr([])
  }
}

/**
 * The row helpers exported by the Wrapped component and reused by the duo
 * and history views: `ArtistRow`/`TrackRow` under `slice(0, 5)`, the genre
 * line of `ArtistRow`, and the guarded countdown entries.
 */
module Rows {
  import opened Wrappers
  import opened Music
  import Text

  const TopCount: nat := 5
  /**
   * The separator literal of `ArtistRow`: a bullet whose UTF-8 bytes were
   * read as Windows-1252, so the page prints the three characters U+00E2,
   * U+20AC and U+00A2 between genres, not U+2022.
   */
  const GenreSeparator: string := " \U{00E2}\U{20AC}\U{00A2} "
  const GenreFallback: string := "Genre unavailable"

  /** One rendered row: `rank` is the number printed after `#`. */
  datatype Row<T> = Row(rank: nat, item: T)

  /** `items?.slice(0, 5).map((x, index) => <Row rank={index} />)`, shown as `#index+1`. */
  function TopRows<T>(items: Option<seq<T>>): (r: seq<Row<T>>)
    ensures |r| <= TopCount
    ensures |r| == (if |Items(items)| < TopCount then |Items(items)| else TopCount)
    ensures forall i :: 0 <= i < |r| ==> r[i] == Row(i + 1, Items(items)[i])
  {
    var shown := Text.Take(Items(items), TopCount);
    seq(|shown|, i requires 0 <= i < |shown| => Row(i + 1, shown[i]))
  }

  function RowItems<T>(rows: seq<Row<T>>): seq<T>
  {
    seq(|rows|, i requires 0 <= i < |rows| => rows[i].item)
  }

  /**
   * The rows show a prefix of the list in its own order, and they show the
   * whole list whenever it has fewer than five entries.
   */
  lemma TopRowsPrefix<T>(items: Option<seq<T>>)
    ensures RowItems(TopRows(items)) <= Items(items)
    ensures |Items(items)| <= TopCount ==> RowItems(TopRows(items)) == Items(items)
    ensures |Items(items)| >= TopCount ==> |RowItems(TopRows(items))| == TopCount
  {
  }

  datatype GenreLine = Genres(text: string) | Unavailable

  /** `artist.genres?.slice(0, 2).join(GenreSeparator) || 'Genre unavailable'`. */
  function GenreLineOf(a: Artist): (r: GenreLine)
    ensures r.Genres? ==> r.text != ""
  {
    var text := Text.Join(Text.Take(Items(a.genres), 2), GenreSeparator);
    if a.genres.None? || text == "" then Unavailable else Genres(text)
  }

  function GenreLineText(g: GenreLine): string
  {
    match g
    case Genres(t) => t
    case Unavailable => GenreFallback
  }

  /**
   * The fallback shows exactly when there is no genre list, the list is
   * empty, or its only genre is the empty string; otherwise the first one or
   * two genres are shown with the separator literal between them.
   */
  lemma GenreLineCases(a: Artist)
    ensures GenreLineOf(a).Unavailable? <==>
      a.genres.None? || |a.genres.value| == 0 || (|a.genres.value| == 1 && a.genres.value[0] == "")
    ensures a.genres.Some? && |a.genres.value| == 1 && a.genres.value[0] != ""
      ==> GenreLineOf(a) == Genres(a.genres.value[0])
    ensures a.genres.Some? && |a.genres.value| >= 2
      ==> GenreLineOf(a) == Genres(a.genres.value[0] + GenreSeparator + a.genres.value[1])
    ensures a.genres == Some(["pop", "rock"]) ==> GenreLineText(GenreLineOf(a)) == "pop \U{00E2}\U{20AC}\U{00A2} rock"
  {
    if a.genres.Some? && |a.genres.value| >= 2 {
      var g := a.genres.value;
      assert Text.Take(g, 2) == [g[0], g[1]];
      assert Text.Join([g[0], g[1]], GenreSeparator) == g[0] + GenreSeparator + g[1];
    }
  }

  /** `items?.[i] && <CountdownTrack track={items[i]} />`. */
  function CountdownAt(items: Option<seq<Track>>, i: nat): (r: Option<Track>)
    ensures r.Some? <==> items.Some? && i < |items.value|
    ensures r.Some? ==> r.value == items.value[i]
  {
    if items.Some? && i < |items.value| then Some(items.value[i]) else None
  }

  /** Which of `Previous`/`Next` a slide's `NavigationButtons` offers. */
  datatype Buttons = Buttons(prev: bool, next: bool)
}

=== FILE: share.dfy ===
/**
 * The share text: a fixed header, then the first three artist names and the
 * first three track names, each group joined by ", ". The utility and the
 * Twitter button build the same text; the button adds a trailing newline.
 */
module Share {
  import opened Wrappers
  import opened Music
  import Text

  const Header: string := "Check out my Spotify Wrapped!"
  const ArtistsTitle: string := "Top Artists:"
  const TracksTitle: string := "Top Tracks:"
  const NameSeparator: string := ", "
  const ShareCount: nat := 3

  /** `names.slice(0, 3).join(', ')`. */
  function NamesLine(names: seq<string>): string
  {
    Text.Join(Text.Take(names, ShareCount), NameSeparator)
  }

  /** `generateShareableText`. */
  function ShareText(artists: seq<string>, tracks: seq<string>): string
  {
    Header + "\n\n" + ArtistsTitle + "\n" + NamesLine(artists) + "\n\n" + TracksTitle + "\n" + NamesLine(tracks)
  }

  function Lines(artists: seq<string>, tracks: seq<string>): seq<string>
  {
    [Header, "", ArtistsTitle, NamesLine(artists), "", TracksTitle, NamesLine(tracks)]
  }

  lemma JoinSeven(a: string, b: string, c: string, d: string, e: string, f: string, g: string)
    ensures Text.Join([a, b, c, d, e, f, g], "\n") == a + "\n" + b + "\n" + c + "\n" + d + "\n" + e + "\n" + f + "\n" + g
  {
    assert Text.Join([g], "\n") == g;
    assert Text.Join([f, g], "\n") == f + "\n" + g by { assert [f, g][1..] == [g]; }
    assert Text.Join([e, f, g], "\n") == e + "\n" + (f + "\n" + g) by { assert [e, f, g][1..] == [f, g]; }
    assert Text.Join([d, e, f, g], "\n") == d + "\n" + Text.Join([e, f, g], "\n") by { assert [d, e, f, g][1..] == [e, f, g]; }
    assert Text.Join([c, d, e, f, g], "\n") == c + "\n" + Text.Join([d, e, f, g], "\n") by { assert [c, d, e, f, g][1..] == [d, e, f, g]; }
    assert Text.Join([b, c, d, e, f, g], "\n") == b + "\n" + Text.Join([c, d, e, f, g], "\n") by { assert [b, c, d, e, f, g][1..] == [c, d, e, f, g]; }
    assert Text.Join([a, b, c, d, e, f, g], "\n") == a + "\n" + Text.Join([b, c, d, e, f, g], "\n") by { assert [a, b, c, d, e, f, g][1..] == [b, c, d, e, f, g]; }
  }

  /**
   * With names free of line breaks the text reads, line by line: the header,
   * a blank line, "Top Artists:", the artist names, a blank line,
   * "Top Tracks:", the track names.
   */
  lemma ShareTextLines(artists: seq<string>, tracks: seq<string>)
    requires forall i :: 0 <= i < |artists| ==> '\n' !in artists[i]
    requires forall i :: 0 <= i < |tracks| ==> '\n' !in tracks[i]
    ensures Text.Split(ShareText(artists, tracks), '\n') == Lines(artists, tracks)
  {
    ShareTextIsJoin(artists, tracks);
    LinesAvoidNewline(artists, tracks);
    Text.SplitJoin(Lines(artists, tracks), '\n');
  }

  lemma ShareTextIsJoin(artists: seq<string>, tracks: seq<string>)
    ensures ShareText(artists, tracks) == Text.Join(Lines(artists, tracks), "\n")
  {
    var ls := Lines(artists, tracks);
    JoinSeven(ls[0], ls[1], ls[2], ls[3], ls[4], ls[5], ls[6]);
  }

  lemma LinesAvoidNewline(artists: seq<string>, tracks: seq<string>)
    requires forall i :: 0 <= i < |artists| ==> '\n' !in artists[i]
    requires forall i :: 0 <= i < |tracks| ==> '\n' !in tracks[i]
    ensures |Lines(artists, tracks)| >= 1
    ensures forall i :: 0 <= i < |Lines(artists, tracks)| ==> '\n' !in Lines(artists, tracks)[i]
  {
    NamesLineAvoids(artists);
    NamesLineAvoids(tracks);
  }

  /** The text ends with the track names, so it has no trailing newline unless no track is named. */
  lemma ShareTextNoTrailingNewline(artists: seq<string>, tracks: seq<string>)
    requires forall i :: 0 <= i < |tracks| ==> '\n' !in tracks[i]
    ensures NamesLine(tracks) != "" ==> ShareText(artists, tracks)[|ShareText(artists, tracks)| - 1] != '\n'
    ensures NamesLine(tracks) == "" ==> ShareText(artists, tracks)[|ShareText(artists, tracks)| - 1] == '\n'
  {
    var t := ShareText(artists, tracks);
    var last := NamesLine(tracks);
    var front := Header + "\n\n" + ArtistsTitle + "\n" + NamesLine(artists) + "\n\n" + TracksTitle + "\n";
    assert t == front + last;
    if last != "" {
      NamesLineAvoids(tracks);
      assert t[|t| - 1] == last[|last| - 1];
      assert last[|last| - 1] in last;
    } else {
      assert t == front;
    }
  }

  /** A names line of names free of line breaks has no line break. */
  lemma NamesLineAvoids(names: seq<string>)
    requires forall i :: 0 <= i < |names| ==> '\n' !in names[i]
    ensures '\n' !in NamesLine(names)
  {
    var taken := Text.Take(names, ShareCount);
    assert forall i :: 0 <= i < |taken| ==> taken[i] == names[i];
    Text.JoinAvoids(taken, NameSeparator, '\n');
  }

  /** At most the first three names appear, in order; with three or fewer, all of them. */
  lemma NamesLineFacts(names: seq<string>)
    ensures Text.Take(names, ShareCount) <= names && |Text.Take(names, ShareCount)| <= ShareCount
    ensures |names| <= ShareCount ==> NamesLine(names) == Text.Join(names, NameSeparator)
    ensures |names| == 0 ==> NamesLine(names) == ""
  {
  }

  /** `generateShareableImage`: a placeholder that always yields `null`. */
  function ShareableImage(artists: seq<string>, tracks: seq<string>): (r: Option<string>)
    ensures r.None?
  {
    None
  }

  function Names<T>(items: seq<T>, name: T -> string): (r: seq<string>)
    ensures |r| == |items| && forall i :: 0 <= i < |items| ==> r[i] == name(items[i])
  {
    seq(|items|, i requires 0 <= i < |items| => name(items[i]))
  }

  function ArtistName(a: Artist): string { a.name }
  function TrackName(t: Track): string { t.name }

  /**
   * The Twitter button's text: the share text plus a trailing newline, or
   * nothing when a list is missing and reading its `items` throws.
   */
  function TweetText(d: WrapData): (r: Option<string>)
    ensures r.Some? <==> d.topArtistsRecent.Some? && d.topTracksRecent.Some?
    ensures r.Some? ==> r.value == ShareText(Names(d.topArtistsRecent.value, ArtistName), Names(d.topTracksRecent.value, TrackName)) + "\n"
  {
    if d.topArtistsRecent.None? || d.topTracksRecent.None? then None
    else Some(ShareText(Names(d.topArtistsRecent.value, ArtistName), Names(d.topTracksRecent.value, TrackName)) + "\n")
  }

  /** The tweet is the utility's text with a newline added, so they always differ. */
  lemma TweetEndsWithNewline(d: WrapData)
    requires d.topArtistsRecent.Some? && d.topTracksRecent.Some?
    ensures TweetText(d).value[|TweetText(d).value| - 1] == '\n'
    ensures TweetText(d).value[..|Header|] == Header
    ensures TweetText(d).value != ShareText(Names(d.topArtistsRecent.value, ArtistName), Names(d.topTracksRecent.value, TrackName))
  {
  }

  /** `process.env.REACT_APP_SITE_URL || window.location.origin`. */
  function ShareUrl(siteUrl: Option<string>, origin: string): (r: string)
    ensures siteUrl.Some? && siteUrl.value != "" ==> r == siteUrl.value
    ensures siteUrl.None? || siteUrl.value == "" ==> r == origin
  {
    if siteUrl.Some? && siteUrl.value != "" then siteUrl.value else origin
  }
}

=== FILE: sorting.dfy ===
/**
 * A stable sort, newest first. `Array.prototype.sort` is stable, so the
 * comparator `(a, b) => key(b) - key(a)` orders by a descending key and keeps
 * the stored order among equal keys; this module defines that order by
 * insertion and proves the three facts that pin it down.
 */
module Sorting {

  predicate SortedDesc<T>(s: seq<T>, key: T -> int)
  {
    forall i, j :: 0 <= i < j < |s| ==> key(s[i]) >= key(s[j])
  }

  /** The elements of `s` whose key is `k`, in order. */
  function WithKey<T>(s: seq<T>, key: T -> int, k: int): (r: seq<T>)
    ensures |r| <= |s|
  {
    if |s| == 0 then []
    else (if key(s[0]) == k then [s[0]] else []) + WithKey(s[1..], key, k)
  }

  /** Places `x` in front of the first element whose key does not exceed its own. */
  function Insert<T>(x: T, s: seq<T>, key: T -> int): seq<T>
  {
    if |s| == 0 then [x]
    else if key(s[0]) <= key(x) then [x] + s
    else [s[0]] + Insert(x, s[1..], key)
  }

  /** `s.sort((a, b) => key(b) - key(a))`. */
  function SortDesc<T>(s: seq<T>, key: T -> int): seq<T>
  {
    if |s| == 0 then [] else Insert(s[0], SortDesc(s[1..], key), key)
  }

  /** Insertion adds `x` and nothing else, at the front or behind the old head. */
  lemma {:induction false} InsertElements<T>(x: T, s: seq<T>, key: T -> int)
    ensures multiset(Insert(x, s, key)) == multiset(s) + multiset{x}
    ensures |Insert(x, s, key)| == |s| + 1
    ensures Insert(x, s, key)[0] == x || (|s| > 0 && Insert(x, s, key)[0] == s[0])
  {
    if |s| > 0 && key(s[0]) > key(x) {
      InsertElements(x, s[1..], key);
      assert s == [s[0]] + s[1..];
    }
  }

  lemma {:induction false} InsertFacts<T>(x: T, s: seq<T>, key: T -> int)
    requires SortedDesc(s, key)
    ensures SortedDesc(Insert(x, s, key), key)
    ensures multiset(Insert(x, s, key)) == multiset(s) + multiset{x}
    ensures |Insert(x, s, key)| == |s| + 1
    ensures Insert(x, s, key)[0] == x || (|s| > 0 && Insert(x, s, key)[0] == s[0])
  {
    InsertElements(x, s, key);
    if |s| > 0 && key(s[0]) > key(x) {
      var rest := s[1..];
      InsertFacts(x, rest, key);
      InsertElements(x, rest, key);
      var t := Insert(x, rest, key);
      assert Insert(x, s, key) == [s[0]] + t;
      forall j | 0 <= j < |t|
        ensures key(s[0]) >= key(t[j])
      {
        assert t[j] in multiset(rest) + multiset{x};
        if t[j] in multiset(rest) {
          var m :| 0 <= m < |rest| && rest[m] == t[j];
          assert s[m + 1] == t[j];
        }
      }
    }
  }

  /** Inserting `x` puts it ahead of every element that has its key. */
  lemma {:induction false} InsertWithKey<T>(x: T, s: seq<T>, key: T -> int, k: int)
    ensures WithKey(Insert(x, s, key), key, k)
         == (if key(x) == k then [x] else []) + WithKey(s, key, k)
  {
    if |s| == 0 {
      assert Insert(x, s, key) == [x];
      assert [x][1..] == [];
    } else if key(s[0]) <= key(x) {
      assert Insert(x, s, key) == [x] + s;
      assert ([x] + s)[1..] == s;
    } else {
      InsertWithKey(x, s[1..], key, k);
      var t := Insert(x, s[1..], key);
      assert Insert(x, s, key) == [s[0]] + t;
      assert ([s[0]] + t)[1..] == t;
      if key(s[0]) == k {
        // s[0] outranks x, so x does not carry key k
        assert key(x) != k;
      }
    }
  }

  /** The result is ordered by descending key. */
  lemma {:induction false} SortDescSorted<T>(s: seq<T>, key: T -> int)
    ensures SortedDesc(SortDesc(s, key), key)
    ensures multiset(SortDesc(s, key)) == multiset(s)
    ensures |SortDesc(s, key)| == |s|
  {
    if |s| > 0 {
      SortDescSorted(s[1..], key);
      InsertFacts(s[0], SortDesc(s[1..], key), key);
      assert s == [s[0]] + s[1..];
    }
  }

  /** Stability: among equal keys the stored order is kept. */
  lemma {:induction false} SortDescStable<T>(s: seq<T>, key: T -> int, k: int)
    ensures WithKey(SortDesc(s, key), key, k) == WithKey(s, key, k)
  {
    if |s| > 0 {
      SortDescStable(s[1..], key, k);
      InsertWithKey(s[0], SortDesc(s[1..], key), key, k);
    }
  }
}

=== FILE: spotify_wrap.dfy ===
/**
 * The Material UI wrap viewer. Its Previous/Next handlers change the index
 * without any guard; only the buttons' `disabled` flags keep it in range.
 */
module SpotifyWrap {
  import opened Wrappers
  import opened Http
  import opened Music
  import Text

  /** The `id`s of the `slides` array, in order. */
  const SlideIds: seq<int> := [1, 2]
  const ArtistLimit: nat := 5

  /** `response.data`: the wrap record; `topArtists` is `data.top_artists`. */
  datatype WrapRecord = WrapRecord(topArtists: Option<seq<Artist>>)

  datatype State = State(current: int, wrap: Option<WrapRecord>, loading: bool)

  function Init(): State
  {
    State(1, None, true)
  }

  /** `fetchWrapData`: a failure is only logged; loading ends either way. */
  function Loaded(s: State, o: Outcome<Option<WrapRecord>>): (r: State)
    ensures !r.loading && r.current == s.current
    ensures o.Ok? ==> r.wrap == o.data
    ensures o.Err? ==> r.wrap == s.wrap
  {
    match o
    case Ok(w) => s.(wrap := w, loading := false)
    case Err(_) => s.(loading := false)
  }

  datatype Button = PreviousButton | NextButton

  predicate Disabled(s: State, b: Button)
  {
    match b
    case PreviousButton => s.current == 1
    case NextButton => s.current == |SlideIds|
  }

  /** The `onClick` updates `curr => curr - 1` and `curr => curr + 1`, unguarded. */
  function Update(s: State, b: Button): State
  {
    match b
    case PreviousButton => s.(current := s.current - 1)
    case NextButton => s.(current := s.current + 1)
  }

  /** A click reaches the handler only when the button is enabled. */
  function Click(s: State, b: Button): (r: State)
    ensures Disabled(s, b) ==> r == s
    ensures !Disabled(s, b) ==> r == Update(s, b)
  {
    if Disabled(s, b) then s else Update(s, b)
  }

  predicate InRange(s: State)
  {
    1 <= s.current <= |SlideIds|
  }

  /** The handlers alone would leave the deck: Previous on slide 1 goes to slide 0. */
  lemma UpdateLeavesRange()
    ensures !InRange(Update(Init(), PreviousButton))
    ensures Update(Init(), PreviousButton).current == 0
  {
  }

  /** With the buttons disabled at the ends, clicking keeps the index in range. */
  lemma ClickInRange(s: State, b: Button)
    requires InRange(s)
    ensures InRange(Click(s, b))
  {
  }

  function Run(s: State, clicks: seq<Button>): State
    decreases |clicks|
  {
    if |clicks| == 0 then s else Run(Click(s, clicks[0]), clicks[1..])
  }

  lemma {:induction false} RunInRange(s: State, clicks: seq<Button>)
    requires InRange(s)
    ensures InRange(Run(s, clicks))
    decreases |clicks|
  {
    if |clicks| > 0 {
      ClickInRange(s, clicks[0]);
      RunInRange(Click(s, clicks[0]), clicks[1..]);
    }
  }

  /** The slides rendered with the `active` class: those whose id equals `currentSlide`. */
  function ActiveSlides(s: State): set<int>
  {
    set i | 0 <= i < |SlideIds| && SlideIds[i] == s.current :: SlideIds[i]
  }

  /** In range, exactly the current slide is active. */
  lemma ExactlyOneActive(s: State)
    requires InRange(s)
    ensures ActiveSlides(s) == {s.current}
  {
    assert SlideIds[s.current - 1] == s.current;
  }

  datatype View = Spinner | NoDataFound | Deck(current: int, artists: seq<Artist>)

  /** The spinner while loading, "No data found" without a wrap, else the deck with at most five artists. */
  function ViewOf(s: State): (v: View)
    ensures s.loading ==> v == Spinner
    ensures !s.loading && s.wrap.None? ==> v == NoDataFound
    ensures v.Deck? <==> !s.loading && s.wrap.Some?
    ensures v.Deck? ==> |v.artists| <= ArtistLimit && v.artists <= Items(s.wrap.value.topArtists)
    ensures v.Deck? ==> |v.artists| == (if |Items(s.wrap.value.topArtists)| < ArtistLimit then |Items(s.wrap.value.topArtists)| else ArtistLimit)
    ensures v.Deck? ==> v.current == s.current
  {
    if s.loading then Spinner
    else if s.wrap.None? then NoDataFound
    else Deck(s.current, Text.Take(Items(s.wrap.value.topArtists), ArtistLimit))
  }
}

=== FILE: static_wrap.dfy ===
/**
 * The server-rendered slide page: a script that keeps a 1-based index,
 * marks one `.wrap-slide` element active and disables the Previous/Next
 * buttons at the ends. Slide elements are `slide-1` .. `slide-total`.
 */
module StaticWrap {

  datatype Page = Page(
    current: int,
    total: nat,
    active: set<int>,
    prevDisabled: bool,
    nextDisabled: bool,
    failed: bool)   // `getElementById` found no slide and the handler threw

  /**
   * `showSlide(n)`: clear every slide's `active` class, mark `slide-n`, and
   * set the buttons. Without a `slide-n` element the handler throws after
   * clearing, leaving the buttons as they were.
   */
  function ShowSlide(p: Page, n: int): (r: Page)
    ensures r.current == p.current && r.total == p.total
    ensures 1 <= n <= p.total ==>
      r.active == {n} && r.prevDisabled == (n == 1) && r.nextDisabled == (n == p.total) && r.failed == p.failed
    ensures !(1 <= n <= p.total) ==>
      r.active == {} && r.failed && r.prevDisabled == p.prevDisabled && r.nextDisabled == p.nextDisabled
  {
    if 1 <= n <= p.total then p.(active := {n}, prevDisabled := n == 1, nextDisabled := n == p.total)
    else p.(active := {}, failed := true)
  }

  /** The page once `DOMContentLoaded` has run `showSlide(1)`, whatever was marked before. */
  function Loaded(total: nat, marked: set<int>): Page
  {
    ShowSlide(Page(1, total, marked, false, false, false), 1)
  }

  function NextSlide(p: Page): Page
  {
    if p.current < p.total then ShowSlide(p.(current := p.current + 1), p.current + 1) else p
  }

  function PreviousSlide(p: Page): Page
  {
    if p.current > 1 then ShowSlide(p.(current := p.current - 1), p.current - 1) else p
  }

  /** Exactly the current slide is active and each button is disabled exactly at its end. */
  predicate Consistent(p: Page)
  {
    && 1 <= p.current <= p.total
    && p.active == {p.current}
    && p.prevDisabled == (p.current == 1)
    && p.nextDisabled == (p.current == p.total)
    && !p.failed
  }

  /** Loading shows slide 1 alone, or throws when the page has no slides. */
  lemma LoadedShowsFirst(total: nat, marked: set<int>)
    ensures total >= 1 ==> Consistent(Loaded(total, marked)) && Loaded(total, marked).current == 1
    ensures total >= 1 ==> |Loaded(total, marked).active| == 1
    ensures total == 0 ==> Loaded(total, marked).failed && Loaded(total, marked).active == {}
  {
  }

  /**
   * Navigation keeps the page consistent, and each handler changes the page
   * exactly when its button is enabled: the disabled state and the guard agree.
   */
  lemma NavigationConsistent(p: Page)
    requires Consistent(p)
    ensures Consistent(NextSlide(p)) && Consistent(PreviousSlide(p))
    ensures NextSlide(p) != p <==> !p.nextDisabled
    ensures PreviousSlide(p) != p <==> !p.prevDisabled
    ensures NextSlide(p) != p ==> NextSlide(p).current == p.current + 1
    ensures PreviousSlide(p) != p ==> PreviousSlide(p).current == p.current - 1
  {
  }

  datatype Click = ClickNext | ClickPrevious

  function Run(p: Page, clicks: seq<Click>): Page
    decreases |clicks|
  {
    if |clicks| == 0 then p
    else Run(if clicks[0] == ClickNext then NextSlide(p) else PreviousSlide(p), clicks[1..])
  }

  /** After loading a non-empty page, every sequence of clicks leaves exactly one slide active. */
  lemma {:induction false} RunConsistent(p: Page, clicks: seq<Click>)
    requires Consistent(p)
    ensures Consistent(Run(p, clicks))
    ensures |Run(p, clicks).active| == 1
    decreases |clicks|
  {
    if |clicks| > 0 {
      NavigationConsistent(p);
      RunConsistent(if clicks[0] == ClickNext then NextSlide(p) else PreviousSlide(p), clicks[1..]);
    }
  }
}

=== FILE: text.dfy ===
/**
 * String helpers shared by every component: JavaScript's `Array.join`,
 * `String.split` on one character and `slice(0, n)`, and decimal digits.
 */
module Text {

  /** `parts.join(sep)`. */
  function Join(parts: seq<string>, sep: string): string
  {
    if |parts| == 0 then ""
    else if |parts| == 1 then parts[0]
    else parts[0] + sep + Join(parts[1..], sep)
  }

  /** `s.split(c)` for a one-character separator: never empty, no piece contains `c`. */
  function Split(s: string, c: char): (parts: seq<string>)
    ensures |parts| >= 1
    ensures forall i :: 0 <= i < |parts| ==> c !in parts[i]
    decreases |s|
  {
    if |s| == 0 then [""]
    else if s[0] == c then [""] + Split(s[1..], c)
    else
      var rest := Split(s[1..], c);
      [[s[0]] + rest[0]] + rest[1..]
  }

  /** `s.slice(0, n)`: the first `n` elements, or all of them when there are fewer. */
  function Take<T>(s: seq<T>, n: nat): (r: seq<T>)
    ensures |r| == (if |s| < n then |s| else n)
    ensures r == s[..|r|]
  {
    if |s| <= n then s else s[..n]
  }

  /** Joining the pieces of a split with the separator gives the string back. */
  lemma {:induction false} JoinSplit(s: string, c: char)
    ensures Join(Split(s, c), [c]) == s
    decreases |s|
  {
    if |s| == 0 {
    } else if s[0] == c {
      var rest := Split(s[1..], c);
      JoinSplit(s[1..], c);
      assert Split(s, c) == [""] + rest;
      assert s == [c] + s[1..];
    } else {
      var rest := Split(s[1..], c);
      JoinSplit(s[1..], c);
      var parts := Split(s, c);
      assert parts == [[s[0]] + rest[0]] + rest[1..];
      if |rest| == 1 {
        assert s == [s[0]] + s[1..];
      } else {
        assert parts[1..] == rest[1..];
        assert Join(rest, [c]) == rest[0] + [c] + Join(rest[1..], [c]);
        assert s == [s[0]] + s[1..];
      }
    }
  }

  /** A string without the separator splits into itself alone. */
  lemma {:induction false} SplitNoSeparator(p: string, c: char)
    requires c !in p
    ensures Split(p, c) == [p]
    decreases |p|
  {
    if |p| > 0 {
      SplitNoSeparator(p[1..], c);
      assert [p[0]] + p[1..] == p;
    }
  }

  /** Splitting `p + c + rest` cuts off `p` as the first piece. */
  lemma {:induction false} SplitAtSeparator(p: string, c: char, rest: string)
    requires c !in p
    ensures Split(p + [c] + rest, c) == [p] + Split(rest, c)
    decreases |p|
  {
    var s := p + [c] + rest;
    if |p| == 0 {
      assert s == [c] + rest;
      assert s[1..] == rest;
    } else {
      assert s[1..] == p[1..] + [c] + rest;
      SplitAtSeparator(p[1..], c, rest);
      assert [p[0]] + p[1..] == p;
    }
  }

  /** Pieces free of the separator survive a join followed by a split. */
  lemma {:induction false} SplitJoin(parts: seq<string>, c: char)
    requires |parts| >= 1
    requires forall i :: 0 <= i < |parts| ==> c !in parts[i]
    ensures Split(Join(parts, [c]), c) == parts
    decreases |parts|
  {
    if |parts| == 1 {
      SplitNoSeparator(parts[0], c);
    } else {
      SplitJoin(parts[1..], c);
      SplitAtSeparator(parts[0], c, Join(parts[1..], [c]));
      assert [parts[0]] + parts[1..] == parts;
    }
  }

  /** A join of pieces and a separator that all avoid `c` avoids `c`. */
  lemma {:induction false} JoinAvoids(parts: seq<string>, sep: string, c: char)
    requires c !in sep
    requires forall i :: 0 <= i < |parts| ==> c !in parts[i]
    ensures c !in Join(parts, sep)
    decreases |parts|
  {
    if |parts| > 1 {
      JoinAvoids(parts[1..], sep, c);
    }
  }

  // ---- decimal digits ----------------------------------------------------

  predicate IsDigit(ch: char) { '0' <= ch <= '9' }

  predicate AllDigits(s: string) { forall i :: 0 <= i < |s| ==> IsDigit(s[i]) }

  /** A string of digits avoids every non-digit character. */
  lemma DigitsAvoid(s: string, c: char)
    requires AllDigits(s) && !IsDigit(c)
    ensures c !in s
  {
    forall k | 0 <= k < |s| ensures s[k] != c {
      assert IsDigit(s[k]);
    }
  }

  function DigitChar(d: nat): (ch: char)
    requires d < 10
    ensures IsDigit(ch)
  {
    "0123456789"[d]
  }

  function DigitValue(ch: char): (d: nat)
    requires IsDigit(ch)
    ensures d < 10
  {
    (ch - '0') as nat
  }

  /** The decimal numeral of `n`, as JavaScript and Python print it. */
  function NatToString(n: nat): (s: string)
    ensures |s| >= 1 && AllDigits(s)
    ensures n > 0 ==> s[0] != '0'
  {
    if n < 10 then [DigitChar(n)] else NatToString(n / 10) + [DigitChar(n % 10)]
  }

  /** `String(i)` for any integer. */
  function IntToString(i: int): string
  {
    if i < 0 then "-" + NatToString(-i) else NatToString(i)
  }

  /** The value of a string of decimal digits (the empty string reads as 0). */
  function ParseNat(s: string): nat
    requires AllDigits(s)
  {
    if |s| == 0 then 0 else ParseNat(s[..|s| - 1]) * 10 + DigitValue(s[|s| - 1])
  }

  function Pow10(k: nat): (p: nat)
    ensures p >= 1
  {
    if k == 0 then 1 else 10 * Pow10(k - 1)
  }

  /** Reading back a printed numeral gives the number. */
  lemma {:induction false} ParseNatToString(n: nat)
    ensures ParseNat(NatToString(n)) == n
  {
    if n >= 10 {
      ParseNatToString(n / 10);
      var s := NatToString(n);
      assert s[..|s| - 1] == NatToString(n / 10);
    }
  }

  /** A number below 10^k prints with at most k digits. */
  lemma {:induction false} NatToStringLength(n: nat, k: nat)
    requires k >= 1 && n < Pow10(k)
    ensures |NatToString(n)| <= k
  {
    if n >= 10 {
      NatToStringLength(n / 10, k - 1);
    }
  }

  function Zeros(k: nat): (z: string)
    ensures |z| == k && AllDigits(z)
  {
    if k == 0 then "" else "0" + Zeros(k - 1)
  }

  /** Leading zeros leave the value unchanged. */
  lemma {:induction false} ParseLeadingZeros(k: nat, s: string)
    requires AllDigits(s)
    ensures AllDigits(Zeros(k) + s)
    ensures ParseNat(Zeros(k) + s) == ParseNat(s)
    decreases |s|
  {
    var t := Zeros(k) + s;
    if |s| == 0 {
      assert t == Zeros(k);
      ZerosParse(k);
    } else {
      assert t[..|t| - 1] == Zeros(k) + s[..|s| - 1];
      ParseLeadingZeros(k, s[..|s| - 1]);
    }
  }

  lemma {:induction false} ZerosParse(k: nat)
    ensures ParseNat(Zeros(k)) == 0
  {
    if k > 0 {
      var z := Zeros(k);
      assert z[..|z| - 1] == Zeros(k - 1) by {
        assert z == Zeros(k - 1) + "0" by { ZerosSnoc(k); }
      }
      ZerosParse(k - 1);
    }
  }

  lemma {:induction false} ZerosSnoc(k: nat)
    requires k >= 1
    ensures Zeros(k) == Zeros(k - 1) + "0"
  {
    if k > 1 {
      ZerosSnoc(k - 1);
    }
  }

  /** `n` printed with at least `width` digits, padded with zeros on the left (`%02d`). */
  function PadNat(n: nat, width: nat): (s: string)
    ensures |s| >= width && AllDigits(s)
  {
    var d := NatToString(n);
    if |d| >= width then d else Zeros(width - |d|) + d
  }

  /** Zero-padding is undone by reading the digits back. */
  lemma {:induction false} PadNatParse(n: nat, width: nat)
    ensures ParseNat(PadNat(n, width)) == n
  {
    var d := NatToString(n);
    var k := if |d| < width then width - |d| else 0;
    assert PadNat(n, width) == Zeros(k) + d by {
      if k == 0 { assert Zeros(0) + d == d; }
    }
    ParseNatToString(n);
    ParseLeadingZeros(k, d);
  }

  /** A number below 10^k padded to k digits is exactly k characters long. */
  lemma PadNatLength(n: nat, k: nat)
    requires k >= 1 && n < Pow10(k)
    ensures |PadNat(n, k)| == k
  {
    NatToStringLength(n, k);
  }
}

=== FILE: theme.dfy ===
/** The light/dark theme switch. */
module Theme {

  const Light: string := "light"
  const Dark: string := "dark"

  /** `useState("dark")`. */
  const DefaultTheme: string := Dark

  /** `prevTheme === "light" ? "dark" : "light"`. */
  function Toggle(theme: string): (r: string)
    ensures r == Light || r == Dark
    ensures r == Dark <==> theme == Light
  {
    if theme == Light then Dark else Light
  }

  /**
   * Toggling twice restores "light" and "dark"; any other value first
   * becomes "light", so two toggles turn it into "dark".
   */
  lemma ToggleTwice(theme: string)
    ensures theme == Light || theme == Dark ==> Toggle(Toggle(theme)) == theme
    ensures theme != Light && theme != Dark ==> Toggle(Toggle(theme)) == Dark
    ensures Toggle(DefaultTheme) == Light
  {
  }
}

=== FILE: views.dfy ===
/**
 * The backend's Spotify views: the authorize parameters, the OAuth code
 * exchange, playlists and wrapped data behind the session token, and the
 * stored wraps of each user (history, detail, latest, delete, create).
 * Calls to Spotify become `Raised` values; the wrap table is a sequence.
 */
module SpotifyViews {
  import opened Wrappers
  import Text
  import Music
  import Sorting
  import Dashboard
  import SpotifyCallback
  import DuoWrapped
  import opened Http

  const Scopes: seq<string> := [
    "user-read-private", "user-read-email", "playlist-read-private",
    "playlist-modify-public", "playlist-modify-private", "user-top-read",
    "streaming", "user-read-playback-state", "user-modify-playback-state"]

  const DefaultTimeRange: string := "medium_term"

  const NoCodeError: string := "No authorization code provided"
  const CallbackSuccess: string := "Successfully authenticated with Spotify"
  const PlaylistsNoToken: string := "Not authenticated with Spotify"
  const WrappedNoToken: string := "No Spotify token found. Please reconnect your account."
  const DetailNotFound: string := "Wrap not found or you don't have permission to access it"
  const DeleteNotFound: string := "Wrap not found or you don't have permission to delete it"
  const NoWrapFound: string := "No wrap found"
  const InvalidRange: string := "Invalid time range"
  const CreateNoToken: string := "No Spotify token found"
  /** `str(KeyError('access_token'))`. */
  const MissingAccessToken: string := "'access_token'"
  /** `str(KeyError('items'))`. */
  const MissingItems: string := "'items'"
  /** The `detail` Django REST framework sends when `IsAuthenticated` refuses an anonymous request. */
  const NotAuthenticated: string := "Authentication credentials were not provided."

  /** A value, or the exception a call raised with `str(e)`. */
  datatype Raised<T> = Value(value: T) | Raise(text: string)

  /** `session['spotify_token']`: the token dictionary, if any. */
  type Token = Option<map<string, string>>

  /** `if not token_info`: a missing or empty dictionary counts as no token. */
  predicate HasToken(token: Token)
  {
    token.Some? && |token.value| > 0
  }

  /** A row of the wrap table. `dateGenerated` is the creation instant as a number. */
  datatype StoredWrap = StoredWrap(id: nat, user: nat, dateGenerated: int, title: string, data: WrapContent)

  /** `wrap_data` as `create_wrapped_data` stores it. */
  datatype WrapContent = WrapContent(topTracks: Option<seq<Music.Track>>, topArtists: Option<seq<Music.Artist>>, timeRange: string)

  /** A history row: `id`, `date_generated`, `title`. */
  datatype Summary = Summary(id: nat, dateGenerated: int, title: string)

  datatype Body =
    | Error(error: string)
    | Message(message: string)
    | Playlists(items: seq<Dashboard.Playlist>)
    | Wrapped(wrapped: Music.WrappedBody)
    | History(wraps: seq<Summary>)
    | Content(data: WrapContent)
    | Detail(detail: string)
    | NoBody

  datatype Response = Response(status: nat, body: Body)

  // ---------------------------------------------------------------- authorize

  /** The query parameters of the authorize URL, in insertion order. */
  function AuthParams(clientId: string, redirectUri: string): (ps: seq<(string, string)>)
    ensures |ps| == 4
    ensures ps[0] == ("client_id", clientId) && ps[1] == ("response_type", "code") && ps[2] == ("redirect_uri", redirectUri)
    ensures ps[3].0 == "scope"
  {
    [("client_id", clientId), ("response_type", "code"), ("redirect_uri", redirectUri), ("scope", Text.Join(Scopes, " "))]
  }

  /** The scope parameter lists the nine scopes, space-separated, in order. */
  lemma ScopeList(clientId: string, redirectUri: string)
    ensures Text.Split(AuthParams(clientId, redirectUri)[3].1, ' ') == Scopes
  {
    ScopesAvoidSpace();
    Text.SplitJoin(Scopes, ' ');
  }

  lemma ScopesAvoidSpace()
    ensures forall i :: 0 <= i < |Scopes| ==> ' ' !in Scopes[i]
  {
  }

  // ---------------------------------------------------------------- callback

  /**
   * `spotify_callback`: the response, the session token afterwards, and
   * whether the code was exchanged. A falsy code is refused before any
   * exchange.
   */
  function Callback(code: Option<string>, exchange: Raised<map<string, string>>, token: Token): (r: (Response, Token, bool))
    ensures code.None? || code.value == "" ==> r == (Response(400, Error(NoCodeError)), token, false)
    ensures r.2 <==> code.Some? && code.value != ""
    ensures r.0.status == 200 <==> r.2 && exchange.Value?
    ensures r.0.status == 200 ==> r.0.body == Message(CallbackSuccess) && r.1 == Some(exchange.value)
    ensures r.0.status != 200 ==> r.1 == token
    ensures r.2 && exchange.Raise? ==> r.0 == Response(500, Error(exchange.text))
  {
    if code.None? || code.value == "" then (Response(400, Error(NoCodeError)), token, false)
    else match exchange
      case Raise(text) => (Response(500, Error(text)), token, true)
      case Value(info) => (Response(200, Message(CallbackSuccess)), Some(info), true)
  }

  /**
   * The success message is the exact text the callback page waits for, so a
   * successful exchange marks Spotify linked and opens the dashboard.
   */
  lemma CallbackReachesDashboard(s: SpotifyCallback.State, code: string, info: map<string, string>, token: Token)
    requires code != ""
    ensures Callback(Some(code), Value(info), token).0.body == Message(SpotifyCallback.SuccessMessage)
    ensures SpotifyCallback.Handle(s, Some(code), Ok(Some(SpotifyCallback.Body(Some(CallbackSuccess))))).navigated
      == Some(SpotifyCallback.Dashboard)
    ensures SpotifyCallback.Handle(s, Some(code), Ok(Some(SpotifyCallback.Body(Some(CallbackSuccess))))).linked
  {
  }

  // ---------------------------------------------------------------- playlists

  /** `token_info['access_token']`. */
  function AccessToken(m: map<string, string>): (r: Raised<string>)
    ensures r.Value? <==> "access_token" in m
    ensures r.Value? ==> r.value == m["access_token"]
    ensures r.Raise? ==> r.text == MissingAccessToken
  {
    if "access_token" in m then Value(m["access_token"]) else Raise(MissingAccessToken)
  }

  /**
   * `get_playlists`: 401 without a token; otherwise the `items` of Spotify's
   * answer (`fetch`, `None` when it has no `items`), or 500.
   */
  function GetPlaylists(token: Token, fetch: Raised<Option<seq<Dashboard.Playlist>>>): (r: Response)
    ensures !HasToken(token) ==> r == Response(401, Error(PlaylistsNoToken))
    ensures r.status == 200 <==> HasToken(token) && "access_token" in token.value && fetch.Value? && fetch.value.Some?
    ensures r.status == 200 ==> r.body == Playlists(fetch.value.value)
    ensures HasToken(token) && "access_token" in token.value && fetch == Value(None) ==> r == Response(500, Error(MissingItems))
    ensures r.status != 200 && r.status != 401 ==> r.status == 500
  {
    if !HasToken(token) then Response(401, Error(PlaylistsNoToken))
    else match AccessToken(token.value)
      case Raise(text) => Response(500, Error(text))
      case Value(_) =>
        match fetch
        case Raise(text) => Response(500, Error(text))
        case Value(None) => Response(500, Error(MissingItems))
        case Value(Some(items)) => Response(200, Playlists(items))
  }

  /**
   * Without a session token the dashboard's probe meets a 401 and offers
   * "Connect to Spotify" rather than an error; with one it lists every
   * playlist returned.
   */
  lemma PlaylistsDriveDashboard(linked: bool, token: Token, fetch: Raised<Option<seq<Dashboard.Playlist>>>,
                                body: Option<ErrorBody>, again: Outcome<Option<seq<Dashboard.Playlist>>>)
    ensures !HasToken(token) ==>
      Dashboard.ViewOf(Dashboard.Mounted(linked, Err(HttpError(Some(GetPlaylists(token, fetch).status), body)), again)) == Dashboard.Connect
    ensures GetPlaylists(token, fetch).status == 500 ==>
      Dashboard.ViewOf(Dashboard.Mounted(linked, Err(HttpError(Some(GetPlaylists(token, fetch).status), body)), again))
        == Dashboard.Failed(Dashboard.ProbeError)
  {
  }

  // ---------------------------------------------------------------- wrapped data

  /**
   * `get_wrapped_data`: 401 without a token; otherwise the four top lists
   * (`top`, or the exception one of the four calls raised) at the top level
   * of the body, with no `wrap_data` member.
   */
  function GetWrappedData(token: Token, top: Raised<Music.WrapData>): (r: Response)
    ensures !HasToken(token) ==> r == Response(401, Error(WrappedNoToken))
    ensures r.status == 200 <==> HasToken(token) && "access_token" in token.value && top.Value?
    ensures r.status == 200 ==> r.body == Wrapped(Music.WrappedBody(top.value, None))
    ensures r.status != 200 && r.status != 401 ==> r.status == 500
  {
    if !HasToken(token) then Response(401, Error(WrappedNoToken))
    else match AccessToken(token.value)
      case Raise(text) => Response(500, Error(text))
      case Value(_) =>
        match top
        case Raise(text) => Response(500, Error(text))
        case Value(lists) => Response(200, Wrapped(Music.WrappedBody(lists, None)))
  }

  /**
   * Fed this view's success body, the duo page as written always shows "No
   * data available", while the corrected page shows its first slide.
   */
  lemma WrappedBodyAndDuoPage(token: Token, lists: Music.WrapData, other: Music.WrapData)
    requires HasToken(token) && "access_token" in token.value
    ensures GetWrappedData(token, Value(lists)).body.wrapped.wrapDataMember.None?
    ensures DuoWrapped.ViewOf(DuoWrapped.LoadAsWritten(DuoWrapped.Init(), Ok(Some(other)), Ok(GetWrappedData(token, Value(lists)).body.wrapped)))
      == DuoWrapped.NoData
    ensures DuoWrapped.ViewOf(DuoWrapped.Load(DuoWrapped.Init(), Ok(Some(other)), Ok(GetWrappedData(token, Value(lists)).body.wrapped))).Showing?
  {
  }

  /**
   * The stored content `get_wrap_detail` returns, as the duo page reads it:
   * the page looks for `topArtistsRecent`, `topArtistsAllTime`,
   * `topTracksRecent` and `topTracksAllTime`, but the content has only
   * `topTracks`, `topArtists` and `timeRange`, so every list it reads is
   * undefined.
   */
  function SharedAsRead(c: WrapContent): (d: Music.WrapData)
    ensures d.topArtistsRecent.None? && d.topArtistsAllTime.None?
    ensures d.topTracksRecent.None? && d.topTracksAllTime.None?
  {
    Music.WrapData(None, None, None, None)
  }

  /**
   * Fed a wrap detail body, every comparison column and countdown entry of
   * the shared side of the duo deck is empty, whatever the stored wrap holds.
   */
  lemma DetailBodyEmptiesSharedSide(me: Music.WrapData, store: seq<StoredWrap>, user: nat, id: nat)
    requires WrapDetail(store, user, id, Get).0.status == 200
    ensures WrapDetail(store, user, id, Get).0.body.Content?
    ensures forall i :: 1 <= i < 3 ==>
      DuoWrapped.Slides(me, SharedAsRead(WrapDetail(store, user, id, Get).0.body.data))[i].content.theirArtists == []
    ensures forall i :: 3 <= i < 5 ==>
      DuoWrapped.Slides(me, SharedAsRead(WrapDetail(store, user, id, Get).0.body.data))[i].content.theirTracks == []
    ensures forall i :: 6 <= i < 9 ==>
      DuoWrapped.Slides(me, SharedAsRead(WrapDetail(store, user, id, Get).0.body.data))[i].content.theirTrack.None?
  {
  }

  // ---------------------------------------------------------------- stored wraps

  /** The wrap table's primary key. */
  predicate UniqueIds(store: seq<StoredWrap>)
  {
    forall i, j :: 0 <= i < j < |store| ==> store[i].id != store[j].id
  }

  /** `SpotifyWrap.objects.filter(user=user)`, in table order. */
  function OwnedBy(store: seq<StoredWrap>, user: nat): (r: seq<StoredWrap>)
    ensures forall w :: w in r <==> w in store && w.user == user
    ensures |r| <= |store|
  {
    if |store| == 0 then []
    else (if store[0].user == user then [store[0]] else []) + OwnedBy(store[1..], user)
  }

  function DateOf(w: StoredWrap): int
  {
    w.dateGenerated
  }

  function SummaryOf(w: StoredWrap): Summary
  {
    Summary(w.id, w.dateGenerated, w.title)
  }

  /** `.order_by('-date_generated')`; wraps with the same instant keep table order. */
  function Newest(store: seq<StoredWrap>, user: nat): seq<StoredWrap>
  {
    Sorting.SortDesc(OwnedBy(store, user), DateOf)
  }

  /** `get_wrap_history`. */
  function GetWrapHistory(store: seq<StoredWrap>, user: nat): (r: Response)
    ensures r.status == 200 && r.body.History?
    ensures |r.body.wraps| == |Newest(store, user)|
  {
    var sorted := Newest(store, user);
    Response(200, History(seq(|sorted|, i requires 0 <= i < |sorted| => SummaryOf(sorted[i]))))
  }

  lemma NewestFacts(store: seq<StoredWrap>, user: nat)
    ensures Sorting.SortedDesc(Newest(store, user), DateOf)
    ensures forall w :: w in Newest(store, user) <==> w in store && w.user == user
  {
    Sorting.SortDescSorted(OwnedBy(store, user), DateOf);
    assert forall w :: w in Newest(store, user) <==> w in multiset(OwnedBy(store, user));
  }

  /** `s` summarises one of `user`'s stored wraps. */
  predicate OwnedSummary(store: seq<StoredWrap>, user: nat, s: Summary)
  {
    exists w :: w in store && w.user == user && s == SummaryOf(w)
  }

  /** The history rows are the summaries of the newest-first wraps, row by row. */
  lemma HistoryRows(store: seq<StoredWrap>, user: nat)
    ensures forall i :: 0 <= i < |GetWrapHistory(store, user).body.wraps| ==>
      GetWrapHistory(store, user).body.wraps[i] == SummaryOf(Newest(store, user)[i])
  {
  }

  /** The history is newest first. */
  lemma HistoryNewestFirst(store: seq<StoredWrap>, user: nat)
    ensures forall i, j :: 0 <= i < j < |GetWrapHistory(store, user).body.wraps| ==>
      GetWrapHistory(store, user).body.wraps[i].dateGenerated >= GetWrapHistory(store, user).body.wraps[j].dateGenerated
  {
    var sorted := Newest(store, user);
    var wraps := GetWrapHistory(store, user).body.wraps;
    NewestFacts(store, user);
    HistoryRows(store, user);
    forall i, j | 0 <= i < j < |wraps|
      ensures wraps[i].dateGenerated >= wraps[j].dateGenerated
    {
      assert DateOf(sorted[i]) >= DateOf(sorted[j]);
    }
  }

  /** Every history row is one of the user's wraps. */
  lemma HistoryOwned(store: seq<StoredWrap>, user: nat)
    ensures forall i :: 0 <= i < |GetWrapHistory(store, user).body.wraps| ==>
      OwnedSummary(store, user, GetWrapHistory(store, user).body.wraps[i])
  {
    var sorted := Newest(store, user);
    var wraps := GetWrapHistory(store, user).body.wraps;
    NewestFacts(store, user);
    HistoryRows(store, user);
    forall i | 0 <= i < |wraps|
      ensures OwnedSummary(store, user, wraps[i])
    {
      assert sorted[i] in sorted;
    }
  }

  /** Every wrap of the user has a history row. */
  lemma HistoryComplete(store: seq<StoredWrap>, user: nat)
    ensures forall w :: w in store && w.user == user ==> SummaryOf(w) in GetWrapHistory(store, user).body.wraps
  {
    var sorted := Newest(store, user);
    var wraps := GetWrapHistory(store, user).body.wraps;
    NewestFacts(store, user);
    HistoryRows(store, user);
    forall w | w in store && w.user == user
      ensures SummaryOf(w) in wraps
    {
      var k :| 0 <= k < |sorted| && sorted[k] == w;
      assert wraps[k] == SummaryOf(w);
    }
  }

  /**
   * The history lists exactly the requesting user's wraps, each once per
   * stored row, newest first.
   */
  lemma HistoryFacts(store: seq<StoredWrap>, user: nat)
    ensures forall i, j :: 0 <= i < j < |GetWrapHistory(store, user).body.wraps| ==>
      GetWrapHistory(store, user).body.wraps[i].dateGenerated >= GetWrapHistory(store, user).body.wraps[j].dateGenerated
    ensures forall i :: 0 <= i < |GetWrapHistory(store, user).body.wraps| ==>
      OwnedSummary(store, user, GetWrapHistory(store, user).body.wraps[i])
    ensures forall w :: w in store && w.user == user ==> SummaryOf(w) in GetWrapHistory(store, user).body.wraps
    ensures |GetWrapHistory(store, user).body.wraps| == |OwnedBy(store, user)|
  {
    HistoryNewestFirst(store, user);
    HistoryOwned(store, user);
    HistoryComplete(store, user);
    Sorting.SortDescSorted(OwnedBy(store, user), DateOf);
  }

  /** Index of the row with this id belonging to this user (`objects.get(id=…, user=…)`). */
  function Find(store: seq<StoredWrap>, id: nat, user: nat): (r: Option<nat>)
    ensures r.Some? ==> r.value < |store| && store[r.value].id == id && store[r.value].user == user
    ensures r.None? ==> forall i :: 0 <= i < |store| ==> !(store[i].id == id && store[i].user == user)
  {
    if |store| == 0 then None
    else if store[0].id == id && store[0].user == user then Some(0)
    else match Find(store[1..], id, user)
      case None => None
      case Some(k) => Some(k + 1)
  }

  function Without(store: seq<StoredWrap>, i: nat): (r: seq<StoredWrap>)
    requires i < |store|
    ensures |r| == |store| - 1
  {
    store[..i] + store[i + 1..]
  }

  datatype Method = Get | Delete

  /** `get_wrap_detail`: the stored data, or a 204 after deleting; 404 for a wrap the user does not own. */
  function WrapDetail(store: seq<StoredWrap>, user: nat, id: nat, m: Method): (r: (Response, seq<StoredWrap>))
    ensures Find(store, id, user).None? ==> r == (Response(404, Error(DetailNotFound)), store)
    ensures Find(store, id, user).Some? && m == Get ==>
      r == (Response(200, Content(store[Find(store, id, user).value].data)), store)
    ensures Find(store, id, user).Some? && m == Delete ==>
      r == (Response(204, NoBody), Without(store, Find(store, id, user).value))
  {
    match Find(store, id, user)
    case None => (Response(404, Error(DetailNotFound)), store)
    case Some(i) => if m == Get then (Response(200, Content(store[i].data)), store) else (Response(204, NoBody), Without(store, i))
  }

  /** `delete_wrap`. */
  function DeleteWrap(store: seq<StoredWrap>, user: nat, id: nat): (r: (Response, seq<StoredWrap>))
    ensures Find(store, id, user).None? ==> r == (Response(404, Error(DeleteNotFound)), store)
    ensures Find(store, id, user).Some? ==> r == (Response(204, NoBody), Without(store, Find(store, id, user).value))
  {
    match Find(store, id, user)
    case None => (Response(404, Error(DeleteNotFound)), store)
    case Some(i) => (Response(204, NoBody), Without(store, i))
  }

  /** A wrap of another user is neither shown nor deleted: the answer is 404 and the table is unchanged. */
  lemma OtherUsersWrapHidden(store: seq<StoredWrap>, k: nat, user: nat, m: Method)
    requires UniqueIds(store) && k < |store| && store[k].user != user
    ensures WrapDetail(store, user, store[k].id, m) == (Response(404, Error(DetailNotFound)), store)
    ensures DeleteWrap(store, user, store[k].id) == (Response(404, Error(DeleteNotFound)), store)
  {
  }

  /** Deleting an owned wrap removes that row and only it. */
  lemma DeleteRemovesOne(store: seq<StoredWrap>, user: nat, id: nat)
    requires UniqueIds(store) && Find(store, id, user).Some?
    ensures |DeleteWrap(store, user, id).1| == |store| - 1
    ensures forall w :: w in DeleteWrap(store, user, id).1 <==> w in store && w.id != id
  {
  }

  /** `get_latest_wrap`: the first of the newest-first list, or 404. */
  function GetLatestWrap(store: seq<StoredWrap>, user: nat): (r: Response)
    ensures r.status == 404 <==> |OwnedBy(store, user)| == 0
    ensures r.status == 404 ==> r.body == Error(NoWrapFound)
    ensures r.status != 404 ==> r.status == 200 && r.body.Content?
  {
    Sorting.SortDescSorted(OwnedBy(store, user), DateOf);
    var sorted := Newest(store, user);
    if |sorted| == 0 then Response(404, Error(NoWrapFound)) else Response(200, Content(sorted[0].data))
  }

  /**
   * The latest wrap belongs to the user, is at least as recent as every
   * other wrap of theirs, and is the one the history lists first.
   */
  lemma LatestIsNewest(store: seq<StoredWrap>, user: nat)
    requires |OwnedBy(store, user)| > 0
    ensures exists w :: (w in store && w.user == user && GetLatestWrap(store, user).body == Content(w.data) &&
      SummaryOf(w) == GetWrapHistory(store, user).body.wraps[0] &&
      forall v :: v in store && v.user == user ==> v.dateGenerated <= w.dateGenerated)
  {
    var sorted := Newest(store, user);
    NewestFacts(store, user);
    Sorting.SortDescSorted(OwnedBy(store, user), DateOf);
    var w := sorted[0];
    assert w in sorted;
    forall v | v in store && v.user == user
      ensures v.dateGenerated <= w.dateGenerated
    {
      var k :| 0 <= k < |sorted| && sorted[k] == v;
      if k > 0 {
        assert DateOf(sorted[0]) >= DateOf(sorted[k]);
      }
    }
  }

  // ---------------------------------------------------------------- create

  /** `request.data.get('time_range', …)`: absent, a string, or some other JSON value. */
  datatype Param = Absent | Str(text: string) | NonString

  /** The time range asked for, with the default applied only when the field is absent. */
  function RangeOf(p: Param): (r: Option<string>)
    ensures p.Absent? ==> r == Some(DefaultTimeRange)
    ensures p.Str? ==> r == Some(p.text)
    ensures p.NonString? ==> r.None?
  {
    match p
    case Absent => Some(DefaultTimeRange)
    case Str(t) => Some(t)
    case NonString => None
  }

  predicate ValidRange(p: Param)
  {
    RangeOf(p).Some? && RangeOf(p).value in Music.TimeRanges
  }

  datatype Date = Date(year: nat, month: nat, day: nat)

  /** `strftime('%Y-%m-%d')`. */
  function DateText(d: Date): string
  {
    Text.PadNat(d.year, 4) + "-" + Text.PadNat(d.month, 2) + "-" + Text.PadNat(d.day, 2)
  }

  /** The date reads back: three digit fields, which parse to the year, month and day. */
  lemma DateTextParse(d: Date)
    ensures |Text.Split(DateText(d), '-')| == 3
    ensures Text.AllDigits(Text.Split(DateText(d), '-')[0]) && Text.ParseNat(Text.Split(DateText(d), '-')[0]) == d.year
    ensures Text.AllDigits(Text.Split(DateText(d), '-')[1]) && Text.ParseNat(Text.Split(DateText(d), '-')[1]) == d.month
    ensures Text.AllDigits(Text.Split(DateText(d), '-')[2]) && Text.ParseNat(Text.Split(DateText(d), '-')[2]) == d.day
  {
    DateTextSplit(d);
    Text.PadNatParse(d.year, 4);
    Text.PadNatParse(d.month, 2);
    Text.PadNatParse(d.day, 2);
  }

  /** The date text splits on dashes into its three padded fields. */
  lemma DateTextSplit(d: Date)
    ensures Text.Split(DateText(d), '-') == [Text.PadNat(d.year, 4), Text.PadNat(d.month, 2), Text.PadNat(d.day, 2)]
  {
    var y, m, dd := Text.PadNat(d.year, 4), Text.PadNat(d.month, 2), Text.PadNat(d.day, 2);
    var parts := [y, m, dd];
    Text.DigitsAvoid(y, '-');
    Text.DigitsAvoid(m, '-');
    Text.DigitsAvoid(dd, '-');
    assert Text.Join(parts, "-") == DateText(d) by {
      assert parts[1..] == [m, dd] && parts[1..][1..] == [dd];
      assert Text.Join(parts[1..], "-") == m + "-" + dd;
    }
    Text.SplitJoin(parts, '-');
  }


  /** A four-digit year with a real month and day gives the ten characters YYYY-MM-DD. */
  lemma DateTextLength(d: Date)
    requires 1000 <= d.year <= 9999 && 1 <= d.month <= 12 && 1 <= d.day <= 31
    ensures |DateText(d)| == 10
  {
    assert Text.Pow10(2) == 100 by {
      assert Text.Pow10(1) == 10;
    }
    assert Text.Pow10(4) == 10000 by {
      assert Text.Pow10(3) == 1000;
    }
    Text.PadNatLength(d.year, 4);
    Text.PadNatLength(d.month, 2);
    Text.PadNatLength(d.day, 2);
  }

  function Title(timeRange: string, today: Date): string
  {
    "Wrap - " + timeRange + " - " + DateText(today)
  }

  /**
   * `create_wrapped_data`: an invalid time range is refused (400) before the
   * token is looked at, a missing token is 401, and otherwise the top
   * tracks and artists (`top`) are stored for the user as a new row
   * (`newId`, created at `now` on `today`) and returned.
   */
  function CreateWrappedData(p: Param, token: Token, top: Raised<(Option<seq<Music.Track>>, Option<seq<Music.Artist>>)>,
                             store: seq<StoredWrap>, user: nat, newId: nat, now: int, today: Date): (r: (Response, seq<StoredWrap>))
    ensures r.0.status == 400 <==> !ValidRange(p)
    ensures r.0.status == 400 ==> r.0.body == Error(InvalidRange)
    ensures r.0.status == 401 <==> ValidRange(p) && !HasToken(token)
    ensures r.0.status == 401 ==> r.0.body == Error(CreateNoToken)
    ensures r.0.status == 200 <==> ValidRange(p) && HasToken(token) && "access_token" in token.value && top.Value?
    ensures r.0.status == 200 ==>
      r.0.body == Content(WrapContent(top.value.0, top.value.1, RangeOf(p).value)) &&
      r.1 == store + [StoredWrap(newId, user, now, Title(RangeOf(p).value, today), r.0.body.data)]
    ensures r.0.status != 200 ==> r.1 == store && r.0.status in {400, 401, 500}
  {
    if !ValidRange(p) then (Response(400, Error(InvalidRange)), store)
    else if !HasToken(token) then (Response(401, Error(CreateNoToken)), store)
    else match AccessToken(token.value)
      case Raise(text) => (Response(500, Error(text)), store)
      case Value(_) =>
        match top
        case Raise(text) => (Response(500, Error(text)), store)
        case Value(lists) =>
          var tr := RangeOf(p).value;
          var data := WrapContent(lists.0, lists.1, tr);
          (Response(200, Content(data)), store + [StoredWrap(newId, user, now, Title(tr, today), data)])
  }

  /**
   * An absent time range creates a medium-term wrap; a created wrap records
   * one of the three ranges and is listed in its owner's history.
   */
  lemma CreatedWrapListed(p: Param, token: Token, top: Raised<(Option<seq<Music.Track>>, Option<seq<Music.Artist>>)>,
                          store: seq<StoredWrap>, user: nat, newId: nat, now: int, today: Date)
    requires CreateWrappedData(p, token, top, store, user, newId, now, today).0.status == 200
    ensures p.Absent? ==> CreateWrappedData(p, token, top, store, user, newId, now, today).0.body.data.timeRange == DefaultTimeRange
    ensures CreateWrappedData(p, token, top, store, user, newId, now, today).0.body.data.timeRange in Music.TimeRanges
    ensures Summary(newId, now, Title(RangeOf(p).value, today))
      in GetWrapHistory(CreateWrappedData(p, token, top, store, user, newId, now, today).1, user).body.wraps
  {
    var r := CreateWrappedData(p, token, top, store, user, newId, now, today);
    var w := StoredWrap(newId, user, now, Title(RangeOf(p).value, today), r.0.body.data);
    assert r.1[|store|] == w;
    HistoryFacts(r.1, user);
  }

  // ---------------------------------------------------------------- permissions

  /**
   * A view under `@permission_classes([IsAuthenticated])`. `user` is the
   * session's signed-in user, if any. With session authentication as the
   * only authentication class, an anonymous request is answered 403 before
   * the view body runs, so the table is left as it was; a signed-in
   * request gets the view's own answer for that user.
   */
  function Guarded(user: Option<nat>, store: seq<StoredWrap>, view: nat -> (Response, seq<StoredWrap>)): (r: (Response, seq<StoredWrap>))
    ensures user.None? ==> r.0 == Response(403, Detail(NotAuthenticated)) && r.1 == store
    ensures user.Some? ==> r == view(user.value)
  {
    match user
    case None => (Response(403, Detail(NotAuthenticated)), store)
    case Some(u) => view(u)
  }

  /**
   * Every view behind the permission refuses an anonymous request with 403
   * whatever its arguments: no playlists, no wrapped data, no history, no
   * detail, no latest wrap, and no row deleted or created.
   */
  lemma AnonymousRefused(store: seq<StoredWrap>, token: Token, fetch: Raised<Option<seq<Dashboard.Playlist>>>,
                         top: Raised<Music.WrapData>, id: nat, m: Method, p: Param,
                         created: Raised<(Option<seq<Music.Track>>, Option<seq<Music.Artist>>)>,
                         newId: nat, now: int, today: Date)
    ensures Guarded(None, store, (u: nat) => (GetPlaylists(token, fetch), store)).0.status == 403
    ensures Guarded(None, store, (u: nat) => (GetWrappedData(token, top), store)).0.status == 403
    ensures Guarded(None, store, (u: nat) => (GetWrapHistory(store, u), store)).0.status == 403
    ensures Guarded(None, store, (u: nat) => WrapDetail(store, u, id, m)) == (Response(403, Detail(NotAuthenticated)), store)
    ensures Guarded(None, store, (u: nat) => (GetLatestWrap(store, u), store)).0.status == 403
    ensures Guarded(None, store, (u: nat) => DeleteWrap(store, u, id)) == (Response(403, Detail(NotAuthenticated)), store)
    ensures Guarded(None, store, (u: nat) => CreateWrappedData(p, token, created, store, u, newId, now, today))
      == (Response(403, Detail(NotAuthenticated)), store)
  {
  }

  /**
   * An anonymous session's playlist probe is refused with 403, which the
   * dashboard reports as the probe error rather than offering to connect
   * Spotify; a signed-in session without a token gets the 401 that offers
   * the connect prompt.
   */
  lemma AnonymousProbeFails(linked: bool, user: Option<nat>, token: Token, fetch: Raised<Option<seq<Dashboard.Playlist>>>,
                            body: Option<ErrorBody>, again: Outcome<Option<seq<Dashboard.Playlist>>>)
    ensures user.None? ==>
      Dashboard.ViewOf(Dashboard.Mounted(linked,
        Err(HttpError(Some(Guarded(user, [], (u: nat) => (GetPlaylists(token, fetch), [])).0.status), body)), again))
      == Dashboard.Failed(Dashboard.ProbeError)
    ensures user.Some? && !HasToken(token) ==>
      Dashboard.ViewOf(Dashboard.Mounted(linked,
        Err(HttpError(Some(Guarded(user, [], (u: nat) => (GetPlaylists(token, fetch), [])).0.status), body)), again))
      == Dashboard.Connect
  {
  }
}

=== FILE: wrap_history.dfy ===
/**
 * Deleting a wrap from the history list: the list keeps every wrap whose id
 * differs from the deleted one, in the order it had.
 */
module WrapFilter {
  /** A row of `GET /spotify/wrap/history/`. */
  datatype WrapSummary = WrapSummary(id: nat, title: string, dateGenerated: string)

  /** `wraps.filter(wrap => wrap.id !== id)`. */
  function Remove(ws: seq<WrapSummary>, id: nat): (r: seq<WrapSummary>)
    ensures |r| <= |ws|
    ensures forall w :: w in r <==> w in ws && w.id != id
  {
    if |ws| == 0 then []
    else (if ws[0].id != id then [ws[0]] else []) + Remove(ws[1..], id)
  }

  /** How many wraps carry `id`. */
  function CountId(ws: seq<WrapSummary>, id: nat): nat
  {
    if |ws| == 0 then 0 else (if ws[0].id == id then 1 else 0) + CountId(ws[1..], id)
  }

  /** Filtering distributes over concatenation, so the kept wraps stay in order. */
  lemma {:induction false} RemoveAppend(a: seq<WrapSummary>, b: seq<WrapSummary>, id: nat)
    ensures Remove(a + b, id) == Remove(a, id) + Remove(b, id)
    decreases |a|
  {
    if |a| == 0 {
      assert a + b == b;
    } else {
      assert (a + b)[0] == a[0] && (a + b)[1..] == a[1..] + b;
      RemoveAppend(a[1..], b, id);
    }
  }

  /** Exactly the wraps carrying `id` go. */
  lemma {:induction false} RemoveCount(ws: seq<WrapSummary>, id: nat)
    ensures |Remove(ws, id)| == |ws| - CountId(ws, id)
    ensures CountId(Remove(ws, id), id) == 0
    decreases |ws|
  {
    if |ws| > 0 {
      RemoveCount(ws[1..], id);
      var head := if ws[0].id != id then [ws[0]] else [];
      assert Remove(ws, id) == head + Remove(ws[1..], id);
      CountAppend(head, Remove(ws[1..], id), id);
    }
  }

  lemma {:induction false} CountAppend(a: seq<WrapSummary>, b: seq<WrapSummary>, id: nat)
    ensures CountId(a + b, id) == CountId(a, id) + CountId(b, id)
    decreases |a|
  {
    if |a| == 0 {
      assert a + b == b;
    } else {
      assert (a + b)[0] == a[0] && (a + b)[1..] == a[1..] + b;
      CountAppend(a[1..], b, id);
    }
  }

  /** A wrap that is not in the list leaves it as it was. */
  lemma {:induction false} RemoveAbsent(ws: seq<WrapSummary>, id: nat)
    requires forall i :: 0 <= i < |ws| ==> ws[i].id != id
    ensures Remove(ws, id) == ws
    decreases |ws|
  {
    if |ws| > 0 {
      RemoveAbsent(ws[1..], id);
      assert [ws[0]] + ws[1..] == ws;
    }
  }

  /** Deleting twice is deleting once. */
  lemma RemoveIdempotent(ws: seq<WrapSummary>, id: nat)
    ensures Remove(Remove(ws, id), id) == Remove(ws, id)
  {
    var r := Remove(ws, id);
    forall i | 0 <= i < |r|
      ensures r[i].id != id
    {
      assert r[i] in r;
    }
    RemoveAbsent(r, id);
  }
}

/**
 * The wrap history page: it fetches the user's wraps, lists them as cards
 * linking to `/wrapped/{id}`, and deletes one through a confirmation modal.
 */
module WrapHistory {
  import opened Wrappers
  import opened Http
  import Text
  import AppRoutes
  import opened WrapFilter

  const LoadError: string := "Failed to load wrap history"
  const DeleteFallback: string := "Failed to delete wrap"
  const GeneratePath: string := "/wrapped"

  /** `deleteModal`: whether it is open and for which wrap. */
  datatype Modal = Modal(open: bool, wrapId: Option<nat>)

  const Closed: Modal := Modal(false, None)

  /** `alerts` records what `alert` was called with, most recent last. */
  datatype State = State(wraps: seq<WrapSummary>, loading: bool, error: Option<string>, modal: Modal, alerts: seq<ErrorField>)

  function Init(): State
  {
    State([], true, None, Closed, [])
  }

  /** `fetchWrapHistory`: the listed wraps or the load error; loading ends either way. */
  function Fetched(s: State, o: Outcome<seq<WrapSummary>>): (r: State)
    ensures !r.loading && r.modal == s.modal
    ensures o.Ok? ==> r.wraps == o.data && r.error == s.error
    ensures o.Err? ==> r.wraps == s.wraps && r.error == Some(LoadError)
  {
    match o
    case Ok(ws) => s.(wraps := ws, loading := false)
    case Err(_) => s.(error := Some(LoadError), loading := false)
  }

  /** `handleDeleteClick`: the modal opens for that wrap. */
  function DeleteClick(s: State, id: nat): (r: State)
    ensures r.modal == Modal(true, Some(id)) && r.wraps == s.wraps
  {
    s.(modal := Modal(true, Some(id)))
  }

  /** `handleDeleteCancel`: the modal closes and forgets its wrap. */
  function Cancel(s: State): (r: State)
    ensures r.modal == Closed && r.wraps == s.wraps && r.alerts == s.alerts
  {
    s.(modal := Closed)
  }

  /** `err.response?.data?.error || 'Failed to delete wrap'`: objects are truthy, the empty string is not. */
  function DeleteAlert(e: HttpError): (a: ErrorField)
    ensures a != ErrText("")
    ensures e.body.Some? && e.body.value.error.Some? && e.body.value.error.value != ErrText("") ==> a == e.body.value.error.value
    ensures e.body.None? || e.body.value.error.None? || e.body.value.error.value == ErrText("") ==> a == ErrText(DeleteFallback)
  {
    if e.body.Some? && e.body.value.error.Some? && e.body.value.error.value != ErrText("") then e.body.value.error.value
    else ErrText(DeleteFallback)
  }

  /**
   * `handleDeleteConfirm` with the outcome of `deleteWrap(deleteModal.wrapId)`:
   * success filters the list and closes the modal; failure alerts and keeps
   * both. With no wrap id in the modal the filter keeps every wrap, since
   * no id equals `null`.
   */
  function Confirm(s: State, o: Outcome<()>): (r: State)
    ensures r.loading == s.loading && r.error == s.error
    ensures o.Ok? ==> r.modal == Closed && r.alerts == s.alerts
    ensures o.Ok? && s.modal.wrapId.Some? ==> r.wraps == Remove(s.wraps, s.modal.wrapId.value)
    ensures o.Ok? && s.modal.wrapId.None? ==> r.wraps == s.wraps
    ensures o.Err? ==> r.wraps == s.wraps && r.modal == s.modal && r.alerts == s.alerts + [DeleteAlert(o.err)]
  {
    match o
    case Ok(_) =>
      var kept := match s.modal.wrapId case Some(id) => Remove(s.wraps, id) case None => s.wraps;
      s.(wraps := kept, modal := Closed)
    case Err(e) => s.(alerts := s.alerts + [DeleteAlert(e)])
  }

  /**
   * Clicking a wrap's delete icon and confirming removes exactly the wraps
   * with its id and keeps the rest in order.
   */
  lemma ClickThenConfirm(s: State, id: nat, a: seq<WrapSummary>, b: seq<WrapSummary>)
    requires s.wraps == a + b
    ensures Confirm(DeleteClick(s, id), Ok(())).wraps == Remove(a, id) + Remove(b, id)
    ensures |Confirm(DeleteClick(s, id), Ok(())).wraps| == |s.wraps| - CountId(s.wraps, id)
    ensures forall w :: w in Confirm(DeleteClick(s, id), Ok(())).wraps <==> w in s.wraps && w.id != id
  {
    RemoveAppend(a, b, id);
    RemoveCount(s.wraps, id);
  }

  /** Cancelling after a click leaves the list and the alerts as they were and closes the modal. */
  lemma ClickThenCancel(s: State, id: nat)
    ensures Cancel(DeleteClick(s, id)) == s.(modal := Closed)
  {
  }

  datatype Card = Card(title: string, link: string)

  datatype View = Loading | Failed(message: string) | Grid(cards: seq<Card>, dialogOpen: bool) | Prompt(to: string, dialogOpen: bool)

  function CardOf(w: WrapSummary): Card
  {
    Card(w.title, AppRoutes.WrappedPrefix + Text.NatToString(w.id))
  }

  /** Loading, then a non-empty error, then the grid when there are wraps, else the generate prompt. */
  function ViewOf(s: State): (v: View)
    ensures s.loading ==> v == Loading
    ensures !s.loading && s.error.Some? && s.error.value != "" ==> v == Failed(s.error.value)
    ensures v.Grid? <==> !s.loading && (s.error.None? || s.error.value == "") && |s.wraps| > 0
    ensures v.Grid? ==> |v.cards| == |s.wraps| && v.dialogOpen == s.modal.open
    ensures v.Grid? ==> forall i :: 0 <= i < |v.cards| ==> v.cards[i].title == s.wraps[i].title
    ensures v.Grid? ==> forall i :: 0 <= i < |v.cards| ==> v.cards[i] == CardOf(s.wraps[i])
    ensures v.Prompt? ==> v.to == GeneratePath && v.dialogOpen == s.modal.open
    ensures v.Prompt? <==> !s.loading && (s.error.None? || s.error.value == "") && |s.wraps| == 0
  {
    if s.loading then Loading
    else if s.error.Some? && s.error.value != "" then Failed(s.error.value)
    else if |s.wraps| > 0 then Grid(seq(|s.wraps|, i requires 0 <= i < |s.wraps| => CardOf(s.wraps[i])), s.modal.open)
    else Prompt(GeneratePath, s.modal.open)
  }

  /** Every card's "View Wrap" link is routed to the wrap detail page for that wrap's id. */
  lemma CardLinkRoutes(w: WrapSummary)
    ensures AppRoutes.Match(CardOf(w).link) == Some(AppRoutes.WrappedHistoryPage(Text.NatToString(w.id)))
  {
    var digits := Text.NatToString(w.id);
    var path := AppRoutes.WrappedPrefix + digits;
    assert path[..|AppRoutes.WrappedPrefix|] == AppRoutes.WrappedPrefix;
    assert path[|AppRoutes.WrappedPrefix|..] == digits;
    assert '/' !in digits by {
      forall i | 0 <= i < |digits| ensures digits[i] != '/' {
        assert Text.IsDigit(digits[i]);
      }
    }
    assert AppRoutes.IsWrapDetailPath(path);
    assert path[1] == 'w' && path[5] == 'p' && |path| > 9;
    assert path !in {"/", "/login", "/register", "/profile", "/dashboard", "/spotify/callback", "/wrapped", "/wrap-history", "/callback"};
  }

  /** The generate prompt links to the guarded wrapped page. */
  lemma PromptRoutes()
    ensures AppRoutes.Match(GeneratePath) == Some(AppRoutes.WrappedPage)
  {
  }
}

/**
 * The older history page: deletes are gated by a confirm dialog, failures
 * are only logged, and there is no error screen.
 */
module LegacyWrapHistory {
  import opened Http
  import opened WrapFilter

  const GeneratePath: string := "/generate"

  datatype State = State(wraps: seq<WrapSummary>, loading: bool)

  function Init(): State
  {
    State([], true)
  }

  /** `fetchWraps`: a failed fetch keeps the empty list; loading ends either way. */
  function Fetched(s: State, o: Outcome<seq<WrapSummary>>): (r: State)
    ensures !r.loading
    ensures o.Ok? ==> r.wraps == o.data
    ensures o.Err? ==> r.wraps == s.wraps
  {
    match o
    case Ok(ws) => State(ws, false)
    case Err(_) => s.(loading := false)
  }

  /**
   * `handleDelete`: `confirmed` is what `window.confirm` returned; the
   * outcome of the delete request is consulted only after a yes.
   */
  function Delete(s: State, id: nat, confirmed: bool, o: Outcome<()>): (r: State)
    ensures r.loading == s.loading
    ensures !confirmed || o.Err? ==> r == s
    ensures confirmed && o.Ok? ==> r.wraps == Remove(s.wraps, id)
  {
    if confirmed && o.Ok? then s.(wraps := Remove(s.wraps, id)) else s
  }

  datatype View = Grid(titles: seq<string>) | Prompt(to: string)

  /** The grid when there are wraps, else the generate prompt; loading and failures are not shown. */
  function ViewOf(s: State): (v: View)
    ensures v.Prompt? <==> |s.wraps| == 0
    ensures v.Prompt? ==> v.to == GeneratePath
    ensures v.Grid? ==> |v.titles| == |s.wraps| && forall i :: 0 <= i < |v.titles| ==> v.titles[i] == s.wraps[i].title
  {
    if |s.wraps| > 0 then Grid(seq(|s.wraps|, i requires 0 <= i < |s.wraps| => s.wraps[i].title))
    else Prompt(GeneratePath)
  }

  /** A failed first fetch shows the generate prompt, as an empty history would. */
  lemma FailedFetchShowsPrompt(e: HttpError)
    ensures ViewOf(Fetched(Init(), Err(e))) == Prompt(GeneratePath)
  {
  }

  /** Declining the dialog deletes nothing, whatever the server would have said. */
  lemma DeclineKeepsAll(s: State, id: nat, o: Outcome<()>)
    ensures Delete(s, id, false, o) == s
    ensures CountId(Delete(s, id, true, Ok(())).wraps, id) == 0
  {
    RemoveCount(s.wraps, id);
  }
}

=== FILE: wrapped.dfy ===
/**
 * The nine-slide Wrapped deck: one fetch of the wrapped data, a render
 * cascade (loading, error, missing data, slides) and bounded navigation.
 */
module Wrapped {
  import opened Wrappers
  import opened Http
  import opened Music
  import opened Rows
  import Deck

  const SlideCount: nat := 9
  const LoadError: string := "Failed to load your Wrapped data"

  datatype Content =
    | Intro
    | ArtistList(artists: seq<Row<Artist>>)
    | TrackList(tracks: seq<Row<Track>>)
    | ButWait
    | Countdown(place: nat, track: Option<Track>)
    | Recap

  datatype Slide = Slide(content: Content, buttons: Buttons)

  const Both := Buttons(true, true)

  /** The `slides` array, in order. */
  function Slides(d: WrapData): (s: seq<Slide>)
    ensures |s| == SlideCount
  {
    [ Slide(Intro, Buttons(false, true)),
      Slide(ArtistList(TopRows(d.topArtistsRecent)), Both),
      Slide(ArtistList(TopRows(d.topArtistsAllTime)), Both),
      Slide(TrackList(TopRows(d.topTracksAllTime)), Both),
      Slide(ButWait, Both),
      Slide(Countdown(3, CountdownAt(d.topTracksRecent, 2)), Both),
      Slide(Countdown(2, CountdownAt(d.topTracksRecent, 1)), Both),
      Slide(Countdown(1, CountdownAt(d.topTracksRecent, 0)), Both),
      Slide(Recap, Buttons(true, false)) ]
  }

  /** Every slide offers Previous unless it is the first and Next unless it is the last. */
  lemma SlideButtons(d: WrapData)
    ensures forall i :: 0 <= i < SlideCount ==>
      Slides(d)[i].buttons == Buttons(i > 0, i < SlideCount - 1)
  {
  }

  /**
   * Slides 6, 7 and 8 count down the recent tracks #3, #2 and #1 (list
   * indices 2, 1, 0), each showing a track exactly when that index exists.
   */
  lemma CountdownSlides(d: WrapData)
    ensures CountsDown(Slides(d)[5], 3, d.topTracksRecent)
    ensures CountsDown(Slides(d)[6], 2, d.topTracksRecent)
    ensures CountsDown(Slides(d)[7], 1, d.topTracksRecent)
  {
  }

  /** The slide counts down place `place`, showing list entry `place - 1` only when it exists. */
  predicate CountsDown(slide: Slide, place: nat, recent: Option<seq<Track>>)
    requires place >= 1
  {
    && slide.content.Countdown?
    && slide.content.place == place
    && (slide.content.track.Some? <==> place - 1 < |Items(recent)|)
    && (slide.content.track.Some? ==> slide.content.track.value == Items(recent)[place - 1])
  }

  datatype State = State(nav: Deck.Nav, data: Option<WrapData>, loading: bool, error: Option<string>)

  predicate Valid(s: State)
  {
    s.nav.count == SlideCount && Deck.InRange(s.nav)
  }

  /** The component as first rendered: slide 1, loading, no data, no error. */
  function Init(): (s: State)
    ensures Valid(s) && s.loading && s.data.None? && s.error.None?
  {
    State(Deck.Start(SlideCount), None, true, None)
  }

  /** `fetchWrappedData`: the response body (possibly null) or the error message; loading ends either way. */
  function Loaded(s: State, o: Outcome<Option<WrapData>>): (r: State)
    ensures !r.loading && r.nav == s.nav
    ensures o.Ok? ==> r.data == o.data && r.error == s.error
    ensures o.Err? ==> r.error == Some(LoadError) && r.data == s.data
  {
    match o
    case Ok(d) => s.(data := d, loading := false)
    case Err(_) => s.(error := Some(LoadError), loading := false)
  }

  function NextSlide(s: State): State { s.(nav := Deck.Next(s.nav)) }

  function PreviousSlide(s: State): State { s.(nav := Deck.Previous(s.nav)) }

  datatype View = Loading | Failed(message: string) | NoData | Showing(number: nat, slide: Slide)

  /** The render cascade: loading, then error, then missing data, then `slides[currentSlide - 1]`. */
  function ViewOf(s: State): (v: View)
    requires Valid(s)
    ensures s.loading ==> v == Loading
    ensures !s.loading && s.error.Some? ==> v == Failed(s.error.value)
    ensures !s.loading && s.error.None? && s.data.None? ==> v == NoData
    ensures v.Showing? <==> !s.loading && s.error.None? && s.data.Some?
    ensures v.Showing? ==> v.number == s.nav.current
    ensures v.Showing? ==> 1 <= v.number <= SlideCount && v.slide == Slides(s.data.value)[v.number - 1]
  {
    if s.loading then Loading
    else if s.error.Some? then Failed(s.error.value)
    else if s.data.None? then NoData
    else Showing(s.nav.current, Slides(s.data.value)[s.nav.current - 1])
  }

  datatype Event = Fetched(outcome: Outcome<Option<WrapData>>) | ClickNext | ClickPrevious

  function Step(s: State, e: Event): State
  {
    match e
    case Fetched(o) => Loaded(s, o)
    case ClickNext => NextSlide(s)
    case ClickPrevious => PreviousSlide(s)
  }

  function Run(s: State, es: seq<Event>): State
    decreases |es|
  {
    if |es| == 0 then s else Run(Step(s, es[0]), es[1..])
  }

  /** Whatever happens, the index stays within the nine slides. */
  lemma {:induction false} RunValid(s: State, es: seq<Event>)
    requires Valid(s)
    ensures Valid(Run(s, es))
    decreases |es|
  {
    if |es| > 0 {
      RunValid(Step(s, es[0]), es[1..]);
    }
  }

  /** The outcome of the fetch decides the first screen. */
  lemma FirstScreen(o: Outcome<Option<WrapData>>)
    ensures o.Err? ==> ViewOf(Loaded(Init(), o)) == Failed(LoadError)
    ensures o.Ok? && o.data.None? ==> ViewOf(Loaded(Init(), o)) == NoData
    ensures o.Ok? && o.data.Some? ==> ViewOf(Loaded(Init(), o)) == Showing(1, Slides(o.data.value)[0])
  {
  }

  /**
   * The buttons a shown slide offers never do nothing: Next moves forward
   * exactly when it is offered, Previous moves back exactly when it is offered.
   */
  lemma OfferedButtonsMove(s: State)
    requires Valid(s) && ViewOf(s).Showing?
    ensures ViewOf(s).slide.buttons.next <==> NextSlide(s).nav.current == s.nav.current + 1
    ensures ViewOf(s).slide.buttons.prev <==> PreviousSlide(s).nav.current == s.nav.current - 1
  {
  }
}

=== FILE: wrapped_history.dfy ===
/**
 * The locally stored wrap history: the stored snapshots are reduced to one
 * per time range (the first one stored wins), sorted newest first, and shown
 * as a list in which clicking an entry expands or collapses it.
 */
module WrappedHistory {
  import opened Wrappers
  import opened Music
  import opened Rows
  import Sorting

  /** One stored snapshot; `timestamp` stands for `new Date(wrap.timestamp)` in milliseconds. */
  datatype Snapshot = Snapshot(timestamp: int, timeRange: string, data: WrapData)

  function Timestamp(w: Snapshot): int { w.timestamp }

  function RangesOf(ws: seq<Snapshot>): set<string>
  {
    set w | w in ws :: w.timeRange
  }

  /** No two positions carry the same time range. */
  predicate UniqueRanges(ws: seq<Snapshot>)
  {
    forall i, j :: 0 <= i < j < |ws| ==> ws[i].timeRange != ws[j].timeRange
  }

  /** Position `i` is the first stored snapshot of its time range. */
  predicate FirstOfRange(ws: seq<Snapshot>, i: int)
    requires 0 <= i < |ws|
  {
    forall j :: 0 <= j < i ==> ws[j].timeRange != ws[i].timeRange
  }

  /** The `reduce` callback: append `current` unless `acc.find` already has its time range. */
  function Absorb(acc: seq<Snapshot>, current: Snapshot): seq<Snapshot>
  {
    if current.timeRange in RangesOf(acc) then acc else acc + [current]
  }

  function AbsorbAll(acc: seq<Snapshot>, ws: seq<Snapshot>): seq<Snapshot>
    decreases |ws|
  {
    if |ws| == 0 then acc else AbsorbAll(Absorb(acc, ws[0]), ws[1..])
  }

  /** `wraps.reduce(..., [])`. */
  function Dedupe(ws: seq<Snapshot>): seq<Snapshot>
  {
    AbsorbAll([], ws)
  }

  /**
   * The reference definition: the snapshots that no earlier snapshot shares a
   * time range with, in stored order, written by peeling off the last one.
   */
  function Firsts(ws: seq<Snapshot>): seq<Snapshot>
    decreases |ws|
  {
    if |ws| == 0 then []
    else
      var p := ws[..|ws| - 1];
      Firsts(p) + (if ws[|ws| - 1].timeRange in RangesOf(p) then [] else [ws[|ws| - 1]])
  }

  lemma RangesSnoc(p: seq<Snapshot>, x: Snapshot)
    ensures RangesOf(p + [x]) == RangesOf(p) + {x.timeRange}
  {
  }

  /** The first occurrences cover exactly the stored time ranges. */
  lemma {:induction false} FirstsRanges(ws: seq<Snapshot>)
    ensures RangesOf(Firsts(ws)) == RangesOf(ws)
    decreases |ws|
  {
    if |ws| > 0 {
      var p := ws[..|ws| - 1];
      var last := ws[|ws| - 1];
      FirstsRanges(p);
      assert ws == p + [last];
      RangesSnoc(p, last);
      if last.timeRange !in RangesOf(p) {
        RangesSnoc(Firsts(p), last);
      }
    }
  }

  /** Every first occurrence is a stored snapshot. */
  lemma {:induction false} FirstsFromStored(ws: seq<Snapshot>)
    ensures forall w :: w in Firsts(ws) ==> w in ws
    decreases |ws|
  {
    if |ws| > 0 {
      var p := ws[..|ws| - 1];
      FirstsFromStored(p);
      assert ws == p + [ws[|ws| - 1]];
    }
  }

  /** No two first occurrences share a time range. */
  lemma {:induction false} FirstsUnique(ws: seq<Snapshot>)
    ensures UniqueRanges(Firsts(ws))
    decreases |ws|
  {
    if |ws| > 0 {
      var p := ws[..|ws| - 1];
      var last := ws[|ws| - 1];
      FirstsUnique(p);
      FirstsRanges(p);
      var fp := Firsts(p);
      if last.timeRange !in RangesOf(p) {
        var f := fp + [last];
        forall i, j | 0 <= i < j < |f|
          ensures f[i].timeRange != f[j].timeRange
        {
          if j == |f| - 1 {
            assert f[i] == fp[i] && f[i] in fp;
          } else {
            assert f[i] == fp[i] && f[j] == fp[j];
          }
        }
      }
    }
  }

  /** Every snapshot that is the first of its time range survives. */
  lemma FirstsKeepFirst(ws: seq<Snapshot>)
    ensures forall i :: 0 <= i < |ws| && FirstOfRange(ws, i) ==> ws[i] in Firsts(ws)
  {
    forall i | 0 <= i < |ws| && FirstOfRange(ws, i)
      ensures ws[i] in Firsts(ws)
    {
      FirstKept(ws, i);
    }
  }

  lemma {:induction false} FirstKept(ws: seq<Snapshot>, i: int)
    requires 0 <= i < |ws| && FirstOfRange(ws, i)
    ensures ws[i] in Firsts(ws)
    decreases |ws|
  {
    var n := |ws| - 1;
    var p := ws[..n];
    var last := ws[n];
    var tail := if last.timeRange in RangesOf(p) then [] else [last];
    assert Firsts(ws) == Firsts(p) + tail;
    if i < n {
      assert FirstOfRange(p, i) by {
        forall j | 0 <= j < i
          ensures p[j].timeRange != p[i].timeRange
        {
          assert p[j] == ws[j] && p[i] == ws[i];
        }
      }
      FirstKept(p, i);
      assert p[i] == ws[i];
    } else {
      LastRangeIsNew(ws);
      assert tail == [last];
    }
  }

  /** The last snapshot, when first of its range, brings a range the earlier ones lack. */
  lemma LastRangeIsNew(ws: seq<Snapshot>)
    requires |ws| > 0 && FirstOfRange(ws, |ws| - 1)
    ensures ws[|ws| - 1].timeRange !in RangesOf(ws[..|ws| - 1])
  {
  }

  /** One `reduce` step extends the first occurrences by one stored snapshot. */
  lemma FirstsSnoc(p: seq<Snapshot>, x: Snapshot)
    ensures Firsts(p + [x]) == Absorb(Firsts(p), x)
  {
    var q := p + [x];
    assert q[..|q| - 1] == p;
    FirstsRanges(p);
  }

  /** The fold continued from the first occurrences of a prefix gives those of the whole. */
  lemma {:induction false} AbsorbAllFirsts(p: seq<Snapshot>, s: seq<Snapshot>)
    ensures AbsorbAll(Firsts(p), s) == Firsts(p + s)
    decreases |s|
  {
    if |s| == 0 {
      assert p + s == p;
    } else {
      var q := p + [s[0]];
      var rest := s[1..];
      var acc := Absorb(Firsts(p), s[0]);
      assert AbsorbAll(Firsts(p), s) == AbsorbAll(acc, rest);
      assert acc == Firsts(q) by { FirstsSnoc(p, s[0]); }
      assert AbsorbAll(Firsts(q), rest) == Firsts(q + rest) by { AbsorbAllFirsts(q, rest); }
      assert q + rest == p + s;
    }
  }

  /** The `reduce` keeps exactly the first stored snapshot of each time range, in stored order. */
  lemma DedupeIsFirsts(ws: seq<Snapshot>)
    ensures Dedupe(ws) == Firsts(ws)
  {
    AbsorbAllFirsts([], ws);
    assert [] + ws == ws;
  }

  /** `uniqueWraps.sort((a, b) => new Date(b.timestamp) - new Date(a.timestamp))`. */
  function History(ws: seq<Snapshot>): seq<Snapshot>
  {
    Sorting.SortDesc(Dedupe(ws), Timestamp)
  }

  /**
   * The shown history: newest first, one snapshot per stored time range,
   * each the first stored snapshot of its range (not the newest one), and
   * empty exactly when nothing is stored.
   */
  lemma HistoryFacts(ws: seq<Snapshot>)
    ensures Sorting.SortedDesc(History(ws), Timestamp)
    ensures forall w :: w in History(ws) ==> w in ws
    ensures forall v, w :: v in History(ws) && w in History(ws) && v.timeRange == w.timeRange ==> v == w
    ensures RangesOf(History(ws)) == RangesOf(ws)
    ensures forall i :: 0 <= i < |ws| && FirstOfRange(ws, i) ==> ws[i] in History(ws)
    ensures |History(ws)| == 0 <==> |ws| == 0
  {
    HistoryMembers(ws);
    FirstsOnePerRange(ws);
    FirstsRanges(ws);
    FirstsFromStored(ws);
    FirstsKeepFirst(ws);
    assert RangesOf(History(ws)) == RangesOf(Firsts(ws));
    if |ws| > 0 {
      assert FirstOfRange(ws, 0);
    }
  }

  /** The history holds the first occurrences, reordered newest first. */
  lemma HistoryMembers(ws: seq<Snapshot>)
    ensures forall w :: w in History(ws) <==> w in Firsts(ws)
    ensures |History(ws)| == |Firsts(ws)|
    ensures Sorting.SortedDesc(History(ws), Timestamp)
  {
    DedupeIsFirsts(ws);
    var f := Firsts(ws);
    Sorting.SortDescSorted(f, Timestamp);
    forall w
      ensures w in History(ws) <==> w in f
    {
      assert w in History(ws) <==> w in multiset(History(ws));
    }
  }

  /** Two first occurrences with the same time range are the same snapshot. */
  lemma FirstsOnePerRange(ws: seq<Snapshot>)
    ensures forall v, w :: v in Firsts(ws) && w in Firsts(ws) && v.timeRange == w.timeRange ==> v == w
  {
    FirstsUnique(ws);
    var f := Firsts(ws);
    forall v, w | v in f && w in f && v.timeRange == w.timeRange
      ensures v == w
    {
      var i :| 0 <= i < |f| && f[i] == v;
      var j :| 0 <= j < |f| && f[j] == w;
      assert i == j;
    }
  }


  /** Stored out of order, the first snapshot of a range survives even when a later one is newer. */
  lemma FirstStoredWins(earlier: Snapshot, newer: Snapshot)
    requires earlier.timeRange == newer.timeRange && earlier.timestamp < newer.timestamp
    ensures History([earlier, newer]) == [earlier]
  {
    var ws := [earlier, newer];
    DedupeIsFirsts(ws);
    FirstsSnoc([], earlier);
    assert [] + [earlier] == [earlier];
    FirstsSnoc([earlier], newer);
    assert [earlier] + [newer] == ws;
    assert earlier in [earlier];
    assert Firsts(ws) == [earlier];
    assert Sorting.SortDesc([earlier], Timestamp) == Sorting.Insert(earlier, Sorting.SortDesc([], Timestamp), Timestamp);
  }

  /** `getTimeRangeText`. */
  function TimeRangeText(timeRange: string): (text: string)
    ensures timeRange == "short_term" ==> text == "Last 4 Weeks"
    ensures timeRange == "medium_term" ==> text == "Last 6 Months"
    ensures timeRange == "long_term" ==> text == "All Time"
  {
    match timeRange
    case "short_term" => "Last 4 Weeks"
    case "medium_term" => "Last 6 Months"
    case "long_term" => "All Time"
    case _ => ""
  }

  /** Only the three known time ranges get a label, and they get different ones. */
  lemma TimeRangeLabels(a: string, b: string)
    ensures TimeRangeText(a) != "" <==> a in TimeRanges
    ensures TimeRangeText(a) == TimeRangeText(b) && a in TimeRanges ==> a == b
  {
  }

  /** `handleWrapClick`: clicking the selected wrap (same timestamp) deselects, any other selects it. */
  function Toggle(selected: Option<Snapshot>, w: Snapshot): (r: Option<Snapshot>)
    ensures selected.Some? && selected.value.timestamp == w.timestamp ==> r.None?
    ensures selected.None? || selected.value.timestamp != w.timestamp ==> r == Some(w)
  {
    if selected.Some? && selected.value.timestamp == w.timestamp then None else Some(w)
  }

  /** An entry is expanded when its timestamp is the selected one's. */
  predicate Expanded(selected: Option<Snapshot>, w: Snapshot)
  {
    selected.Some? && selected.value.timestamp == w.timestamp
  }

  /**
   * After a click, the entries expanded are those sharing the clicked
   * entry's timestamp, unless it was already expanded, in which case none
   * are; a second click on the same entry collapses it again.
   */
  lemma ClickExpands(hist: seq<Snapshot>, selected: Option<Snapshot>, w: Snapshot)
    ensures forall i :: 0 <= i < |hist| ==>
      (Expanded(Toggle(selected, w), hist[i]) <==> !Expanded(selected, w) && hist[i].timestamp == w.timestamp)
    ensures !Expanded(selected, w) ==> Expanded(Toggle(selected, w), w)
    ensures Toggle(Toggle(None, w), w).None?
  {
  }

  /** With distinct timestamps, at most one entry is expanded at a time. */
  lemma AtMostOneExpanded(hist: seq<Snapshot>, selected: Option<Snapshot>)
    requires forall i, j :: 0 <= i < j < |hist| ==> hist[i].timestamp != hist[j].timestamp
    ensures forall i, j :: 0 <= i < |hist| && 0 <= j < |hist| && Expanded(selected, hist[i]) && Expanded(selected, hist[j]) ==> i == j
  {
  }

  /** `value || 'N/A'` for a quick stat. */
  function StatOr(value: Option<string>): (r: string)
    ensures r == "N/A" <==> value.None? || value.value == "" || value.value == "N/A"
    ensures r != "N/A" ==> value == Some(r)
  {
    if value.Some? && value.value != "" then value.value else "N/A"
  }

  /** The expanded part of an entry: three top-five sections and three quick stats. */
  datatype Details = Details(
    recentTracks: seq<Row<Track>>,
    timelessTracks: seq<Row<Track>>,
    artists: seq<Row<Artist>>,
    topGenre: string,
    topArtist: string,
    topTrack: string)

  /** `topArtistsRecent?.items[0]?.genres?.[0]`. */
  function FirstGenre(d: WrapData): Option<string>
  {
    var artists := Items(d.topArtistsRecent);
    if |artists| > 0 && artists[0].genres.Some? && |artists[0].genres.value| > 0
    then Some(artists[0].genres.value[0]) else None
  }

  function DetailsOf(d: WrapData): (r: Details)
    ensures |r.recentTracks| <= TopCount && |r.timelessTracks| <= TopCount && |r.artists| <= TopCount
    ensures r.recentTracks == TopRows(d.topTracksRecent)
    ensures r.timelessTracks == TopRows(d.topTracksAllTime)
    ensures r.artists == TopRows(d.topArtistsRecent)
    ensures |Items(d.topArtistsRecent)| > 0 && Items(d.topArtistsRecent)[0].name != "" ==>
      r.topArtist == Items(d.topArtistsRecent)[0].name
    ensures |Items(d.topTracksRecent)| > 0 && Items(d.topTracksRecent)[0].name != "" ==>
      r.topTrack == Items(d.topTracksRecent)[0].name
    ensures FirstGenre(d).Some? && FirstGenre(d).value != "" ==> r.topGenre == FirstGenre(d).value
    ensures r.topArtist == "N/A" <==>
      |Items(d.topArtistsRecent)| == 0 || Items(d.topArtistsRecent)[0].name in {"", "N/A"}
    ensures r.topTrack == "N/A" <==>
      |Items(d.topTracksRecent)| == 0 || Items(d.topTracksRecent)[0].name in {"", "N/A"}
    ensures r.topGenre == "N/A" <==> FirstGenre(d).None? || FirstGenre(d).value in {"", "N/A"}
    ensures |Items(d.topArtistsRecent)| == 0 ==> r.topGenre == "N/A" && r.topArtist == "N/A"
    ensures |Items(d.topTracksRecent)| == 0 ==> r.topTrack == "N/A"
    ensures r.topArtist != "N/A" ==> r.topArtist == Items(d.topArtistsRecent)[0].name
    ensures r.topTrack != "N/A" ==> r.topTrack == Items(d.topTracksRecent)[0].name
  {
    var artists := Items(d.topArtistsRecent);
    var tracks := Items(d.topTracksRecent);
    Details(
      TopRows(d.topTracksRecent),
      TopRows(d.topTracksAllTime),
      TopRows(d.topArtistsRecent),
      StatOr(FirstGenre(d)),
      StatOr(if |artists| > 0 then Some(artists[0].name) else None),
      StatOr(if |tracks| > 0 then Some(tracks[0].name) else None))
  }

  datatype Entry = Entry(timestamp: int, rangeText: string, details: Option<Details>)

  datatype View = NoHistory | Listing(entries: seq<Entry>)

  /** The component for the stored snapshots `ws` and the current selection. */
  function ViewOf(ws: seq<Snapshot>, selected: Option<Snapshot>): (v: View)
    ensures v == NoHistory <==> |History(ws)| == 0
    ensures v.Listing? ==> |v.entries| == |History(ws)|
    ensures v.Listing? ==> forall i :: 0 <= i < |v.entries| ==>
      && v.entries[i].timestamp == History(ws)[i].timestamp
      && v.entries[i].rangeText == TimeRangeText(History(ws)[i].timeRange)
      && (v.entries[i].details.Some? <==> Expanded(selected, History(ws)[i]))
  {
    var h := History(ws);
    if |h| == 0 then NoHistory
    else Listing(seq(|h|, i requires 0 <= i < |h| =>
      Entry(h[i].timestamp, TimeRangeText(h[i].timeRange),
            if Expanded(selected, h[i]) then Some(DetailsOf(h[i].data)) else None)))
  }
}

=== FILE: wrappers.dfy ===
/** Optional values: JavaScript's `null`/`undefined` and Python's `None`. */
module Wrappers {

  datatype Option<+T> = None | Some(value: T) {

    /** The value, or `default` when absent (JavaScript's `x ?? default`). */
    function GetOr(default: T): T {
      match this
      case Some(v) => v
      case None => default
    }
  }
}

/**
 * Backend calls seen from the browser. Every `await api.x(...)` of the
 * front end is modelled as an `Outcome` value supplied by the caller: either
 * the response body, or the error that axios throws.
 */
module Http {
  import opened Wrappers

  /** The `error` member of an error body: a plain message or a field map. */
  datatype ErrorField =
    | ErrText(text: string)
    | ErrFields(fields: seq<(string, seq<string>)>)

  /** `err.response.data`: the members the front end looks at. */
  datatype ErrorBody = ErrorBody(error: Option<ErrorField>, message: Option<string>)

  /** A thrown request: `status` is `None` when no response arrived at all. */
  datatype HttpError = HttpError(status: Option<int>, body: Option<ErrorBody>)

  datatype Outcome<+T> = Ok(data: T) | Err(err: HttpError)

  /** `err.response?.data?.message`, with JavaScript truthiness (an empty string counts as absent). */
  function MessageOf(e: HttpError): (r: Option<string>)
    ensures r.Some? ==> r.value != ""
    ensures r.Some? <==> e.body.Some? && e.body.value.message.Some? && e.body.value.message.value != ""
  {
    if e.body.Some? && e.body.value.message.Some? && e.body.value.message.value != ""
    then Some(e.body.value.message.value)
    else None
  }
}
